=== FILE: README.md ===
# cl-timer in Dafny

A model of the drawing and parsing core of cl-timer, a terminal speed-cube timer.
The timer draws everything onto a character `Canvas`:
- the big seven-segment clock (`NumberDisplay`);
- the scramble, wrapped to the width of the screen;
- an input line, the `:` command line of the old and new versions;
- a block cursor.

It generates scrambles that never turn the same side twice in a redundant
way. It also tokenizes the commands typed at its prompt.

The model is a functional one. A canvas is a `seq<seq<char>>`. Each image
operation returns the new grid, or the new image state, or both. Each Python
exception the code lets escape becomes an `Err` of `Results.Result`. Python's
subscript rules are modelled exactly by `Text.ResolveIndex`:
- negative indices count from the end;
- anything else raises IndexError.

The modules follow the source:

| module | source |
|---|---|
| `Canvas`, `Images`, `Cursor` | `Canvas`, `Char`, `Image`, `Cursor` in cl_timer/graphics.py, with the old `Canvas.replace`, `Char` and `Image.render` of cl-timer/graphics.py |
| `InputLine` | `InputLine` and `CommandInput` of cl_timer/graphics.py |
| `CommandInput` | `CommandInput` of cl-timer/graphics.py |
| `Clock`, `Art` | `NumberDisplay` of cl_timer/graphics.py and the glyph tables of cl_timer/art.py |
| `Wrap` | `break_top_line`, `CoverUpImage` and `Scramble` of cl_timer/graphics.py |
| `Scramble` | cl-timer/scramble.py |
| `Utils` | `add_zero` of cl_timer/utils.py |
| `Interpreter` | the front end of `interpret` in cl_timer/interpreter.py |
| `Text`, `Results` | the Python string and list primitives involved, and the exceptions |

Where the code and its comments or documentation disagree, the model follows the code:
- `Canvas.replace` writes `grid[h - 1 - y][x]`, and `display` reverses the rows. So `y = 0` is the TOP line of the displayed text, not the bottom-left corner the old docstring names. Rows `y` in `[h, 2h)` and negative `x` wrap around as Python subscripts do.
- `Scramble.render` compares with `:=` binding the boolean (cl_timer/graphics.py:407). The model uses the comparison its comment describes: the new remainder against the old one.

Four spots cannot run as written. The model takes the evident intent of each:
- `Char.fromstring` has its `for` clauses in the wrong order, so `line` is used before it is bound. The model yields one cell per line and column, row by row.
- `InputLine` calls `update_chars()` without `self`. The model calls the method.
- `InputLine.__init__` reads `self.canvas` before `Image.__init__` sets it. The model uses the `canvas` argument. Its blank padding of `prompt + grid[-1]` is one blank per prompt character and per cell of the last row.
- The walrus of the `Scramble.render` loop is the comparison described above.

## Model

| member | source | states |
|---|---|---|
| Canvas.NewCanvas | cl_timer/graphics.py:17-19 | a new canvas has `height` rows of `width` blanks |
| Canvas.Replace | cl_timer/graphics.py:21-29 | `replace` never changes the number of rows or any row's width |
| Canvas.ReplaceCell | cl_timer/graphics.py:21-29 | `replace` changes only the cell its subscripts resolve to, which then holds the character; an unresolvable subscript is swallowed and changes nothing |
| Canvas.ReplaceChangesAtMostOneCell | cl_timer/graphics.py:21-29 | any two cells changed by one `replace` are the same cell |
| Canvas.ReplaceTarget | cl_timer/graphics.py:21-29 | on an h-by-w grid a write lands iff `0 <= y < 2h` and `-w <= x < w`; in range it lands on row `h-1-y`, column `x`; `y` in `[h,2h)` and negative `x` wrap as Python subscripts do |
| Canvas.StrictReplace | cl-timer/graphics.py:7-14 | the old `replace` succeeds exactly when the subscripts resolve, and then writes what the new one writes; otherwise IndexError |
| Canvas.Display | cl_timer/graphics.py:31-37 | the rows joined in reverse order by line breaks; `Canvas.DisplayLines` states that it has one line per row, line `k` being grid row `h-1-k` |
| Canvas.Lines | cl_timer/graphics.py:36-37 | the display split back at its line breaks; `Canvas.DisplayLines` and `Canvas.ReplaceThenDisplay` state what each line shows |
| Canvas.DisplayLines | cl_timer/graphics.py:31-37 | `display` has one line per row, each as wide as the grid; line `k` from the top is grid row `h-1-k` |
| Canvas.ReplaceThenDisplay | cl_timer/graphics.py:21-37 | after an in-range `replace(x, y, c)`, display line `y` shows `c` in column `x`, and every other displayed character and all dimensions are unchanged |
| Images.Stamp | cl_timer/graphics.py:98-103 | the writes of `render`'s loop applied in order through `replace`; it keeps the canvas's shape, and `Images.StampCell` states that each cell ends with the last write landing on it |
| Images.StampCell | cl_timer/graphics.py:98-103 | after a run of writes a cell holds the character of the last write landing on it, or its old character when none does |
| Images.StampAppend | cl_timer/graphics.py:102-103 | writing `a` then `b` is writing `a + b` |
| Images.Render | cl_timer/graphics.py:98-103 | `render` keeps the canvas's shape |
| Images.Hide | cl_timer/graphics.py:94-95 | blanking a footprint keeps the canvas's shape |
| Images.RenderCell | cl_timer/graphics.py:98-103 | `render` shows at each covered cell the character of the last image cell landing there; uncovered cells keep their character |
| Images.HideCell | cl_timer/graphics.py:94-95 | blanking an image's footprint, as the `displayed_chars` setter and `Scramble.clear` do, blanks exactly the cells it covers |
| Images.HideUndoesRender | cl_timer/graphics.py:380-388 | `Scramble.clear` (blank each cell's target) after `render` leaves exactly the grid that clearing alone leaves: the image leaves no trace |
| Images.SetDisplayedChars | cl_timer/graphics.py:87-96 | the `displayed_chars` setter blanks the old footprint and installs the new cells without drawing them |
| Images.CoverUpCell | cl_timer/graphics.py:328-336 | after the `CoverUpImage.chars` setter each cell shows the new image where it covers, a blank where an old cell's column on the origin row lands, and its old character otherwise |
| Images.CoverUpSet | cl_timer/graphics.py:328-336 | the `chars` setter keeps the origin, installs exactly the new cells and keeps the canvas's shape |
| Images.CoverUpKeepsOtherRows | cl_timer/graphics.py:328-336 | a concrete case: the setter blanks only the origin row, so an old glyph drawn one row off it survives |
| Images.FromString | cl_timer/graphics.py:58-65 | `Char.fromstring` as its comprehension evidently intends; `Images.FromStringSpec` states its cells are exactly the text's characters at their line and column, row by row |
| Images.FromStringSpec | cl_timer/graphics.py:58-65 | `fromstring` yields exactly one cell per non-break character, with the character found at its line and column, and every such character has its cell, in row-major order |
| Images.JoinedCells | cl_timer/graphics.py:411-412 | lines without breaks joined by `'\n'` and read by `fromstring` give cells holding exactly those lines: each cell is its line's character at its column, and each character has its cell |
| Images.FromStringLine | cl_timer/graphics.py:64-65 | a single line becomes one cell per character on row 0 |
| Images.RowTextFromString | cl_timer/graphics.py:397 | the text of a single line is recovered from its cells |
| Images.MakeCell | cl-timer/graphics.py:25-32 | the old `Char` succeeds iff given exactly one character, else ValueError |
| Images.StrictRenderAgrees | cl-timer/graphics.py:45-54 | the old `render` succeeds iff every cell's position resolves, and then draws what the new render draws, later cells winning |
| Images.StrictStampAgrees | cl-timer/graphics.py:45-54 | a run of unguarded writes succeeds iff every write resolves, and then equals the guarded run |
| Cursor.NewCursor | cl_timer/graphics.py:423-430 | the cursor at the origin with previous position equal to it and the full block as glyph; `Cursor.NewCursorRender` states what its first render draws |
| Cursor.NewCursorRender | cl_timer/graphics.py:423-448 | a new cursor's first render puts the full block at grid row 0, column 0 (the left end of the bottom display line) and changes no other cell |
| Cursor.Move | cl_timer/graphics.py:450-459 | `move` records the old position as previous and draws nothing |
| Cursor.RenderCells | cl_timer/graphics.py:432-448 | `render` blanks grid cell (previous x, previous y), draws the glyph at grid cell (x, y), and changes nothing else |
| Cursor.Render | cl_timer/graphics.py:432-448 | `render` keeps the canvas's shape, shows the glyph at grid cell (x, y) when that cell exists, and changes any other cell only to a blank or the glyph |
| Cursor.MoveThenRender | cl_timer/graphics.py:432-459 | moving then rendering shows the glyph on display line `h-1-x`, column `y`, and erases the old spot |
| Cursor.HideIsPermanent | cl_timer/graphics.py:461-466 | after `hide` the cursor's cell is blank, and a later move and render draws a blank at the new spot |
| Cursor.Hide | cl_timer/graphics.py:461-466 | `hide` keeps both positions and makes the glyph a blank; the cursor's cell becomes blank and every cell that changes changes to a blank |
| InputLine.NewInputLine | cl_timer/graphics.py:140-156 | a new input line has the cursor right after the prompt, nothing typed, the image on row `len(grid)-1`; a one-line prompt is followed by `len(prompt) + w` blanks, each cell at its own column of row 0, so the row is wider than the canvas; IndexError on a canvas without rows |
| InputLine.NewThenType | cl_timer/graphics.py:140-239 | a new input line is the empty reference buffer, and a run of key codes from it succeeds iff `chr` accepts every code and leaves as its value the reference editor's text |
| InputLine.TypeFromEmpty | cl_timer/graphics.py:184-239 | from an empty buffer the value after a run of keys is the reference editor's text after the same keys |
| InputLine.UpdateChars | cl_timer/graphics.py:165-182 | `update_chars` only replaces the cells, keeping the origin; IndexError on a canvas without rows |
| InputLine.Padding | cl_timer/graphics.py:173-180 | the padding is `width - used` blanks, none when that is negative |
| InputLine.InsertSplits | cl_timer/graphics.py:212-214 | `list.insert` at the cursor splits the typed text around the new character |
| InputLine.PopJoins | cl_timer/graphics.py:190-193 | popping before the cursor joins the text around the removed character |
| InputLine.InsertRefines | cl_timer/graphics.py:201-217 | a printable key inserts its character before the cursor and advances it |
| InputLine.BackspaceRefines | cl_timer/graphics.py:184-199 | backspace right of the prompt deletes the character before the cursor and steps back |
| InputLine.LeftRefines | cl_timer/graphics.py:229-232 | the left arrow steps back over one character, never into the prompt |
| InputLine.RightRefines | cl_timer/graphics.py:234-239 | the right arrow steps forward over one character, never past the typed text |
| InputLine.TypeCharRefines | cl_timer/graphics.py:201-239 | `type_char` fails iff `chr` rejects the code; otherwise it keeps the prompt and the cursor invariant and edits like a reference text editor |
| InputLine.CursorMoves | cl_timer/graphics.py:184-239 | the cursor moves left only right of the prompt and right only before the end of the text; refused moves change nothing |
| InputLine.EnterBlanksRow | cl_timer/graphics.py:222-227 | Enter sets `submitted`, keeps the value, turns the row into as many blanks as it had cells, and draws them |
| InputLine.SubmittedSticks | cl_timer/graphics.py:222-223 | `submitted` becomes true exactly on Enter and never goes back |
| InputLine.EditShowsRow | cl_timer/graphics.py:165-182 | after an editing key the row spells prompt, value and padding to the width of the last grid row, one cell per column |
| InputLine.TypeCharsRefines | cl_timer/graphics.py:201-239 | a run of key codes succeeds iff `chr` accepts every code, and then edits like the reference editor does the same keys |
| CommandInput.InitialCells | cl-timer/graphics.py:70-73 | the prompt's characters, then blanks at columns 2 to `w-1`, each cell at its own column on row 0 |
| CommandInput.NewCommandInput | cl-timer/graphics.py:62-75 | a new command line holds ': ' and blanks up to the canvas width, cursor 2, nothing typed, not submitted; IndexError on a canvas without rows |
| CommandInput.DropLast | cl-timer/graphics.py:86 | `[:-1]` drops the last character, and nothing from the empty list |
| CommandInput.TypeCharKeepsInv | cl-timer/graphics.py:81-99 | typing and backspace keep `cursor == 2 + len(typed)` and `chars[i].x == i` |
| CommandInput.TypePrintable | cl-timer/graphics.py:88-97 | a printable code overwrites the cell at the cursor and advances; when `chr` raises or the cursor is past the last cell, nothing changes |
| CommandInput.Backspace | cl-timer/graphics.py:81-86 | backspace does nothing at the prompt edge and raises IndexError past the last cell; otherwise it blanks the cell at the cursor, steps back and drops the last typed character |
| CommandInput.BackspaceLeavesDeletedChar | cl-timer/graphics.py:81-95 | typing a character and deleting it restores text and cursor, but the character stays visible and the blank goes into the next cell |
| CommandInput.EnterBlanks | cl-timer/graphics.py:100-104 | Enter blanks every cell at its column and fails iff one of them does not resolve on the grid; otherwise it sets `submitted` and draws the blanks |
| Art.DigitRows | cl_timer/art.py:4-15 | there are ten digit pictures, each four rows four wide |
| Art.Digit0To2Rows | cl_timer/art.py:5-7 | the pictures of 0 to 2 are four rows four wide |
| Art.Digit3To4Rows | cl_timer/art.py:8-9 | the pictures of 3 and 4 are four rows four wide |
| Art.Digit5To7Rows | cl_timer/art.py:10-12 | the pictures of 5 to 7 are four rows four wide |
| Art.Digit8To9Rows | cl_timer/art.py:13-14 | the pictures of 8 and 9 are four rows four wide |
| Art.PointRows | cl_timer/art.py:1 | the decimal point is four rows one wide, with '.' on the third |
| Art.StartingTimeRows | cl_timer/art.py:27 | the starting-time picture has only three rows, 15, 16 and 16 wide |
| Clock.NewNumberDisplay | cl_timer/graphics.py:266-271 | the starting picture at the given origin with no digits; `Clock.ResetShowsStart` states what it shows |
| Clock.Update | cl_timer/graphics.py:273-302 | new digits from the time's text and the cells of their picture; `Clock.TimeGlyphsSpec`, `Clock.PictureShape` and `Clock.UpdateShape` state what they are |
| Clock.Reset | cl_timer/graphics.py:304-309 | the starting picture again; `Clock.ResetShowsStart` and `Clock.ResetDiffersFromUpdate` state what it shows |
| Clock.ResetShowsStart | cl_timer/graphics.py:266-309 | a new display has no digits, a reset display shows the same cells as a new one, and those cells lie on the starting picture's three rows |
| Clock.ParseGlyphs | cl_timer/graphics.py:281-282 | a parsed digit list has one valid glyph per character |
| Clock.ParseThenShow | cl_timer/graphics.py:281-282 | the digit list is built iff every character is a digit or '.', and it reads back as the text |
| Clock.ShowThenParse | cl_timer/graphics.py:281-282 | a valid digit list's text parses back to the list |
| Clock.IndexOfPoint | cl_timer/graphics.py:283 | `digits.index('.')` is the index of the text's first '.' |
| Clock.TimeGlyphsSpec | cl_timer/graphics.py:280-284 | the digits are built iff the text is readable and has a point; they read back as the text, plus "0" unless exactly two characters follow the first point |
| Clock.TwoDecimals | cl_timer/graphics.py:283-284 | one or two digits after a single point end up exactly two |
| Clock.TimeGlyphs | cl_timer/graphics.py:280-284 | the digit list it builds is valid and contains a point |
| Clock.ArtRows | cl_timer/graphics.py:288-289 | every glyph picture is four rows of its glyph's width |
| Clock.ArtRow | cl_timer/graphics.py:298 | each row of a glyph picture is exactly the glyph's width and holds no line break |
| Clock.PiecesWidth | cl_timer/graphics.py:292-298 | the pieces of one picture row take four columns per digit and one per point |
| Clock.PictureRowShape | cl_timer/graphics.py:292-301 | each joined picture row is `Width` wide and holds no line break |
| Clock.PictureShape | cl_timer/graphics.py:288-301 | the full string splits back into its four rows, each `4*digits + points + (glyphs-1)` wide |
| Clock.PictureCells | cl_timer/graphics.py:301-302 | the picture's cells are `4 * Width` in number, lie in a four-row block `Width` wide, come in row-major order so no two share a position, and hold exactly the characters of the picture's rows: together they fill the block |
| Clock.UpdateShape | cl_timer/graphics.py:273-302 | after `update` the origin is kept and the digits are the parsed time; the cells are `4 * Width` in number, lie in the four-row block, come in row-major order and hold exactly the characters of the picture's rows: one cell per column of each of the four rows |
| Clock.ResetDiffersFromUpdate | cl_timer/graphics.py:304-309 | `reset` installs cells on three rows only, while every `update` has a cell on a fourth row |
| Wrap.Pieces | cl_timer/graphics.py:345-348 | the moves with a single space between each two; `Wrap.PieceAt` and `Wrap.PiecesOfText` state which piece is which and that they rebuild the text |
| Wrap.BreakScan | cl_timer/graphics.py:351-365 | the `for` loop over the prefix sums; `Wrap.BreakScanSpec` and `Wrap.BreakScanNegative` state what it returns |
| Wrap.BreakIndex | cl_timer/graphics.py:345-365 | the `newline_index` `break_top_line` computes; `Wrap.BreakIndexBounds`, `Wrap.BreakIndexChoice` and `Wrap.BreakAtSpace` state where it lies |
| Wrap.BreakTopLine | cl_timer/graphics.py:339-369 | the text with one line break inserted at the break index; `Wrap.BreakTopLineSpec` and `Wrap.BreakSplit` state the result |
| Wrap.PieceAt | cl_timer/graphics.py:345-348 | even pieces are the moves, odd pieces single spaces |
| Wrap.PiecesOfText | cl_timer/graphics.py:345-349 | the pieces put back together are the text, and their lengths add up to its length |
| Wrap.BreakScanSpec | cl_timer/graphics.py:351-365 | the scan returns the largest prefix sum not above `n` once some prefix sum reaches `n`, and 0 when none does |
| Wrap.BreakScanNegative | cl_timer/graphics.py:351-365 | with a negative line length the scan never breaks and returns 0 |
| Wrap.BreakIndexBounds | cl_timer/graphics.py:351-365 | the break index lies in the text and, unless 0, not past the line length |
| Wrap.BreakTopLineSpec | cl_timer/graphics.py:339-369 | with `n >= 0` one line break is inserted at an index `k <= n`; removing it gives back the text |
| Wrap.BreakIndexChoice | cl_timer/graphics.py:345-365 | the break index is 0 or a prefix sum of the piece lengths; the largest prefix sum not above `n` once some prefix sum reaches `n`; 0 whenever none does |
| Wrap.TrailingBlankBreaks | cl_timer/graphics.py:345-365 | a text that fits is still broken when it ends in a blank: a one-letter move and a blank with line length 2 break at index 2, where the empty last piece brings the prefix sum to 2 |
| Wrap.BreakAtSpace | cl_timer/graphics.py:345-369 | no move is cut: a positive break sits next to a space |
| Wrap.PieceBoundary | cl_timer/graphics.py:345-349 | every boundary between two pieces lies next to a space of the text |
| Wrap.BreakSplit | cl_timer/graphics.py:400-402 | on a single line the broken text splits into the two halves |
| Wrap.WrapRound | cl_timer/graphics.py:400-407 | one pass of `render`'s `while` loop; `Wrap.WrapRoundCuts` states the cut it makes |
| Wrap.WrapRoundCuts | cl_timer/graphics.py:400-407 | a round cuts at the break index and leaves the remainder unchanged iff that index is 0 |
| Wrap.WrapLoop | cl_timer/graphics.py:396-410 | `render`'s `while` loop; `Wrap.WrapLoopFollowsRounds`, `Wrap.WrapLoopSpec` and `Wrap.WrapLoopStops` state the lines and remainder it leaves |
| Wrap.WrapLoopFollowsRounds | cl_timer/graphics.py:396-410 | the loop appends each round's top line and stops once the remainder stops changing |
| Wrap.WrapLoopSpec | cl_timer/graphics.py:396-411 | the emitted lines followed by the dropped remainder are the original text; every line but the last is non-empty and at most `n` long; the last is empty |
| Wrap.WrapLoopStops | cl_timer/graphics.py:404-409 | the loop only ends on a remainder whose break index is 0, so one more round would not change it |
| Wrap.WrapDropsRemainder | cl_timer/graphics.py:396-411 | a concrete case where the last move is never shown: with a three-column limit, three one-letter moves give the lines "a b" and "", and " c" is dropped |
| Wrap.SingleRowText | cl_timer/graphics.py:105-130 | a scramble whose cell `k` sits at column `k` of row 0 is its text laid out on that row, and the text holds no line break, so `str(self)` reads the characters in list order |
| Wrap.LineIsSingleRow | cl_timer/graphics.py:58-65 | one line of text read by `fromstring` is a single-row scramble whose text is that line |
| Wrap.Wrapped | cl_timer/graphics.py:396-412 | the image rebuilt from the stripped, joined lines keeps the origin; `Wrap.ScrambleRenderFits` and `Wrap.ScrambleRender` state what its cells hold |
| Wrap.ScrambleRender | cl_timer/graphics.py:390-415 | IndexError on a canvas without rows; a scramble with more cells than the canvas is wide is rebuilt so that its emitted lines and dropped remainder make up its text, its cells hold exactly the characters of the stripped lines (each cell is its line's character at its column, and each character has its cell), and every cell lies left of column `width-1` and above the final, empty line; a scramble that fits keeps its cells; the result is drawn |
| Wrap.ScrambleRenderFits | cl_timer/graphics.py:390-413 | the emitted lines and dropped remainder make up the text; the rebuilt cells hold exactly the stripped lines' characters, and every one lies in a column below `width-1` and above the final, empty line |
| Wrap.CellsFitLines | cl_timer/graphics.py:411-413 | cells holding exactly the wrapped lines lie in columns below the line length and above the last, empty line |
| Wrap.StrippedLines | cl_timer/graphics.py:411 | stripping keeps the loop lines short and adds no line break |
| Wrap.StripKeepsShape | cl_timer/graphics.py:411 | stripping the lines keeps them short, break-free and ending in the empty line |
| Wrap.CellsWithinLines | cl_timer/graphics.py:411-412 | joined lines split back into themselves, their cells hold exactly those lines' characters, and the cells lie within the line length and above the last, empty line |
| Wrap.ScrambleSetChars | cl_timer/graphics.py:328-336 | the `chars` setter on a `Scramble` raises IndexError exactly on a canvas without rows, and otherwise keeps the image's origin |
| Scramble.Tables | cl-timer/scramble.py:4-15 | the 2x2 table has 9 moves in sides of three that are also its axes; the 3x3 table has 18 moves with two sides per axis; neither repeats a move or holds a blank |
| Scramble.TablesBlankFree | cl-timer/scramble.py:4-8 | both tables are non-empty and no move holds a blank, so joining with ' ' can be split back |
| Scramble.ChunksCover | cl-timer/scramble.py:10-15 | a move lies in some side or axis iff it lies in the table |
| Scramble.ChunksDisjoint | cl-timer/scramble.py:10-15 | no move lies in two sides or two axes |
| Scramble.AxesPairSides | cl-timer/scramble.py:10-15 | on the 3x3 table, axis `a` is sides `2a` and `2a+1` |
| Scramble.Owner | cl-timer/scramble.py:40-41 | `[...][0]` gives the first piece holding the move, IndexError when none does |
| Scramble.OwnersOf | cl-timer/scramble.py:40-41 | every table move has exactly one side and one axis |
| Scramble.AxisOfSide | cl-timer/scramble.py:10-15 | a move's axis is its side divided by the sides per axis |
| Scramble.Membership | cl-timer/scramble.py:40-41 | a move lies in another move's side or axis iff they share it |
| Scramble.SideWithinAxis | cl-timer/scramble.py:10-15 | every side lies within its axis |
| Scramble.LastOutside | cl-timer/scramble.py:43-48 | the index of the last history move off the axis, or -1; every later move is on the axis |
| Scramble.RedundantAgrees | cl-timer/scramble.py:43-51 | the redundancy test is "some move on the side followed only by moves on the axis" |
| Scramble.AcceptedOffAxis | cl-timer/scramble.py:43-53 | a move is accepted on an empty history and after any move off its axis |
| Scramble.AcceptableExists | cl-timer/scramble.py:39-53 | whatever the history, some table move is accepted, so the retry can succeed |
| Scramble.TableOf | cl-timer/scramble.py:39 | `MOVES[size - 2]` resolves iff `0 <= size < 4`, with sizes 0 and 1 wrapping |
| Scramble.Choose | cl-timer/scramble.py:23-53 | the retry loop of `choose_move` over a table, with the random draws as a parameter; `Scramble.ChooseSpec` states what it picks |
| Scramble.ChooseMove | cl-timer/scramble.py:23-53 | `choose_move` for a size; `Scramble.ChooseMoveSpec` states when it raises and what it picks |
| Scramble.ChooseMoves | cl-timer/scramble.py:61-63 | the `for` loop of `generate_scramble`; `Scramble.ChooseMovesSpec` states the moves it adds |
| Scramble.GenerateMoves | cl-timer/scramble.py:56-63 | the move list of `generate_scramble`; `Scramble.GenerateScrambleSpec` states its length and that each move is accepted |
| Scramble.GenerateScramble | cl-timer/scramble.py:56-64 | the moves joined by blanks; `Scramble.GenerateScrambleSpec` and `Scramble.AdjacentSidesDiffer` state what it returns |
| Scramble.ChooseSpec | cl-timer/scramble.py:23-53 | a chosen move is from the table and accepted after the history; fewer draws are left |
| Scramble.ChooseMoveSpec | cl-timer/scramble.py:23-53 | `choose_move` raises IndexError for sizes whose table index does not resolve; otherwise its move is accepted |
| Scramble.ChooseMovesSpec | cl-timer/scramble.py:61-63 | the loop adds exactly `n` moves, each accepted after all before it |
| Scramble.GenerateScrambleSpec | cl-timer/scramble.py:56-64 | only sizes 2 and 3 succeed (else KeyError), with 11 and 20 moves; the scramble splits on blanks into those moves, each accepted after those before it |
| Scramble.NoBlanks | cl-timer/scramble.py:64 | a chosen scramble over a blank-free table has no blank inside a move, so `' '.join` keeps the moves apart |
| Scramble.AdjacentSidesDiffer | cl-timer/scramble.py:43-53 | no two adjacent scramble moves turn the same side |
| Scramble.NoThreeOnAxis | cl-timer/scramble.py:43-53 | on the 3x3 no three consecutive moves share an axis |
| Scramble.ThirdOnAxisRedundant | cl-timer/scramble.py:43-51 | on the 3x3, after two moves on different sides of one axis, a move on that axis but a different side from the last is redundant |
| Scramble.OneSideRule | cl-timer/scramble.py:43-53 | on the 2x2 a move is accepted iff the last move was not on its side |
| Utils.AddZero | cl_timer/utils.py:37-48 | `add_zero`; `Utils.AddZeroSpec` and `Utils.AddZeroIdempotent` state what it returns |
| Utils.AddZeroSpec | cl_timer/utils.py:37-48 | empty stays empty; no point raises ValueError; otherwise '0' is appended iff fewer than two characters follow the first point |
| Utils.OneDecimalBecomesTwo | cl_timer/utils.py:45-47 | one character after the point becomes exactly two |
| Utils.AddZeroIdempotent | cl_timer/utils.py:37-48 | with at least one character after the point, a second `add_zero` changes nothing |
| Utils.BarePointPadsTwice | cl_timer/utils.py:45-48 | "c." becomes "c.0" and then "c.00": not idempotent on a bare point |
| Interpreter.ShowErrorMessage | cl_timer/interpreter.py:92-95 | CommandSyntaxError is raised whether or not `silent` is set, and the canvas keeps its shape |
| Interpreter.SilentOnlySuppressesDrawing | cl_timer/interpreter.py:92-95 | a silent message raises the same error and leaves the canvas as it was |
| Interpreter.MessageShown | cl_timer/interpreter.py:92-95 | an audible one-line message is drawn at `y = len(grid)-1`, so its characters fill grid row 0, the bottom displayed line, from the left; every other cell is unchanged |
| Interpreter.MessageCellLands | cl_timer/interpreter.py:94 | message character `k` lands on grid row 0, column `k`, and nowhere else |
| Interpreter.Step | cl_timer/interpreter.py:117-138 | one pass of the `for` loop: the finished words only gain the current word, which then restarts empty; a skipped character changes nothing else; `skip` is set only by the quote closing a quoted word. `Interpreter.PlainRun` and `Interpreter.QuotedSpan` state what runs of it do |
| Interpreter.Run | cl_timer/interpreter.py:117-138 | the `for` loop over the command; `Interpreter.RunAppend`, `Interpreter.PlainRun` and `Interpreter.QuotedSpan` state its effect |
| Interpreter.RunKeepsWords | cl_timer/interpreter.py:117-138 | the loop keeps the words finished before it at the front and adds at most one word per character |
| Interpreter.Words | cl_timer/interpreter.py:113-141 | the words exist iff the command is non-empty; an empty command raises IndexError at `command[-1]` |
| Interpreter.NoQuotesSplitsOnSpaces | cl_timer/interpreter.py:113-141 | without quotes the words are exactly `command.split(' ')` |
| Interpreter.PlainRun | cl_timer/interpreter.py:117-138 | outside quotes, the scan over quote-free text closes a word at each space, leaving the last piece of `split(' ')` as the current word |
| Interpreter.QuotedSpan | cl_timer/interpreter.py:117-130 | between a quote pair every character, spaces included, extends the word; the closing quote ends it, and the character after it is skipped |
| Interpreter.QuotedLastArgument | cl_timer/interpreter.py:113-141 | `w "t"` yields the words `w` and `t` and no trailing word |
| Interpreter.CheckCommand | cl_timer/interpreter.py:107-141 | a command without ';' that passes the checks yields one word list |
| Interpreter.Combine | cl_timer/interpreter.py:102-105 | the verdicts of the pieces taken in order, the first failure winning; `Interpreter.PiecesInOrder` and `Interpreter.FirstFailureStops` state it |
| Interpreter.CheckPieces | cl_timer/interpreter.py:102-105 | each stripped piece checked as a command; `Interpreter.PieceIsChecked` states it |
| Interpreter.CheckLine | cl_timer/interpreter.py:97-141 | the verdict on a whole line; `Interpreter.VerdictShown`, `Interpreter.OddQuotesRejected`, `Interpreter.DoubleSpaceRejected` and `Interpreter.PlainCommandAccepted` state it |
| Interpreter.Interpret | cl_timer/interpreter.py:97-141 | interpreting never changes the canvas's shape |
| Interpreter.VerdictShown | cl_timer/interpreter.py:92-111 | a rejected line shows its message unless silent and raises CommandSyntaxError; an accepted one leaves the canvas untouched |
| Interpreter.OddQuotesRejected | cl_timer/interpreter.py:107-108 | an odd number of '"' is a syntax error |
| Interpreter.DoubleSpaceRejected | cl_timer/interpreter.py:110-111 | with the quotes paired, two adjacent spaces are a syntax error |
| Interpreter.EmptyCommandRaises | cl_timer/interpreter.py:140 | the empty command raises IndexError and leaves the canvas untouched |
| Interpreter.PlainCommandAccepted | cl_timer/interpreter.py:107-141 | a command without quotes or double spaces is accepted with `split(' ')` as its words |
| Interpreter.PiecesInOrder | cl_timer/interpreter.py:102-105 | when every piece is accepted, the pieces' word lists come back in order |
| Interpreter.PieceIsChecked | cl_timer/interpreter.py:102-105 | each stripped piece of a ';' line is checked as a command of its own |
| Interpreter.FirstFailureStops | cl_timer/interpreter.py:102-105 | the first piece that is not accepted decides the outcome; later pieces are not read |
| Interpreter.SilentOnlyHidesMessages | cl_timer/interpreter.py:92-111 | a silent line raises or returns the same as an audible one and never touches the canvas |
| Text.ResolveIndex | cl_timer/graphics.py:25-29 | a subscript resolves iff `-n <= i < n`, negative ones counting from the end |
| Text.Index | cl_timer/utils.py:46 | `list.index` finds the first occurrence, ValueError when there is none |
| Text.Chr | cl_timer/graphics.py:210 | `chr` accepts exactly 0..0x10FFFF, lone surrogates excepted (see below) |
| Text.InsertAt | cl_timer/graphics.py:212-214 | `list.insert` adds exactly one element: at the index when `0 <= i <= n`, at `i + n` for a negative index that resolves, at the front below `-n` and at the end above `n` |
| Text.PopAt | cl_timer/graphics.py:190-193 | `list.pop` succeeds iff the index resolves, and removes the element at `i`, or at `i + n` for a negative index |
| Text.StripSlice | cl_timer/interpreter.py:104 | dropping leading whitespace and then trailing whitespace leaves a slice with only whitespace outside it |
| Text.Strip | cl_timer/interpreter.py:104 | the stripped text is a slice `s[i..j]` with only whitespace before `i` and after `j`, and it neither starts nor ends with whitespace |
| Text.Split | cl_timer/interpreter.py:141 | `str.split` on one character; it yields at least one piece and no piece holds the separator, and `Text.JoinSplit` states that joining the pieces gives back the text |
| Text.Join | cl_timer/graphics.py:411 | `str.join`; `Text.SplitJoin` states that splitting it gives back separator-free parts |
| Text.Count | cl_timer/interpreter.py:107 | `str.count` of one character; `Interpreter.OddQuotesRejected` states its use |
| Text.IsSpace | cl_timer/interpreter.py:104 | the characters `str.strip` removes; `Text.Strip` states what is removed |
| Text.JoinSplit | cl_timer/graphics.py:345-369 | joining the split text gives back the text |
| Text.SplitJoin | cl_timer/graphics.py:298-301 | splitting joined separator-free parts gives back the parts |

## Left out

- Terminal I/O: the curses main loops, key polling, timing, the SIGINT handler, and the session and settings files. These are I/O and clocks.
- Float statistics and the rounding `str(round(time, 2))`. The clock takes the decimal text as its input.
- Unicode digits: Python's `int` accepts non-ASCII decimal digits. `Clock.ParseGlyphs` accepts '0'..'9' only, because no digit picture exists for the others and the rounded float text is ASCII.
- `random.choice` is replaced by a sequence of draws. A draw `d` picks `table[d % len(table)]`. The retry recursion of `choose_move` consumes one draw per attempt and fails with DrawsExhausted when the draws run out, so unbounded retries are out of scope. No probability is modelled.
- Text.Chr: codes 0xD800..0xDFFF give a lone surrogate in Python, which a Dafny `char` cannot hold. The model reports them as UnrepresentableChar, an error the source does not have.
- Text.Chr: codes outside the range of a C `int` raise OverflowError rather than ValueError in CPython. The model reports ValueError for them, because curses key codes never come near that range.
- `Image.__str__` is a debug helper. `Scramble.render` uses it on single-row scrambles only, and there the model reads the row's characters left to right (`Images.RowText`).
- Wrap.ScrambleRender: its input is a single-row scramble (`Wrap.SingleRow`: cell `k` at column `k` of row 0), which is what callers build from one line of text (`Wrap.LineIsSingleRow`). Rendering an already wrapped, multi-row scramble a second time is not modelled, because that would need the general `Image.__str__` with its grid rebuild and blank removal.
- State left half-updated when an exception escapes is not modelled: an operation that raises returns only the error.
- Interpreter.Interpret: only the front end of `interpret` is modelled, up to the word list. The command bodies are file rewrites, a `vim` subprocess and prompts. Line 143 of cl_timer/interpreter.py uses an unimported `logging`, so no body runs as written.
- Wrap.ScrambleSetChars: its contract states the error path and that the origin is kept, because what it draws is stated by `Images.CoverUpCell` and `Wrap.ScrambleRender`, which it composes.
- `NumberDisplay.time` and `digit_char_arrays` are set but never read by any modelled operation. The `ys` list of `Scramble.clear` is built and never used; the clearing itself is `Images.Hide`.
- Cursor blinking: cl_timer/utils.py:69 calls a `Cursor.toggle_char` that does not exist.

=== FILE: art.dfy ===
/** The glyph tables of cl_timer/art.py: ten four-row digit pictures, the
    four-row decimal point, and the three-row picture of the starting time. */
module Art {
  import opened Text

  const DECIMAL_POINT: string := " \n \n.\n "

  /** `DIGITS[d]` pictures the digit `d`. */
  const DIGITS: seq<string> := [
    " __ \n|  |\n|__|\n    ",
    "    \n|   \n|   \n    ",
    " __ \n __|\n|__ \n    ",
    " __ \n __|\n __|\n    ",
    "    \n|__|\n   |\n    ",
    " __ \n|__ \n __|\n    ",
    " __ \n|__ \n|__|\n    ",
    " __ \n|  |\n   |\n    ",
    " __ \n|__|\n|__|\n    ",
    " __ \n|__|\n   |\n    "
  ]

  const STARTING_TIME: string := " __     __   __\n|  |   |  | |  |\n|__| . |__| |__|"

  /** `s` splits on line breaks into four rows, each `w` characters wide. */
  predicate FourRows(s: string, w: nat) {
    var rows := Split(s, '\n');
    |rows| == 4 && forall i :: 0 <= i < 4 ==> |rows[i]| == w
  }

  /** Four break-free rows joined by line breaks split back into themselves. */
  lemma {:induction false} SplitFour(s: string, a: string, b: string, c: string, d: string)
    requires '\n' !in a && '\n' !in b && '\n' !in c && '\n' !in d
    requires s == a + ['\n'] + (b + ['\n'] + (c + ['\n'] + d))
    ensures Split(s, '\n') == [a, b, c, d]
  {
    SplitNoSep(d, '\n');
    SplitAtSep(c, '\n', d);
    SplitAtSep(b, '\n', c + ['\n'] + d);
    SplitAtSep(a, '\n', b + ['\n'] + (c + ['\n'] + d));
  }

  /** Four break-free rows of one width form a four-row picture of that width. */
  lemma FourRowsOf(s: string, w: nat, a: string, b: string, c: string, d: string)
    requires '\n' !in a && '\n' !in b && '\n' !in c && '\n' !in d
    requires |a| == |b| == |c| == |d| == w
    requires s == a + ['\n'] + (b + ['\n'] + (c + ['\n'] + d))
    ensures FourRows(s, w)
    ensures Split(s, '\n')[2] == c
  {
    SplitFour(s, a, b, c, d);
  }

  /** The pictures of the digits 0 to 2 are four rows four wide. */
  lemma Digit0To2Rows(d: int)
    requires 0 <= d < 3
    ensures FourRows(DIGITS[d], 4)
  {
    match d
    case 0 => FourRowsOf(DIGITS[d], 4, " __ ", "|  |", "|__|", "    ");
    case 1 => FourRowsOf(DIGITS[d], 4, "    ", "|   ", "|   ", "    ");
    case 2 => FourRowsOf(DIGITS[d], 4, " __ ", " __|", "|__ ", "    ");
  }

  /** The pictures of the digits 3 to 4 are four rows four wide. */
  lemma Digit3To4Rows(d: int)
    requires 3 <= d < 5
    ensures FourRows(DIGITS[d], 4)
  {
    match d
    case 3 => FourRowsOf(DIGITS[d], 4, " __ ", " __|", " __|", "    ");
    case 4 => FourRowsOf(DIGITS[d], 4, "    ", "|__|", "   |", "    ");
  }

  /** The pictures of the digits 5 to 7 are four rows four wide. */
  lemma Digit5To7Rows(d: int)
    requires 5 <= d < 8
    ensures FourRows(DIGITS[d], 4)
  {
    match d
    case 5 => FourRowsOf(DIGITS[d], 4, " __ ", "|__ ", " __|", "    ");
    case 6 => FourRowsOf(DIGITS[d], 4, " __ ", "|__ ", "|__|", "    ");
    case 7 => FourRowsOf(DIGITS[d], 4, " __ ", "|  |", "   |", "    ");
  }

  /** The pictures of the digits 8 to 9 are four rows four wide. */
  lemma Digit8To9Rows(d: int)
    requires 8 <= d < 10
    ensures FourRows(DIGITS[d], 4)
  {
    match d
    case 8 => FourRowsOf(DIGITS[d], 4, " __ ", "|__|", "|__|", "    ");
    case 9 => FourRowsOf(DIGITS[d], 4, " __ ", "|__|", "   |", "    ");
  }

  /** There are ten digit pictures, and each is four rows four wide. */
  lemma DigitRows(d: int)
    requires 0 <= d < 10
    ensures |DIGITS| == 10
    ensures FourRows(DIGITS[d], 4)
  {
    if d < 3 {
      Digit0To2Rows(d);
    } else if d < 5 {
      Digit3To4Rows(d);
    } else if d < 8 {
      Digit5To7Rows(d);
    } else {
      Digit8To9Rows(d);
    }
  }

  /** The decimal point is four rows one wide, the dot on the third. */
  lemma PointRows()
    ensures FourRows(DECIMAL_POINT, 1)
    ensures Split(DECIMAL_POINT, '\n')[2] == "."
  {
    FourRowsOf(DECIMAL_POINT, 1, " ", " ", ".", " ");
  }

  /** `s` splits on line breaks into three rows of the given widths. */
  predicate ThreeRows(s: string, w0: nat, w1: nat, w2: nat) {
    var rows := Split(s, '\n');
    |rows| == 3 && |rows[0]| == w0 && |rows[1]| == w1 && |rows[2]| == w2
  }

  /** Three break-free rows joined by line breaks split back into themselves. */
  lemma {:induction false} ThreeRowsOf(s: string, a: string, b: string, c: string)
    requires '\n' !in a && '\n' !in b && '\n' !in c
    requires s == a + ['\n'] + (b + ['\n'] + c)
    ensures ThreeRows(s, |a|, |b|, |c|)
  {
    SplitNoSep(c, '\n');
    SplitAtSep(b, '\n', c);
    SplitAtSep(a, '\n', b + ['\n'] + c);
  }

  /** The starting-time text is its three rows joined by line breaks. */
  lemma StartingTimeText()
    ensures STARTING_TIME == " __     __   __" + ['\n'] + ("|  |   |  | |  |" + ['\n'] + "|__| . |__| |__|")
  {
  }

  /** No row of the starting-time picture holds a line break. */
  lemma StartingTimeBreakFree()
    ensures '\n' !in " __     __   __" && '\n' !in "|  |   |  | |  |" && '\n' !in "|__| . |__| |__|"
  {
  }

  /** The starting-time picture has only three rows, 15, 16 and 16 wide. */
  lemma StartingTimeRows()
    ensures ThreeRows(STARTING_TIME, 15, 16, 16)
  {
    StartingTimeText();
    StartingTimeBreakFree();
    ThreeRowsOf(STARTING_TIME, " __     __   __", "|  |   |  | |  |", "|__| . |__| |__|");
  }
}

=== FILE: canvas.dfy ===
/** The character grid every image draws on (`Canvas` in cl_timer/graphics.py
    and its earlier, strict version in cl-timer/graphics.py).

    The grid is a list of rows. `replace(x, y, ch)` writes row `h - 1 - y`,
    column `x`, with Python's subscript rules, and `display` emits the rows in
    reverse order; the two reversals cancel, so display line `y` (counted from
    the top) is the row that `replace(_, y, _)` writes. */
module Canvas {
  import opened Results
  import opened Text

  type Grid = seq<seq<char>>

  /** Every row of `g` has width `w` and there are `h` rows. */
  predicate Shape(g: Grid, h: nat, w: nat) {
    |g| == h && forall i :: 0 <= i < |g| ==> |g[i]| == w
  }

  /** `g` and `g'` have the same number of rows and the same row widths. */
  predicate SameShape(g: Grid, g': Grid) {
    |g| == |g'| && forall i :: 0 <= i < |g| ==> |g[i]| == |g'[i]|
  }

  /** No cell holds a line break, so `display` has exactly one line per row. */
  predicate NoBreaks(g: Grid) {
    forall i :: 0 <= i < |g| ==> '\n' !in g[i]
  }

  /** `Canvas(height, width)`: a blank grid. */
  function NewCanvas(height: nat, width: nat): (g: Grid)
    ensures Shape(g, height, width)
    ensures forall i, j :: 0 <= i < height && 0 <= j < width ==> g[i][j] == ' '
  {
    seq(height, _ => seq(width, _ => ' '))
  }

  /** The grid cell (row, column) that `grid[h - 1 - y][x]` resolves to, if any. */
  function Target(g: Grid, x: int, y: int): (t: Option<(nat, nat)>)
    ensures t.Some? ==> t.value.0 < |g| && t.value.1 < |g[t.value.0]|
  {
    match ResolveIndex(|g| - 1 - y, |g|)
    case None => None
    case Some(row) =>
      match ResolveIndex(x, |g[row]|)
      case None => None
      case Some(col) => Some((row, col))
  }

  /** Only the shape of a grid decides where a write lands. */
  lemma TargetShape(g: Grid, g': Grid, x: int, y: int)
    requires SameShape(g, g')
    ensures Target(g, x, y) == Target(g', x, y)
  {
  }

  /** `Canvas.replace` (cl_timer/graphics.py): an unresolvable subscript is
      swallowed, so the write is then a no-op. */
  function Replace(g: Grid, x: int, y: int, c: char): (r: Grid)
    ensures SameShape(g, r)
  {
    match Target(g, x, y)
    case None => g
    case Some((row, col)) => g[row := g[row][col := c]]
  }

  /** A write changes at most the one cell its subscripts resolve to, and that
      cell then holds the written character; an unresolvable write changes
      nothing. */
  lemma ReplaceCell(g: Grid, x: int, y: int, c: char, i: nat, j: nat)
    requires i < |g| && j < |g[i]|
    ensures Replace(g, x, y, c)[i][j] == (if Target(g, x, y) == Some((i, j)) then c else g[i][j])
    ensures Target(g, x, y).None? ==> Replace(g, x, y, c) == g
  {
  }

  /** Any two changed cells are the same cell. */
  lemma ReplaceChangesAtMostOneCell(g: Grid, x: int, y: int, c: char, i: nat, j: nat, i': nat, j': nat)
    requires i < |g| && j < |g[i]| && i' < |g| && j' < |g[i']|
    requires Replace(g, x, y, c)[i][j] != g[i][j]
    requires Replace(g, x, y, c)[i'][j'] != g[i'][j']
    ensures i == i' && j == j'
  {
    ReplaceCell(g, x, y, c, i, j);
    ReplaceCell(g, x, y, c, i', j');
  }

  /** Where a write lands on an `h` by `w` grid: in range it is row `h - 1 - y`,
      column `x`; `y` in `[h, 2h)` and negative `x` down to `-w` wrap around as
      Python subscripts do; everything else is dropped. */
  lemma ReplaceTarget(g: Grid, h: nat, w: nat, x: int, y: int)
    requires Shape(g, h, w)
    ensures Target(g, x, y).Some? <==> 0 <= y < 2 * h && -(w as int) <= x < w
    ensures 0 <= y < h && 0 <= x < w ==> Target(g, x, y) == Some((h - 1 - y, x))
    ensures h <= y < 2 * h && 0 <= x < w ==> Target(g, x, y) == Some((2 * h - 1 - y, x))
    ensures 0 <= y < h && -(w as int) <= x < 0 ==> Target(g, x, y) == Some((h - 1 - y, x + w))
    ensures h <= y < 2 * h && -(w as int) <= x < 0 ==> Target(g, x, y) == Some((2 * h - 1 - y, x + w))
  {
  }

  /** `Canvas.replace` of cl-timer/graphics.py: no `try`, so an unresolvable
      subscript raises IndexError. */
  function StrictReplace(g: Grid, x: int, y: int, c: char): (r: Result<Grid>)
    ensures r.Ok? <==> Target(g, x, y).Some?
    ensures r.Ok? ==> r.value == Replace(g, x, y, c)
  {
    if Target(g, x, y).None? then Err(IndexError) else Ok(Replace(g, x, y, c))
  }

  /** The rows in display order: `grid[::-1]`. */
  function Reversed(g: Grid): (r: Grid)
    ensures |r| == |g| && forall k :: 0 <= k < |g| ==> r[k] == g[|g| - 1 - k]
  {
    seq(|g|, k requires 0 <= k < |g| => g[|g| - 1 - k])
  }

  /** `Canvas.display`: the rows, last row first, joined by line breaks. */
  function Display(g: Grid): string {
    Join(Reversed(g), '\n')
  }

  /** The lines of the displayed text. */
  function Lines(g: Grid): seq<string> {
    Split(Display(g), '\n')
  }

  /** The displayed text has one line per row, each as wide as the grid, and
      line `k` from the top is grid row `h - 1 - k`. */
  lemma DisplayLines(g: Grid, h: nat, w: nat)
    requires Shape(g, h, w) && h >= 1 && NoBreaks(g)
    ensures |Lines(g)| == h
    ensures forall k :: 0 <= k < h ==> Lines(g)[k] == g[h - 1 - k] && |Lines(g)[k]| == w
  {
    SplitJoin(Reversed(g), '\n');
  }

  /** Writing `c` at an in-range `(x, y)` and then displaying shows `c` on line
      `y`, column `x`, and every other displayed character is unchanged. */
  lemma ReplaceThenDisplay(g: Grid, h: nat, w: nat, x: int, y: int, c: char)
    requires Shape(g, h, w) && NoBreaks(g) && c != '\n'
    requires 0 <= x < w && 0 <= y < h
    ensures |Lines(g)| == |Lines(Replace(g, x, y, c))| == h
    ensures forall k :: 0 <= k < h ==> |Lines(g)[k]| == |Lines(Replace(g, x, y, c))[k]| == w
    ensures Lines(Replace(g, x, y, c))[y][x] == c
    ensures forall k, j :: 0 <= k < h && 0 <= j < w && (k, j) != (y, x) ==>
              Lines(Replace(g, x, y, c))[k][j] == Lines(g)[k][j]
  {
    var r := Replace(g, x, y, c);
    ReplaceTarget(g, h, w, x, y);
    assert r == g[h - 1 - y := g[h - 1 - y][x := c]];
    assert Shape(r, h, w);
    assert NoBreaks(r) by {
      forall i | 0 <= i < |r|
        ensures '\n' !in r[i]
      {
        if i != h - 1 - y {
          assert r[i] == g[i];
        }
      }
    }
    DisplayLines(g, h, w);
    DisplayLines(r, h, w);
  }
}

=== FILE: clock.dfy ===
/** `NumberDisplay` of cl_timer/graphics.py: the big clock. `update` turns the
    decimal text of the rounded time into glyphs, pads the fraction to two
    places, and lays the glyph pictures side by side, one blank column
    between neighbours, in four rows; `reset` puts back the three-row
    starting picture. The rounding itself (`str(round(time, 2))`) is floating
    point and stays outside: the model takes its text as input. */
module Clock {
  import opened Results
  import opened Text
  import opened Images
  import opened Art

  /** An entry of `self.digits`: an `int` digit or the string `'.'`. */
  datatype Glyph = Digit(d: int) | Point

  predicate ValidGlyph(g: Glyph) {
    g.Point? || 0 <= g.d < 10
  }

  predicate Valid(gs: seq<Glyph>) {
    forall k :: 0 <= k < |gs| ==> ValidGlyph(gs[k])
  }

  /** The display's origin, its digit list and the cells it shows. */
  datatype NumberDisplay = NumberDisplay(x: int, y: int, digits: seq<Glyph>, cells: seq<Cell>)

  // ---------------------------------------------------------------------
  // from text to glyphs

  /** `int(d) if d != '.' else d` on one character; None where `int` raises
      ValueError. */
  function GlyphOf(c: char): (r: Option<Glyph>)
    ensures r.Some? ==> ValidGlyph(r.value)
    ensures r == Some(Point) <==> c == '.'
  {
    if c == '.' then Some(Point)
    else if '0' <= c <= '9' then Some(Digit(c as int - '0' as int))
    else None
  }

  /** The character a glyph is read from. */
  function CharOf(g: Glyph): char
    requires ValidGlyph(g)
  {
    if g.Point? then '.' else ('0' as int + g.d) as char
  }

  /** The text a glyph list is read from. */
  function Show(gs: seq<Glyph>): (s: string)
    requires Valid(gs)
    ensures |s| == |gs|
  {
    seq(|gs|, k requires 0 <= k < |gs| => CharOf(gs[k]))
  }

  /** The list comprehension that builds `self.digits`. */
  function ParseGlyphs(text: string): (r: Result<seq<Glyph>>)
    ensures r.Ok? ==> |r.value| == |text| && Valid(r.value)
    decreases |text|
  {
    if |text| == 0 then Ok([])
    else
      match GlyphOf(text[0])
      case None => Err(ValueError)
      case Some(g) =>
        var rest :- ParseGlyphs(text[1..]);
        Ok([g] + rest)
  }

  /** Every character is a digit or a point. */
  predicate Readable(text: string) {
    forall i :: 0 <= i < |text| ==> GlyphOf(text[i]).Some?
  }

  /** Parsing succeeds exactly on readable text and then reads it back
      unchanged. */
  lemma {:induction false} ParseThenShow(text: string)
    ensures ParseGlyphs(text).Ok? <==> Readable(text)
    ensures ParseGlyphs(text).Ok? ==> Show(ParseGlyphs(text).value) == text
    decreases |text|
  {
    if |text| > 0 {
      ParseThenShow(text[1..]);
      assert forall i :: 1 <= i < |text| ==> text[1..][i - 1] == text[i];
      if ParseGlyphs(text).Ok? {
        var gs := ParseGlyphs(text).value;
        assert gs[1..] == ParseGlyphs(text[1..]).value;
        assert Show(gs)[1..] == Show(gs[1..]);
        assert text == [text[0]] + text[1..];
      }
    }
  }

  /** Showing valid glyphs and parsing the text gives the glyphs back. */
  lemma {:induction false} ShowThenParse(gs: seq<Glyph>)
    requires Valid(gs)
    ensures ParseGlyphs(Show(gs)) == Ok(gs)
    decreases |gs|
  {
    if |gs| > 0 {
      ShowThenParse(gs[1..]);
      assert Show(gs)[1..] == Show(gs[1..]);
      assert [gs[0]] + gs[1..] == gs;
    }
  }

  /** The first point sits where the text's first '.' sits. */
  lemma {:induction false} IndexOfPoint(gs: seq<Glyph>)
    requires Valid(gs)
    ensures Index(gs, Point) == Index(Show(gs), '.')
    decreases |gs|
  {
    if |gs| > 0 {
      IndexOfPoint(gs[1..]);
      assert Show(gs)[1..] == Show(gs[1..]);
    }
  }

  /** A zero digit appended shows as a "0" appended. */
  lemma ShowAppendZero(gs: seq<Glyph>)
    requires Valid(gs)
    ensures Show(gs + [Digit(0)]) == Show(gs) + "0"
  {
    assert Valid(gs + [Digit(0)]);
  }

  /** The first part of `update`: the glyphs of the text, with a zero digit
      appended unless exactly two follow the first point. ValueError for a
      character `int` rejects, and from `index` when there is no point. */
  function TimeGlyphs(text: string): (r: Result<seq<Glyph>>)
    ensures r.Ok? ==> Valid(r.value) && Point in r.value
  {
    var gs :- ParseGlyphs(text);
    var p :- Index(gs, Point);
    Ok(if |gs[p + 1..]| != 2 then gs + [Digit(0)] else gs)
  }

  /** `update` succeeds exactly on readable text with a point, and its
      glyphs read back as the text with "0" appended unless exactly two
      characters follow the first point. */
  lemma TimeGlyphsSpec(text: string)
    ensures TimeGlyphs(text).Ok? <==> Readable(text) && '.' in text
    ensures TimeGlyphs(text).Ok? ==>
              var p := Index(text, '.').value;
              Show(TimeGlyphs(text).value) == text + (if |text| - (p + 1) != 2 then "0" else "")
  {
    ParseThenShow(text);
    if ParseGlyphs(text).Ok? {
      var gs := ParseGlyphs(text).value;
      IndexOfPoint(gs);
      if TimeGlyphs(text).Ok? {
        var p := Index(text, '.').value;
        ShowAppendZero(gs);
      }
    }
  }

  /** Text with one point and one or two digits after it ends up with
      exactly two digits after the point. */
  lemma TwoDecimals(text: string, p: nat)
    requires Readable(text) && p < |text| && text[p] == '.'
    requires '.' !in text[..p] && '.' !in text[p + 1..]
    requires 1 <= |text| - (p + 1) <= 2
    ensures TimeGlyphs(text).Ok?
    ensures var gs := TimeGlyphs(text).value;
            && |gs| == p + 3 && gs[p] == Point
            && gs[p + 1].Digit? && gs[p + 2].Digit?
            && forall k :: 0 <= k < |gs| && k != p ==> gs[k].Digit?
  {
    TimeGlyphsSpec(text);
    var gs := TimeGlyphs(text).value;
    var t := Show(gs);
    assert Index(text, '.').value == p;
    forall k | 0 <= k < |gs|
      ensures gs[k].Point? <==> k == p
    {
      assert t[k] == CharOf(gs[k]);
      if k < |text| {
        assert t[k] == text[k];
        if k < p {
          assert text[..p][k] == text[k];
        } else if k > p {
          assert text[p + 1..][k - (p + 1)] == text[k];
        }
      } else {
        assert t[k] == '0';
      }
    }
  }

  // ---------------------------------------------------------------------
  // from glyphs to the picture

  /** The picture of one glyph. */
  function GlyphArt(g: Glyph): string
    requires ValidGlyph(g)
  {
    if g.Point? then DECIMAL_POINT else DIGITS[g.d]
  }

  /** Every glyph's picture is four rows of its width. */
  lemma ArtRows(g: Glyph)
    requires ValidGlyph(g)
    ensures FourRows(GlyphArt(g), GlyphWidth(g))
  {
    if g.Point? {
      PointRows();
    } else {
      DigitRows(g.d);
    }
  }

  /** The width of a glyph's picture. */
  function GlyphWidth(g: Glyph): nat {
    if g.Point? then 1 else 4
  }

  /** `digit_string.split('\n')[i]`: row `i` of a glyph's picture. */
  function ArtRow(g: Glyph, i: int): (r: string)
    requires ValidGlyph(g) && 0 <= i < 4
    ensures |r| == GlyphWidth(g) && '\n' !in r
  {
    ArtRows(g);
    Split(GlyphArt(g), '\n')[i]
  }

  /** Row `i` of every glyph, left to right. */
  function RowPieces(gs: seq<Glyph>, i: int): (pieces: seq<string>)
    requires Valid(gs) && 0 <= i < 4
    ensures |pieces| == |gs|
  {
    seq(|gs|, k requires 0 <= k < |gs| => ArtRow(gs[k], i))
  }

  /** The four rows of the picture, the glyph rows joined by blanks. */
  function PictureRows(gs: seq<Glyph>): (rows: seq<string>)
    requires Valid(gs)
  {
    [Join(RowPieces(gs, 0), ' '), Join(RowPieces(gs, 1), ' '),
     Join(RowPieces(gs, 2), ' '), Join(RowPieces(gs, 3), ' ')]
  }

  /** `full_string`: the rows joined by line breaks. */
  function Picture(gs: seq<Glyph>): string
    requires Valid(gs)
  {
    Join(PictureRows(gs), '\n')
  }

  /** How many glyphs are digits. */
  function NumDigits(gs: seq<Glyph>): (n: nat)
    ensures n <= |gs|
    decreases |gs|
  {
    if |gs| == 0 then 0 else (if gs[0].Digit? then 1 else 0) + NumDigits(gs[1..])
  }

  /** Four columns per digit, one per point, one blank between neighbours. */
  function Width(gs: seq<Glyph>): int {
    4 * NumDigits(gs) + (|gs| - NumDigits(gs)) + (|gs| - 1)
  }

  /** The glyph rows of one picture row add up to four columns per digit
      and one per point. */
  lemma {:induction false} PiecesWidth(gs: seq<Glyph>, i: int)
    requires Valid(gs) && 0 <= i < 4
    ensures |Concat(RowPieces(gs, i))| == 4 * NumDigits(gs) + (|gs| - NumDigits(gs))
    decreases |gs|
  {
    if |gs| > 0 {
      PiecesWidth(gs[1..], i);
      assert RowPieces(gs, i)[1..] == RowPieces(gs[1..], i);
    }
  }

  /** One picture row is `Width` wide and holds no line break. */
  lemma PictureRowShape(gs: seq<Glyph>, i: int)
    requires Valid(gs) && |gs| >= 1 && 0 <= i < 4
    ensures |Join(RowPieces(gs, i), ' ')| == Width(gs)
    ensures '\n' !in Join(RowPieces(gs, i), ' ')
  {
    PiecesWidth(gs, i);
    JoinLength(RowPieces(gs, i), ' ');
    JoinAbsent(RowPieces(gs, i), ' ', '\n');
  }

  /** The picture splits back into its four rows, each `Width` wide: four
      columns per digit, one per point, and one blank between neighbours. */
  lemma PictureShape(gs: seq<Glyph>)
    requires Valid(gs) && |gs| >= 1
    ensures Split(Picture(gs), '\n') == PictureRows(gs)
    ensures FourRows(Picture(gs), Width(gs))
  {
    var rows := PictureRows(gs);
    PictureRowShape(gs, 0);
    PictureRowShape(gs, 1);
    PictureRowShape(gs, 2);
    PictureRowShape(gs, 3);
    SplitJoin(rows, '\n');
  }

  // ---------------------------------------------------------------------
  // the display

  /** `NumberDisplay(canvas, x, y)`: the starting picture, no digits yet. */
  function NewNumberDisplay(x: int, y: int): NumberDisplay {
    NumberDisplay(x, y, [], FromString(STARTING_TIME))
  }

  /** `NumberDisplay.update`, given the text of the rounded time: new
      digits and the cells of their picture; nothing is drawn. */
  function Update(nd: NumberDisplay, text: string): Result<NumberDisplay> {
    var gs :- TimeGlyphs(text);
    Ok(nd.(digits := gs, cells := FromString(Picture(gs))))
  }

  /** `NumberDisplay.reset`: the starting picture again; the clock value
      is floating point and not part of the model. */
  function Reset(nd: NumberDisplay): (r: NumberDisplay) {
    nd.(cells := FromString(STARTING_TIME))
  }

  /** A new display and a reset one show the same starting picture, whose
      cells lie on its three rows. */
  lemma ResetShowsStart(nd: NumberDisplay)
    ensures var start := NewNumberDisplay(nd.x, nd.y);
            && start.digits == [] && Reset(nd).cells == start.cells
            && forall k :: 0 <= k < |start.cells| ==> start.cells[k].y < 3
  {
    StartingTimeRows();
    CellsWithinRows(STARTING_TIME, 3);
  }

  /** The picture holds four times `Width` characters besides its three
      line breaks. */
  lemma PictureSize(gs: seq<Glyph>)
    requires Valid(gs) && |gs| >= 1
    ensures |Picture(gs)| - Count(Picture(gs), '\n') == 4 * Width(gs)
  {
    var rows := PictureRows(gs);
    PictureRowShape(gs, 0);
    PictureRowShape(gs, 1);
    PictureRowShape(gs, 2);
    PictureRowShape(gs, 3);
    JoinLength(rows, '\n');
    JoinCount(rows, '\n');
    ConcatFour(rows, Width(gs));
  }

  /** Four rows of width `w` hold `4 * w` characters. */
  lemma ConcatFour(rows: seq<string>, w: int)
    requires |rows| == 4 && forall i :: 0 <= i < 4 ==> |rows[i]| == w
    ensures |Concat(rows)| == 4 * w
  {
    assert rows[1..][1..] == rows[2..];
    assert rows[2..][1..] == rows[3..];
    assert rows[3..][1..] == [];
    assert Concat(rows[3..]) == rows[3];
    assert Concat(rows[2..]) == rows[2] + Concat(rows[3..]);
    assert Concat(rows[1..]) == rows[1] + Concat(rows[2..]);
  }

  /** The picture's cells fill a four-row block exactly `Width` wide: each
      lies in the block, they come in row-major order (so no two share a
      position), and they hold exactly the characters of the picture's rows,
      which `PictureShape` makes four rows of `Width` each. */
  lemma PictureCells(gs: seq<Glyph>)
    requires Valid(gs) && |gs| >= 1
    ensures |FromString(Picture(gs))| == 4 * Width(gs)
    ensures forall k :: 0 <= k < |FromString(Picture(gs))| ==>
              0 <= FromString(Picture(gs))[k].y < 4 && 0 <= FromString(Picture(gs))[k].x < Width(gs)
    ensures forall a, b :: 0 <= a < b < |FromString(Picture(gs))| ==>
              Before(FromString(Picture(gs))[a], FromString(Picture(gs))[b])
    ensures HoldsLines(FromString(Picture(gs)), PictureRows(gs))
  {
    PictureShape(gs);
    PictureSize(gs);
    FromStringSpec(Picture(gs));
  }

  /** After `update` the cells fill a four-row block exactly `Width` wide:
      one cell per column of each of the four rows, in row-major order, each
      holding the picture row's character at its column. */
  lemma UpdateShape(nd: NumberDisplay, text: string)
    requires Update(nd, text).Ok?
    ensures var r := Update(nd, text).value; var w := Width(r.digits);
            && r.x == nd.x && r.y == nd.y && r.digits == TimeGlyphs(text).value
            && |r.cells| == 4 * w
            && (forall k :: 0 <= k < |r.cells| ==> 0 <= r.cells[k].y < 4 && 0 <= r.cells[k].x < w)
            && (forall a, b :: 0 <= a < b < |r.cells| ==> Before(r.cells[a], r.cells[b]))
            && HoldsLines(r.cells, PictureRows(r.digits))
  {
    PictureCells(TimeGlyphs(text).value);
  }

  /** Cells of a text with `n` lines lie on lines 0 to `n - 1`. */
  lemma CellsWithinRows(s: string, n: nat)
    requires |Split(s, '\n')| == n
    ensures forall k :: 0 <= k < |FromString(s)| ==> FromString(s)[k].y < n
  {
    FromStringSpec(s);
  }

  /** `reset` installs a picture of three rows, while every `update` picture
      has a cell on a fourth row: the two never have the same shape. */
  lemma ResetDiffersFromUpdate(nd: NumberDisplay, text: string)
    requires Update(nd, text).Ok?
    ensures forall k :: 0 <= k < |Reset(nd).cells| ==> Reset(nd).cells[k].y < 3
    ensures exists k :: 0 <= k < |Update(nd, text).value.cells| && Update(nd, text).value.cells[k].y == 3
  {
    StartingTimeRows();
    CellsWithinRows(STARTING_TIME, 3);
    var gs := TimeGlyphs(text).value;
    var s := Picture(gs);
    PictureShape(gs);
    FromStringSpec(s);
    var rows := Split(s, '\n');
    assert Cell(0, 3, rows[3][0]) in FromString(s);
  }
}

=== FILE: commandinput.dfy ===
/** `CommandInput` of cl-timer/graphics.py: the earlier, overwrite-mode
    command line. Typing writes the character into the cell at the cursor;
    backspace blanks the cell at the cursor, which is the one after the
    deleted character; Enter blanks every cell and draws with the strict
    render. */
module CommandInput {
  import opened Results
  import opened Text
  import opened Canvas
  import opened Images

  const PROMPT: string := ": "

  /** The line's state: cursor column, the submitted flag, the characters
      typed so far, and the image holding the row of cells. */
  datatype CommandInput = CommandInput(cursor: int, submitted: bool, entered: string, image: Image)

  /** The cursor is right after the typed text, never past the last cell, and
      cell `i` sits at column `i` of row 0. */
  predicate Inv(st: CommandInput) {
    && st.cursor == |PROMPT| + |st.entered|
    && st.cursor <= |st.image.cells|
    && forall i :: 0 <= i < |st.image.cells| ==> st.image.cells[i].x == i && st.image.cells[i].y == 0
  }

  /** The row shows the prompt followed by the typed text. */
  predicate Shows(st: CommandInput)
    requires Inv(st)
  {
    && st.image.cells[0].ch == ':' && st.image.cells[1].ch == ' '
    && forall i :: 0 <= i < |st.entered| ==> st.image.cells[|PROMPT| + i].ch == st.entered[i]
  }

  /** The cells `__init__` builds for a row `w` wide: the prompt's characters,
      then blanks at columns 2 up to `w - 1`. */
  function InitialCells(w: int): (cells: seq<Cell>)
    ensures |cells| == if w > 2 then w else 2
    ensures forall i :: 0 <= i < |cells| ==> cells[i] == Cell(i, 0, if i < 2 then PROMPT[i] else ' ')
  {
    [Cell(0, 0, ':'), Cell(1, 0, ' ')] + seq(if w > 2 then w - 2 else 0, i => Cell(i + 2, 0, ' '))
  }

  /** `CommandInput(canvas)`: IndexError from `grid[-1]` on a canvas without
      rows; otherwise the prompt and blanks up to the canvas width on the
      last line, the cursor right of the prompt, nothing typed. */
  function NewCommandInput(g: Grid): (r: Result<CommandInput>)
    ensures r.Ok? <==> |g| > 0
    ensures r.Ok? ==> Inv(r.value) && Shows(r.value) && !r.value.submitted
    ensures r.Ok? ==> r.value.cursor == 2 && r.value.entered == ""
    ensures r.Ok? ==> |r.value.image.cells| == (if |g[|g| - 1]| > 2 then |g[|g| - 1]| else 2)
    ensures r.Ok? ==> forall i :: 2 <= i < |r.value.image.cells| ==> r.value.image.cells[i].ch == ' '
    ensures r.Ok? ==> r.value.image.x == 0 && r.value.image.y == |g| - 1
  {
    if |g| == 0 then Err(IndexError)
    else Ok(CommandInput(|PROMPT|, false, "", Image(0, |g| - 1, InitialCells(|g[|g| - 1]|))))
  }

  /** `inputted_chars[:-1]`. */
  function DropLast(s: string): (r: string)
    ensures |s| > 0 ==> r == s[..|s| - 1]
    ensures |s| == 0 ==> r == s
  {
    if |s| == 0 then s else s[..|s| - 1]
  }

  /** `_del_char`: right of the prompt, blank the cell at the cursor (an
      unresolvable index raises IndexError), step back, drop the last typed
      character. */
  function DelChar(st: CommandInput): Result<CommandInput> {
    if st.cursor > |PROMPT| then
      match ResolveIndex(st.cursor, |st.image.cells|)
      case None => Err(IndexError)
      case Some(i) =>
        var cells := st.image.cells[i := Cell(st.cursor, 0, ' ')];
        Ok(CommandInput(st.cursor - 1, st.submitted, DropLast(st.entered), st.image.(cells := cells)))
    else Ok(st)
  }

  /** `type_char(code)`: the new state and the grid. For a printable code a
      ValueError from `chr` or an IndexError at the cursor is swallowed before
      any field changes; only Enter draws, through the strict render. */
  function TypeChar(g: Grid, st: CommandInput, code: int): (r: Result<(CommandInput, Grid)>)
  {
    if code != -1 && code != 127 && code != 10 then
      match Chr(code)
      case Err(e) => if e == ValueError then Ok((st, g)) else Err(e)
      case Ok(c) =>
        match ResolveIndex(st.cursor, |st.image.cells|)
        case None => Ok((st, g))
        case Some(i) =>
          var cells := st.image.cells[i := Cell(st.cursor, 0, c)];
          Ok((CommandInput(st.cursor + 1, st.submitted, st.entered + [c], st.image.(cells := cells)), g))
    else if code == 127 then
      var st' :- DelChar(st);
      Ok((st', g))
    else if code == 10 then
      var img := st.image.(cells := BlankRow(|st.image.cells|));
      var g' :- StrictRender(g, img);
      Ok((st.(submitted := true, image := img), g'))
    else
      Ok((st, g))
  }

  /** Typing and backspace keep the invariant; while nothing has been
      submitted the row keeps showing prompt and typed text. */
  lemma TypeCharKeepsInv(g: Grid, st: CommandInput, code: int)
    requires Inv(st)
    requires TypeChar(g, st, code).Ok?
    ensures Inv(TypeChar(g, st, code).value.0)
    ensures code != 10 && Shows(st) ==> Shows(TypeChar(g, st, code).value.0)
  {
    var st' := TypeChar(g, st, code).value.0;
    if code == 127 && st.cursor > |PROMPT| {
      assert st'.entered == st.entered[..|st.entered| - 1];
    }
  }

  /** A printable code overwrites the cell at the cursor and advances; when
      `chr` raises ValueError or the cursor is past the last cell, nothing
      changes at all. */
  lemma TypePrintable(g: Grid, st: CommandInput, code: int)
    requires Inv(st) && code != -1 && code != 127 && code != 10
    ensures Chr(code) == Err(ValueError) ==> TypeChar(g, st, code) == Ok((st, g))
    ensures Chr(code).Ok? && st.cursor >= |st.image.cells| ==> TypeChar(g, st, code) == Ok((st, g))
    ensures Chr(code) == Err(UnrepresentableChar) ==> TypeChar(g, st, code) == Err(UnrepresentableChar)
    ensures Chr(code).Ok? && st.cursor < |st.image.cells| ==>
              && TypeChar(g, st, code).Ok?
              && var (st', g') := TypeChar(g, st, code).value;
                 && g' == g && st'.submitted == st.submitted
                 && st'.cursor == st.cursor + 1 && st'.entered == st.entered + [Chr(code).value]
                 && st'.image.cells == st.image.cells[st.cursor := Cell(st.cursor, 0, Chr(code).value)]
  {
  }

  /** Backspace does nothing at the prompt edge; raises IndexError when the
      cursor is past the last cell; otherwise blanks the cell at the cursor,
      steps back and drops the last typed character. */
  lemma Backspace(g: Grid, st: CommandInput)
    requires Inv(st)
    ensures st.cursor == |PROMPT| ==> TypeChar(g, st, 127) == Ok((st, g))
    ensures st.cursor == |st.image.cells| > |PROMPT| ==> TypeChar(g, st, 127) == Err(IndexError)
    ensures |PROMPT| < st.cursor < |st.image.cells| ==>
              && TypeChar(g, st, 127).Ok?
              && var (st', g') := TypeChar(g, st, 127).value;
                 && g' == g && st'.submitted == st.submitted
                 && st'.cursor == st.cursor - 1 && st'.entered == st.entered[..|st.entered| - 1]
                 && st'.image.cells == st.image.cells[st.cursor := Cell(st.cursor, 0, ' ')]
  {
  }

  /** The backspace quirk: typing `c` and then deleting it restores the
      typed text and cursor, but the deleted character stays visible in its
      cell; the blank goes into the cell after it. */
  lemma BackspaceLeavesDeletedChar(g: Grid, st: CommandInput, code: int)
    requires Inv(st) && code != -1 && code != 127 && code != 10
    requires Chr(code).Ok? && st.cursor + 1 < |st.image.cells|
    ensures TypeChar(g, st, code).Ok?
    ensures var st1 := TypeChar(g, st, code).value.0;
            && TypeChar(g, st1, 127).Ok?
            && var st2 := TypeChar(g, st1, 127).value.0;
               && st2.cursor == st.cursor && st2.entered == st.entered
               && st2.image.cells[st.cursor].ch == Chr(code).value
               && st2.image.cells[st.cursor + 1].ch == ' '
  {
    TypePrintable(g, st, code);
    var st1 := TypeChar(g, st, code).value.0;
    Backspace(g, st1);
    assert (st.entered + [Chr(code).value])[..|st.entered|] == st.entered;
  }

  /** Every column from `x0` to `x0 + n - 1` of display line `y` resolves to
      a cell of the grid. */
  predicate RowResolves(g: Grid, x0: int, y: int, n: nat) {
    forall x :: x0 <= x < x0 + n ==> Target(g, x, y).Some?
  }

  /** Enter blanks every cell at its own column and draws them strictly: it
      fails exactly when a blank cell's position does not resolve on the grid,
      and otherwise sets `submitted` and draws what the forgiving render
      draws. */
  lemma EnterBlanks(g: Grid, st: CommandInput)
    ensures var img := st.image.(cells := BlankRow(|st.image.cells|));
            && (TypeChar(g, st, 10).Ok? <==> RowResolves(g, img.x, img.y, |img.cells|))
            && (TypeChar(g, st, 10).Ok? ==>
                  TypeChar(g, st, 10).value == (st.(submitted := true, image := img), Render(g, img)))
  {
    var img := st.image.(cells := BlankRow(|st.image.cells|));
    StrictRenderAgrees(g, img);
    if RowResolves(g, img.x, img.y, |img.cells|) {
      forall k | 0 <= k < |img.cells|
        ensures Target(g, img.x + img.cells[k].x, img.y + img.cells[k].y).Some?
      {
        assert img.cells[k] == Cell(k, 0, ' ');
      }
    }
    if StrictRender(g, img).Ok? {
      forall x | img.x <= x < img.x + |img.cells|
        ensures Target(g, x, img.y).Some?
      {
        var k := x - img.x;
        assert img.cells[k] == Cell(k, 0, ' ');
      }
    }
  }
}

=== FILE: cursor.dfy ===
/** `Cursor` of cl_timer/graphics.py: a one-glyph image that remembers where
    it was drawn last. Its coordinates are swapped with respect to every other
    image: `x` counts lines up from the bottom of the display and `y` is the
    column, so it draws through `replace(y, h - 1 - x, glyph)`, which lands on
    grid row `x`, column `y`. */
module Cursor {
  import opened Canvas

  datatype Cursor = Cursor(x: int, y: int, previousX: int, previousY: int, glyph: char)

  /** The full-block character the cursor is created with. */
  const FULL_BLOCK: char := '\U{2588}'

  /** `Cursor(canvas)`: at the origin, never moved, drawn as a full block. */
  function NewCursor(): Cursor {
    Cursor(0, 0, 0, 0, FULL_BLOCK)
  }

  /** `Cursor.render`: blank the previous position, then draw the glyph at the
      current one. */
  function Render(g: Grid, c: Cursor): (r: Grid)
    ensures SameShape(g, r)
    ensures 0 <= c.x < |g| && 0 <= c.y < |g[c.x]| ==> r[c.x][c.y] == c.glyph
    ensures forall i, j :: 0 <= i < |g| && 0 <= j < |g[i]| && r[i][j] != g[i][j] ==>
              r[i][j] == ' ' || r[i][j] == c.glyph
  {
    var blanked := Replace(g, c.previousY, (|g| - 1) - c.previousX, ' ');
    Replace(blanked, c.y, (|g| - 1) - c.x, c.glyph)
  }

  /** `Cursor.move`: bookkeeping only; nothing is drawn or erased. */
  function Move(c: Cursor, x: int, y: int): (r: Cursor)
    ensures r.previousX == c.x && r.previousY == c.y
    ensures r.x == x && r.y == y && r.glyph == c.glyph
  {
    Cursor(x, y, c.x, c.y, c.glyph)
  }

  /** `Cursor.hide`: the glyph becomes a blank for good, then one render.
      The cursor's own cell ends up blank, and every cell that changes
      changes to a blank. */
  function Hide(g: Grid, c: Cursor): (r: (Grid, Cursor))
    ensures r.1.glyph == ' ' && r.1.x == c.x && r.1.y == c.y
    ensures r.1.previousX == c.previousX && r.1.previousY == c.previousY
    ensures SameShape(g, r.0)
    ensures 0 <= c.x < |g| && 0 <= c.y < |g[c.x]| ==> r.0[c.x][c.y] == ' '
    ensures forall i, j :: 0 <= i < |g| && 0 <= j < |g[i]| ==> r.0[i][j] == g[i][j] || r.0[i][j] == ' '
  {
    var c' := c.(glyph := ' ');
    (Render(g, c'), c')
  }

  /** The cursor's position lies on an `h` by `w` grid. */
  predicate OnGrid(h: nat, w: nat, x: int, y: int) {
    0 <= x < h && 0 <= y < w
  }

  /** On an in-range grid a render draws the glyph at grid row `x`, column
      `y`, blanks the previous position when it differs, and changes nothing
      else. */
  lemma RenderCells(g: Grid, h: nat, w: nat, c: Cursor, i: nat, j: nat)
    requires Shape(g, h, w)
    requires OnGrid(h, w, c.x, c.y) && OnGrid(h, w, c.previousX, c.previousY)
    requires i < h && j < w
    ensures Render(g, c)[i][j] ==
              if i == c.x && j == c.y then c.glyph
              else if i == c.previousX && j == c.previousY then ' '
              else g[i][j]
  {
    var blanked := Replace(g, c.previousY, (h - 1) - c.previousX, ' ');
    ReplaceTarget(g, h, w, c.previousY, (h - 1) - c.previousX);
    ReplaceCell(g, c.previousY, (h - 1) - c.previousX, ' ', i, j);
    assert Shape(blanked, h, w);
    ReplaceTarget(blanked, h, w, c.y, (h - 1) - c.x);
    ReplaceCell(blanked, c.y, (h - 1) - c.x, c.glyph, i, j);
  }

  /** A new cursor's first render draws the full block at grid row 0,
      column 0, the left end of the bottom display line, and changes nothing
      else. */
  lemma NewCursorRender(g: Grid, h: nat, w: nat, i: nat, j: nat)
    requires Shape(g, h, w) && h > 0 && w > 0 && i < h && j < w
    ensures Render(g, NewCursor())[i][j] == if i == 0 && j == 0 then FULL_BLOCK else g[i][j]
  {
    RenderCells(g, h, w, NewCursor(), i, j);
  }

  /** Moving and rendering erases the old spot and draws the new one: display
      line `h - 1 - x` shows the glyph in column `y`. */
  lemma MoveThenRender(g: Grid, h: nat, w: nat, c: Cursor, x: int, y: int)
    requires Shape(g, h, w) && NoBreaks(g)
    requires OnGrid(h, w, c.x, c.y) && OnGrid(h, w, x, y) && c.glyph != '\n'
    ensures var r := Render(g, Move(c, x, y));
            && r[x][y] == c.glyph
            && ((c.x, c.y) != (x, y) ==> r[c.x][c.y] == ' ')
            && |Lines(r)| == h && |Lines(r)[h - 1 - x]| == w && Lines(r)[h - 1 - x][y] == c.glyph
  {
    var c' := Move(c, x, y);
    var r := Render(g, c');
    RenderCells(g, h, w, c', x, y);
    RenderCells(g, h, w, c', c.x, c.y);
    assert Shape(r, h, w);
    assert NoBreaks(r) by {
      forall i | 0 <= i < h
        ensures '\n' !in r[i]
      {
        forall j | 0 <= j < w
          ensures r[i][j] != '\n'
        {
          RenderCells(g, h, w, c', i, j);
        }
      }
    }
    DisplayLines(r, h, w);
  }

  /** After `hide` the cursor's cell is blank, and so is every later render
      wherever it moves, since nothing restores the glyph. */
  lemma HideIsPermanent(g: Grid, h: nat, w: nat, c: Cursor, x: int, y: int)
    requires Shape(g, h, w) && OnGrid(h, w, c.x, c.y) && OnGrid(h, w, c.previousX, c.previousY)
    requires OnGrid(h, w, x, y)
    ensures Hide(g, c).0[c.x][c.y] == ' '
    ensures var (g1, c1) := Hide(g, c); Render(g1, Move(c1, x, y))[x][y] == ' '
  {
    var (g1, c1) := Hide(g, c);
    RenderCells(g, h, w, c1, c.x, c.y);
    assert Shape(g1, h, w);
    RenderCells(g1, h, w, Move(c1, x, y), x, y);
  }
}

=== FILE: images.dfy ===
/** Positioned characters and the images built from them: `Char`, `Image`,
    `CoverUpImage` and `Char.fromstring` of cl_timer/graphics.py, and the
    checked `Char` and strict `Image.render` of cl-timer/graphics.py. */
module Images {
  import opened Results
  import opened Text
  import opened Canvas

  /** `Char`: one character at an offset from its image's origin. */
  datatype Cell = Cell(x: int, y: int, ch: char)

  /** `Image`: an origin and the cells drawn relative to it, in list order.
      The canvas is not stored; every operation takes and returns the grid. */
  datatype Image = Image(x: int, y: int, cells: seq<Cell>)

  /** One `canvas.replace(x, y, ch)` call. */
  datatype Write = Write(x: int, y: int, ch: char)

  /** Write `w` lands on grid cell `(i, j)`. */
  predicate Hits(g: Grid, w: Write, i: nat, j: nat) {
    Target(g, w.x, w.y) == Some((i, j))
  }

  /** Write `k` lands on `(i, j)` and no later write does. */
  predicate LastHit(g: Grid, ws: seq<Write>, k: int, i: nat, j: nat) {
    && 0 <= k < |ws|
    && Hits(g, ws[k], i, j)
    && forall k' :: k < k' < |ws| ==> !Hits(g, ws[k'], i, j)
  }

  /** A run of `canvas.replace` calls, in list order. */
  function Stamp(g: Grid, ws: seq<Write>): (r: Grid)
    ensures SameShape(g, r)
    decreases |ws|
  {
    if |ws| == 0 then g else Stamp(Replace(g, ws[0].x, ws[0].y, ws[0].ch), ws[1..])
  }

  /** After a run of writes a cell holds the character of the last write that
      landed on it, or its old character when none did. */
  lemma {:induction false} StampCell(g: Grid, ws: seq<Write>, i: nat, j: nat)
    requires i < |g| && j < |g[i]|
    ensures (forall k :: 0 <= k < |ws| ==> !Hits(g, ws[k], i, j)) ==> Stamp(g, ws)[i][j] == g[i][j]
    ensures forall k :: LastHit(g, ws, k, i, j) ==> Stamp(g, ws)[i][j] == ws[k].ch
    decreases |ws|
  {
    if |ws| > 0 {
      var g1 := Replace(g, ws[0].x, ws[0].y, ws[0].ch);
      StampCell(g1, ws[1..], i, j);
      ReplaceCell(g, ws[0].x, ws[0].y, ws[0].ch, i, j);
      forall k | 0 <= k < |ws|
        ensures Hits(g1, ws[k], i, j) == Hits(g, ws[k], i, j)
      {
        TargetShape(g, g1, ws[k].x, ws[k].y);
      }
      forall k | LastHit(g, ws, k, i, j)
        ensures Stamp(g, ws)[i][j] == ws[k].ch
      {
        if k > 0 {
          assert LastHit(g1, ws[1..], k - 1, i, j);
        } else {
          assert forall k' :: 0 <= k' < |ws[1..]| ==> !Hits(g1, ws[1..][k'], i, j) by {
            forall k' | 0 <= k' < |ws[1..]|
              ensures !Hits(g1, ws[1..][k'], i, j)
            {
              assert ws[1..][k'] == ws[k' + 1];
            }
          }
        }
      }
    }
  }

  /** Writing `a` then `b` is writing `a + b`. */
  lemma {:induction false} StampAppend(g: Grid, a: seq<Write>, b: seq<Write>)
    ensures Stamp(g, a + b) == Stamp(Stamp(g, a), b)
    decreases |a|
  {
    if |a| > 0 {
      assert (a + b)[1..] == a[1..] + b;
      StampAppend(Replace(g, a[0].x, a[0].y, a[0].ch), a[1..], b);
    } else {
      assert a + b == b;
    }
  }

  /** The writes `Image.render` makes: each cell at origin plus offset. */
  function RenderWrites(img: Image): (ws: seq<Write>)
    ensures |ws| == |img.cells|
  {
    seq(|img.cells|, k requires 0 <= k < |img.cells| =>
      Write(img.x + img.cells[k].x, img.y + img.cells[k].y, img.cells[k].ch))
  }

  /** The writes that blank an image's whole footprint. */
  function BlankWrites(img: Image): (ws: seq<Write>)
    ensures |ws| == |img.cells|
  {
    seq(|img.cells|, k requires 0 <= k < |img.cells| =>
      Write(img.x + img.cells[k].x, img.y + img.cells[k].y, ' '))
  }

  /** Cells `Char(i, 0, ' ')` for `i` below `n`. */
  function BlankRow(n: nat): (cells: seq<Cell>)
    ensures |cells| == n && forall i :: 0 <= i < n ==> cells[i] == Cell(i, 0, ' ')
  {
    seq(n, i => Cell(i, 0, ' '))
  }

  /** Some write of `ws` lands on `(i, j)`. */
  predicate AnyHit(g: Grid, ws: seq<Write>, i: nat, j: nat) {
    exists k :: 0 <= k < |ws| && Hits(g, ws[k], i, j)
  }

  /** The last write landing on `(i, j)`, given that write `k` does. */
  lemma {:induction false} FindLastHit(g: Grid, ws: seq<Write>, k: nat, i: nat, j: nat) returns (last: nat)
    requires k < |ws| && Hits(g, ws[k], i, j)
    ensures k <= last && LastHit(g, ws, last, i, j)
    decreases |ws| - k
  {
    if exists k' :: k < k' < |ws| && Hits(g, ws[k'], i, j) {
      var k' :| k < k' < |ws| && Hits(g, ws[k'], i, j);
      last := FindLastHit(g, ws, k', i, j);
    } else {
      last := k;
    }
  }

  /** A run of blank writes blanks exactly the cells it lands on. */
  lemma StampBlanks(g: Grid, ws: seq<Write>, i: nat, j: nat)
    requires i < |g| && j < |g[i]|
    requires forall k :: 0 <= k < |ws| ==> ws[k].ch == ' '
    ensures Stamp(g, ws)[i][j] == (if AnyHit(g, ws, i, j) then ' ' else g[i][j])
  {
    StampCell(g, ws, i, j);
    if AnyHit(g, ws, i, j) {
      var k :| 0 <= k < |ws| && Hits(g, ws[k], i, j);
      var last := FindLastHit(g, ws, k, i, j);
    }
  }

  /** Cell `k` of `img` lands on grid cell `(i, j)`. */
  predicate Lands(g: Grid, img: Image, k: int, i: nat, j: nat)
    requires 0 <= k < |img.cells|
  {
    Hits(g, RenderWrites(img)[k], i, j)
  }

  /** Some cell of `img` lands on grid cell `(i, j)`. */
  predicate Covers(g: Grid, img: Image, i: nat, j: nat) {
    exists k :: 0 <= k < |img.cells| && Lands(g, img, k, i, j)
  }

  /** `Image.render`. */
  function Render(g: Grid, img: Image): (r: Grid)
    ensures SameShape(g, r)
  {
    Stamp(g, RenderWrites(img))
  }

  /** A rendered image shows, at every grid cell it covers, the character of
      the last of its cells landing there (later cells win); every cell it does
      not cover keeps its old character. */
  lemma RenderCell(g: Grid, img: Image, i: nat, j: nat)
    requires i < |g| && j < |g[i]|
    ensures !Covers(g, img, i, j) ==> Render(g, img)[i][j] == g[i][j]
    ensures forall k :: 0 <= k < |img.cells| && Lands(g, img, k, i, j)
                     && (forall k' :: k < k' < |img.cells| ==> !Lands(g, img, k', i, j))
                     ==> Render(g, img)[i][j] == img.cells[k].ch
  {
    var ws := RenderWrites(img);
    StampCell(g, ws, i, j);
    forall k | 0 <= k < |img.cells| && Lands(g, img, k, i, j)
               && (forall k' :: k < k' < |img.cells| ==> !Lands(g, img, k', i, j))
      ensures LastHit(g, ws, k, i, j)
    {
      forall k' | k < k' < |ws|
        ensures !Hits(g, ws[k'], i, j)
      {
        assert !Lands(g, img, k', i, j);
      }
    }
    if !Covers(g, img, i, j) {
      forall k | 0 <= k < |ws|
        ensures !Hits(g, ws[k], i, j)
      {
        assert !Lands(g, img, k, i, j);
      }
    }
  }

  /** Blanks the footprint of `img`: what the `displayed_chars` setter,
      `Scramble.clear` and `CommandInput.hide` do. */
  function Hide(g: Grid, img: Image): (r: Grid)
    ensures SameShape(g, r)
  {
    Stamp(g, BlankWrites(img))
  }

  /** Hiding blanks exactly the covered cells. */
  lemma HideCell(g: Grid, img: Image, i: nat, j: nat)
    requires i < |g| && j < |g[i]|
    ensures Hide(g, img)[i][j] == (if Covers(g, img, i, j) then ' ' else g[i][j])
  {
    var ws := BlankWrites(img);
    StampBlanks(g, ws, i, j);
    forall k | 0 <= k < |ws|
      ensures Hits(g, ws[k], i, j) == Lands(g, img, k, i, j)
    {
      assert ws[k].x == RenderWrites(img)[k].x && ws[k].y == RenderWrites(img)[k].y;
    }
    assert AnyHit(g, ws, i, j) == Covers(g, img, i, j);
  }

  /** Only the shape of a grid decides which cells an image covers. */
  lemma CoversShape(g: Grid, g': Grid, img: Image, i: nat, j: nat)
    requires SameShape(g, g')
    ensures Covers(g, img, i, j) == Covers(g', img, i, j)
  {
    forall k | 0 <= k < |img.cells|
      ensures Lands(g, img, k, i, j) == Lands(g', img, k, i, j)
    {
      TargetShape(g, g', RenderWrites(img)[k].x, RenderWrites(img)[k].y);
    }
  }

  /** `Scramble.clear` after `render` leaves no trace of the image: the grid
      is exactly what clearing the original grid would have left. */
  lemma HideUndoesRender(g: Grid, img: Image)
    ensures Hide(Render(g, img), img) == Hide(g, img)
  {
    var r := Render(g, img);
    forall i | 0 <= i < |g|
      ensures Hide(r, img)[i] == Hide(g, img)[i]
    {
      forall j | 0 <= j < |g[i]|
        ensures Hide(r, img)[i][j] == Hide(g, img)[i][j]
      {
        HideCell(g, img, i, j);
        HideCell(r, img, i, j);
        RenderCell(g, img, i, j);
        CoversShape(g, r, img, i, j);
      }
    }
  }

  /** The `displayed_chars` setter: blank the current footprint, then swap in
      the new cells; nothing is rendered. */
  function SetDisplayedChars(g: Grid, img: Image, cells: seq<Cell>): (r: (Grid, Image))
    ensures r.1.x == img.x && r.1.y == img.y && r.1.cells == cells
    ensures SameShape(g, r.0)
    ensures forall i, j :: 0 <= i < |g| && 0 <= j < |g[i]| ==>
              r.0[i][j] == (if Covers(g, img, i, j) then ' ' else g[i][j])
  {
    var blanked := Hide(g, img);
    forall i, j | 0 <= i < |g| && 0 <= j < |g[i]|
      ensures blanked[i][j] == (if Covers(g, img, i, j) then ' ' else g[i][j])
    {
      HideCell(g, img, i, j);
    }
    (blanked, Image(img.x, img.y, cells))
  }

  /** The blanks the `CoverUpImage.chars` setter writes: every old cell's
      column, but always on the origin row `img.y`, whatever the cell's own
      row offset. */
  function CoverWrites(img: Image): (ws: seq<Write>)
    ensures |ws| == |img.cells|
  {
    seq(|img.cells|, k requires 0 <= k < |img.cells| => Write(img.x + img.cells[k].x, img.y, ' '))
  }

  /** The `CoverUpImage.chars` setter: blank the old cells' columns on the
      origin row, swap in the new cells, render. */
  function CoverUpSet(g: Grid, img: Image, cells: seq<Cell>): (r: (Grid, Image))
    ensures r.1 == Image(img.x, img.y, cells)
    ensures SameShape(g, r.0)
  {
    var blanked := Stamp(g, CoverWrites(img));
    var img' := Image(img.x, img.y, cells);
    (Render(blanked, img'), img')
  }

  /** After the setter each grid cell shows the new image where it covers the
      cell, a blank where an old cell's column on the origin row lands, and its
      old character otherwise. Old cells on other rows are not erased. */
  lemma CoverUpCell(g: Grid, img: Image, cells: seq<Cell>, i: nat, j: nat)
    requires i < |g| && j < |g[i]|
    ensures var r := CoverUpSet(g, img, cells).0;
            var img' := Image(img.x, img.y, cells);
            && (forall k :: 0 <= k < |cells| && Lands(g, img', k, i, j)
                  && (forall k' :: k < k' < |cells| ==> !Lands(g, img', k', i, j))
                  ==> r[i][j] == cells[k].ch)
            && (!Covers(g, img', i, j) && AnyHit(g, CoverWrites(img), i, j) ==> r[i][j] == ' ')
            && (!Covers(g, img', i, j) && !AnyHit(g, CoverWrites(img), i, j) ==> r[i][j] == g[i][j])
  {
    var ws := CoverWrites(img);
    var blanked := Stamp(g, ws);
    var img' := Image(img.x, img.y, cells);
    StampBlanks(g, ws, i, j);
    RenderCell(blanked, img', i, j);
    forall k | 0 <= k < |cells|
      ensures Lands(blanked, img', k, i, j) == Lands(g, img', k, i, j)
    {
      TargetShape(g, blanked, RenderWrites(img')[k].x, RenderWrites(img')[k].y);
    }
    assert Covers(blanked, img', i, j) == Covers(g, img', i, j);
  }

  /** The setter leaves an old glyph on a row below the origin row in place:
      a cell at offset (0, 1), replaced by nothing, is still on screen. */
  lemma CoverUpKeepsOtherRows()
    ensures var g := Render(NewCanvas(2, 1), Image(0, 0, [Cell(0, 1, 'X')]));
            g[0][0] == 'X' && CoverUpSet(g, Image(0, 0, [Cell(0, 1, 'X')]), []).0[0][0] == 'X'
  {
    var g0 := NewCanvas(2, 1);
    var img := Image(0, 0, [Cell(0, 1, 'X')]);
    assert RenderWrites(img) == [Write(0, 1, 'X')];
    var g := Render(g0, img);
    assert g == Replace(g0, 0, 1, 'X');
    assert g[0][0] == 'X';
    assert CoverWrites(img) == [Write(0, 0, ' ')];
    var blanked := Stamp(g, CoverWrites(img));
    var ws := CoverWrites(img);
    assert ws[0] == Write(0, 0, ' ') && ws[1..] == [];
    assert Stamp(Replace(g, 0, 0, ' '), []) == Replace(g, 0, 0, ' ');
    assert blanked == Replace(g, 0, 0, ' ');
    ReplaceTarget(g, 2, 1, 0, 0);
    ReplaceCell(g, 0, 0, ' ', 0, 0);
    assert RenderWrites(Image(0, 0, [])) == [];
  }

  // ---------------------------------------------------------------------
  // Char.fromstring

  /** The cells of one line `y`, one per column. */
  function RowCells(line: string, y: int): (cells: seq<Cell>)
    ensures |cells| == |line|
    ensures forall x :: 0 <= x < |line| ==> cells[x] == Cell(x, y, line[x])
  {
    seq(|line|, x requires 0 <= x < |line| => Cell(x, y, line[x]))
  }

  /** The cells of consecutive lines, numbered from `y`, row by row. */
  function LinesCells(lines: seq<string>, y: int): seq<Cell>
    decreases |lines|
  {
    if |lines| == 0 then [] else RowCells(lines[0], y) + LinesCells(lines[1..], y + 1)
  }

  /** `Char.fromstring`: one cell `(x, y, ch)` per character `ch` at column
      `x` of line `y`, row by row. The source's comprehension lists its two
      `for` clauses the other way round, which reads `line` before binding it;
      this is the evidently intended order. */
  function FromString(s: string): (cells: seq<Cell>)
  {
    LinesCells(Split(s, '\n'), 0)
  }

  /** Cell `a` comes strictly before cell `b` in row-major order. */
  predicate Before(a: Cell, b: Cell) {
    a.y < b.y || (a.y == b.y && a.x < b.x)
  }

  lemma {:induction false} LinesCellsLength(lines: seq<string>, y: int)
    ensures |LinesCells(lines, y)| == |Concat(lines)|
    decreases |lines|
  {
    if |lines| > 0 {
      LinesCellsLength(lines[1..], y + 1);
    }
  }

  /** Every cell carries the character found at its column and line. */
  lemma {:induction false} LinesCellsSound(lines: seq<string>, y: int)
    ensures forall k :: 0 <= k < |LinesCells(lines, y)| ==>
              var c := LinesCells(lines, y)[k];
              y <= c.y < y + |lines| && 0 <= c.x < |lines[c.y - y]| && lines[c.y - y][c.x] == c.ch
    decreases |lines|
  {
    if |lines| > 0 {
      LinesCellsSound(lines[1..], y + 1);
      var row := RowCells(lines[0], y);
      var rest := LinesCells(lines[1..], y + 1);
      var cells: seq<Cell> := row + rest;
      forall k | 0 <= k < |cells|
        ensures var c := cells[k];
                y <= c.y < y + |lines| && 0 <= c.x < |lines[c.y - y]| && lines[c.y - y][c.x] == c.ch
      {
        if k >= |row| {
          var c := rest[k - |row|];
          assert lines[1..][c.y - (y + 1)] == lines[c.y - y];
        }
      }
    }
  }

  /** Every character of every line has its cell. */
  lemma {:induction false} LinesCellsComplete(lines: seq<string>, y: int)
    ensures forall r, x :: 0 <= r < |lines| && 0 <= x < |lines[r]| ==>
              Cell(x, y + r, lines[r][x]) in LinesCells(lines, y)
    decreases |lines|
  {
    if |lines| > 0 {
      LinesCellsComplete(lines[1..], y + 1);
      var row := RowCells(lines[0], y);
      var rest := LinesCells(lines[1..], y + 1);
      forall r, x | 0 <= r < |lines| && 0 <= x < |lines[r]|
        ensures Cell(x, y + r, lines[r][x]) in row + rest
      {
        if r == 0 {
          assert row[x] == Cell(x, y, lines[0][x]);
        } else {
          assert lines[1..][r - 1] == lines[r];
          assert Cell(x, (y + 1) + (r - 1), lines[1..][r - 1][x]) in rest;
        }
      }
    }
  }

  /** The cells come row by row, left to right. */
  lemma {:induction false} LinesCellsOrdered(lines: seq<string>, y: int)
    ensures forall k :: 0 <= k < |LinesCells(lines, y)| ==> LinesCells(lines, y)[k].y >= y
    ensures forall a, b :: 0 <= a < b < |LinesCells(lines, y)| ==>
              Before(LinesCells(lines, y)[a], LinesCells(lines, y)[b])
    decreases |lines|
  {
    if |lines| > 0 {
      LinesCellsOrdered(lines[1..], y + 1);
      var row := RowCells(lines[0], y);
      var rest := LinesCells(lines[1..], y + 1);
      assert forall k :: 0 <= k < |row + rest| ==>
        (row + rest)[k] == (if k < |row| then row[k] else rest[k - |row|]);
    }
  }

  /** `Char.fromstring` yields exactly the characters of the text, line breaks
      excepted, each at its column and line, in row-major order. */
  lemma FromStringSpec(s: string)
    ensures |FromString(s)| == |s| - Count(s, '\n')
    ensures forall k :: 0 <= k < |FromString(s)| ==>
              var c := FromString(s)[k];
              0 <= c.y < |Split(s, '\n')| && 0 <= c.x < |Split(s, '\n')[c.y]|
              && Split(s, '\n')[c.y][c.x] == c.ch
    ensures forall r, x :: 0 <= r < |Split(s, '\n')| && 0 <= x < |Split(s, '\n')[r]| ==>
              Cell(x, r, Split(s, '\n')[r][x]) in FromString(s)
    ensures forall a, b :: 0 <= a < b < |FromString(s)| ==> Before(FromString(s)[a], FromString(s)[b])
  {
    var lines := Split(s, '\n');
    LinesCellsLength(lines, 0);
    LinesCellsSound(lines, 0);
    LinesCellsComplete(lines, 0);
    LinesCellsOrdered(lines, 0);
    JoinSplit(s, '\n');
    JoinLength(lines, '\n');
    SplitCount(s, '\n');
  }

  /** `cells` hold exactly the characters of `lines`: each cell is the
      character at its column of its line, and each character of each line
      has its cell. */
  predicate HoldsLines(cells: seq<Cell>, lines: seq<string>) {
    && (forall k :: 0 <= k < |cells| ==>
          0 <= cells[k].y < |lines| && 0 <= cells[k].x < |lines[cells[k].y]|
          && lines[cells[k].y][cells[k].x] == cells[k].ch)
    && (forall y, x :: 0 <= y < |lines| && 0 <= x < |lines[y]| ==> Cell(x, y, lines[y][x]) in cells)
  }

  /** Lines without breaks, joined with line breaks and read back by
      `Char.fromstring`, give the cells of exactly those lines. */
  lemma JoinedCells(lines: seq<string>)
    requires |lines| >= 1 && NoBreaks(lines)
    ensures HoldsLines(FromString(Join(lines, '\n')), lines)
  {
    var body := Join(lines, '\n');
    SplitJoin(lines, '\n');
    FromStringSpec(body);
  }

  /** A single line becomes one cell per character on row 0. */
  lemma FromStringLine(s: string)
    requires '\n' !in s
    ensures FromString(s) == RowCells(s, 0)
  {
    SplitNoSep(s, '\n');
    assert Split(s, '\n') == [s];
    assert LinesCells([s], 0) == RowCells(s, 0) + LinesCells([], 1);
  }

  /** The characters of a single-row cell list, left to right: what
      `Image.__str__` reconstructs for cells at columns 0, 1, 2, ... of row 0. */
  function RowText(cells: seq<Cell>): (s: string)
    ensures |s| == |cells|
  {
    seq(|cells|, k requires 0 <= k < |cells| => cells[k].ch)
  }

  /** The text of a single line survives `fromstring` and reconstruction. */
  lemma RowTextFromString(s: string)
    requires '\n' !in s
    ensures RowText(FromString(s)) == s
  {
    FromStringLine(s);
  }

  // ---------------------------------------------------------------------
  // The earlier snapshot: a checked Char and a strict render

  /** `Char(x, y, char)` of cl-timer/graphics.py: ValueError unless given
      exactly one character. */
  function MakeCell(x: int, y: int, s: string): (r: Result<Cell>)
    ensures r.Ok? <==> |s| == 1
    ensures r.Ok? ==> r.value.x == x && r.value.y == y && [r.value.ch] == s
  {
    if |s| == 1 then Ok(Cell(x, y, s[0])) else Err(ValueError)
  }

  /** A run of strict replaces; the first unresolvable one raises. */
  function StrictStamp(g: Grid, ws: seq<Write>): Result<Grid>
    decreases |ws|
  {
    if |ws| == 0 then Ok(g)
    else
      match StrictReplace(g, ws[0].x, ws[0].y, ws[0].ch)
      case Err(e) => Err(e)
      case Ok(g1) => StrictStamp(g1, ws[1..])
  }

  lemma {:induction false} StrictStampAgrees(g: Grid, ws: seq<Write>)
    ensures StrictStamp(g, ws).Ok? <==> forall k :: 0 <= k < |ws| ==> Target(g, ws[k].x, ws[k].y).Some?
    ensures StrictStamp(g, ws).Ok? ==> StrictStamp(g, ws).value == Stamp(g, ws)
    decreases |ws|
  {
    if |ws| > 0 {
      var g1 := Replace(g, ws[0].x, ws[0].y, ws[0].ch);
      StrictStampAgrees(g1, ws[1..]);
      forall k | 0 <= k < |ws|
        ensures Target(g1, ws[k].x, ws[k].y) == Target(g, ws[k].x, ws[k].y)
      {
        TargetShape(g, g1, ws[k].x, ws[k].y);
      }
      assert forall k :: 1 <= k < |ws| ==> ws[1..][k - 1] == ws[k];
    }
  }

  /** `Image.render` of cl-timer/graphics.py. */
  function StrictRender(g: Grid, img: Image): Result<Grid> {
    StrictStamp(g, RenderWrites(img))
  }

  /** The strict render succeeds exactly when every cell lands on the grid, and
      then draws what the forgiving render draws (later cells win). */
  lemma StrictRenderAgrees(g: Grid, img: Image)
    ensures StrictRender(g, img).Ok? <==>
              forall k :: 0 <= k < |img.cells| ==> Target(g, img.x + img.cells[k].x, img.y + img.cells[k].y).Some?
    ensures StrictRender(g, img).Ok? ==> StrictRender(g, img).value == Render(g, img)
  {
    var ws := RenderWrites(img);
    StrictStampAgrees(g, ws);
    assert forall k :: 0 <= k < |img.cells| ==>
      ws[k].x == img.x + img.cells[k].x && ws[k].y == img.y + img.cells[k].y;
  }
}

=== FILE: inputline.dfy ===
/** `InputLine` of cl_timer/graphics.py: a one-line text field at the bottom
    of the canvas, driven by curses key codes.

    Three spots cannot run as written and are modelled as intended:
    `__init__` reads `self.canvas` before `Image.__init__` sets it (the
    `canvas` argument is meant); it concatenates the prompt with the last grid
    row, a list (read here as one blank per prompt character and per row cell);
    and `type_char` / `_del_char` call `update_chars()` without `self`. */
module InputLine {
  import opened Results
  import opened Text
  import opened Canvas
  import opened Images

  /** The field's state: the prompt, the cursor position counted from the
      start of the prompt, whether Enter was pressed, the characters typed so
      far, and the image holding the row of cells. */
  datatype InputLine = InputLine(prompt: string, cursor: int, submitted: bool, entered: string, image: Image)

  const NO_KEY: int := -1
  const ENTER: int := 10
  const BACKSPACE: int := 127
  const LEFT_ARROW: int := 260
  const RIGHT_ARROW: int := 261

  /** The codes `type_char` handles specially. */
  predicate Special(code: int) {
    code == NO_KEY || code == BACKSPACE || code == ENTER || code == LEFT_ARROW || code == RIGHT_ARROW
  }

  /** `InputLine.value`. */
  function Value(st: InputLine): string {
    st.entered
  }

  /** The cursor sits between the end of the prompt and the end of the typed
      text, and no typed character is a line break. */
  predicate Inv(st: InputLine) {
    |st.prompt| <= st.cursor <= |st.prompt| + |st.entered| && '\n' !in st.entered
  }

  /** The blanks `update_chars` pads with: `range(width - used)`, which is
      empty when negative. */
  function Padding(width: int, used: int): (r: string)
    ensures |r| == if width > used then width - used else 0
    ensures forall k :: 0 <= k < |r| ==> r[k] == ' '
  {
    Blanks(if width > used then width - used else 0)
  }

  /** The text `update_chars` turns into cells for a row `width` wide. */
  function RowString(prompt: string, entered: string, width: int): string {
    prompt + entered + Padding(width, |prompt| + |entered|)
  }

  /** `InputLine(canvas, prompt)`: the cursor right of the prompt, nothing
      typed, the image on the last line (`len(grid) - 1`); IndexError from
      `grid[-1]` on a canvas without rows. A one-line prompt is followed
      by one blank per prompt character and per cell of the last grid row,
      each cell at its own column of row 0, so the row is wider than the
      canvas by the prompt's length. */
  function NewInputLine(g: Grid, prompt: string): (r: Result<InputLine>)
    ensures r.Ok? <==> |g| > 0
    ensures r.Ok? ==> Inv(r.value) && r.value.cursor == |r.value.prompt| && !r.value.submitted
    ensures r.Ok? ==> Value(r.value) == "" && r.value.image.x == 0 && r.value.image.y == |g| - 1
    ensures r.Ok? && '\n' !in prompt ==>
              && |r.value.image.cells| == 2 * |prompt| + |g[|g| - 1]|
              && forall i :: 0 <= i < |r.value.image.cells| ==>
                   r.value.image.cells[i] == Cell(i, 0, if i < |prompt| then prompt[i] else ' ')
  {
    if |g| == 0 then Err(IndexError)
    else
      var text := prompt + Blanks(|prompt| + |g[|g| - 1]|);
      if '\n' !in prompt then
        assert '\n' !in text;
        FromStringLine(text);
        Ok(InputLine(prompt, |prompt|, false, "", Image(0, |g| - 1, FromString(text))))
      else
        Ok(InputLine(prompt, |prompt|, false, "", Image(0, |g| - 1, FromString(text))))
  }

  /** `update_chars`: rebuild the cells from prompt, typed text and padding to
      the width of the last grid row. */
  function UpdateChars(g: Grid, st: InputLine): (r: Result<InputLine>)
    ensures r.Ok? <==> |g| > 0
    ensures r.Ok? ==> r.value == st.(image := r.value.image)
    ensures r.Ok? ==> r.value.image.x == st.image.x && r.value.image.y == st.image.y
  {
    if |g| == 0 then Err(IndexError)
    else Ok(st.(image := Image(st.image.x, st.image.y, FromString(RowString(st.prompt, st.entered, |g[|g| - 1]|)))))
  }

  /** `_del_char`: right of the prompt, drop the character before the cursor,
      rebuild the cells, and step the cursor back. */
  function DelChar(g: Grid, st: InputLine): (r: Result<InputLine>)
  {
    if st.cursor > |st.prompt| then
      var entered :- PopAt(st.entered, st.cursor - |st.prompt| - 1);
      var st' :- UpdateChars(g, st.(entered := entered));
      Ok(st'.(cursor := st.cursor - 1))
    else Ok(st)
  }

  /** `type_char(code)`: the new state and the grid. Only Enter draws; the
      other keys change the state and leave drawing to the caller. */
  function TypeChar(g: Grid, st: InputLine, code: int): (r: Result<(InputLine, Grid)>)
  {
    if !Special(code) then
      var c :- Chr(code);
      var st1 := st.(entered := InsertAt(st.entered, st.cursor - |st.prompt|, c), cursor := st.cursor + 1);
      var st2 :- UpdateChars(g, st1);
      Ok((st2, g))
    else if code == BACKSPACE then
      var st' :- DelChar(g, st);
      Ok((st', g))
    else if code == ENTER then
      var img := Image(st.image.x, st.image.y, BlankRow(|st.image.cells|));
      Ok((st.(submitted := true, image := img), Render(g, img)))
    else if code == LEFT_ARROW then
      Ok((if st.cursor - |st.prompt| - 1 >= 0 then st.(cursor := st.cursor - 1) else st, g))
    else if code == RIGHT_ARROW then
      Ok((if |st.prompt| + |st.entered| >= st.cursor + 1 then st.(cursor := st.cursor + 1) else st, g))
    else
      Ok((st, g))
  }

  // ---------------------------------------------------------------------
  // A reference editor: the text left and right of the cursor

  datatype Key = Insert(c: char) | Backspace | Enter | MoveLeft | MoveRight | NoKey

  /** The editing buffer as two halves around the cursor, plus the
      submitted flag. */
  datatype Edit = Edit(left: string, right: string, done: bool)

  /** What each key does to the buffer. */
  function EditStep(e: Edit, k: Key): Edit {
    match k
    case Insert(c) => e.(left := e.left + [c])
    case Backspace => if |e.left| > 0 then e.(left := e.left[..|e.left| - 1]) else e
    case MoveLeft =>
      if |e.left| > 0 then Edit(e.left[..|e.left| - 1], [e.left[|e.left| - 1]] + e.right, e.done) else e
    case MoveRight =>
      if |e.right| > 0 then Edit(e.left + [e.right[0]], e.right[1..], e.done) else e
    case Enter => e.(done := true)
    case NoKey => e
  }

  /** The key a code stands for; `None` when `chr` rejects it. */
  function KeyOf(code: int): Option<Key> {
    if code == NO_KEY then Some(NoKey)
    else if code == BACKSPACE then Some(Backspace)
    else if code == ENTER then Some(Enter)
    else if code == LEFT_ARROW then Some(MoveLeft)
    else if code == RIGHT_ARROW then Some(MoveRight)
    else match Chr(code)
      case Ok(c) => Some(Insert(c))
      case Err(_) => None
  }

  /** The buffer an input line stands for. */
  function Abs(st: InputLine): Edit
    requires Inv(st)
  {
    var i := st.cursor - |st.prompt|;
    Edit(st.entered[..i], st.entered[i..], st.submitted)
  }

  /** Inserting a character that is not a line break at `i` splits the text
      around the new character and adds no line break. */
  lemma InsertSplits(e: string, i: int, c: char)
    requires 0 <= i <= |e| && '\n' !in e && c != '\n'
    ensures var e' := InsertAt(e, i, c);
            && '\n' !in e'
            && e'[..i + 1] == e[..i] + [c] && e'[i + 1..] == e[i..]
  {
    var e' := InsertAt(e, i, c);
    assert e' == e[..i] + [c] + e[i..];
    assert e'[..i + 1] == e[..i] + [c];
    assert e'[i + 1..] == e[i..];
    assert forall x :: x in e' ==> x in e || x == c;
  }

  /** Popping the character before position `i` joins the text around it and
      adds no line break. */
  lemma PopJoins(e: string, i: int)
    requires 0 < i <= |e| && '\n' !in e
    ensures PopAt(e, i - 1).Ok?
    ensures var e' := PopAt(e, i - 1).value;
            && '\n' !in e'
            && |e'| == |e| - 1
            && e'[..i - 1] == e[..i][..i - 1] && e'[i - 1..] == e[i..]
  {
    var e' := e[..i - 1] + e[i..];
    assert e'[..i - 1] == e[..i][..i - 1];
    assert e'[i - 1..] == e[i..];
    assert forall x :: x in e' ==> x in e;
  }

  /** A printable key inserts before the cursor. */
  lemma InsertRefines(g: Grid, st: InputLine, code: int)
    requires |g| > 0 && Inv(st) && !Special(code) && Chr(code).Ok?
    ensures TypeChar(g, st, code).Ok?
    ensures var st' := TypeChar(g, st, code).value.0;
            && st'.prompt == st.prompt && Inv(st')
            && Abs(st') == EditStep(Abs(st), Insert(Chr(code).value))
  {
    var c := Chr(code).value;
    InsertSplits(st.entered, st.cursor - |st.prompt|, c);
  }

  /** Backspace right of the prompt deletes the character before the cursor. */
  lemma BackspaceRefines(g: Grid, st: InputLine)
    requires |g| > 0 && Inv(st)
    ensures TypeChar(g, st, BACKSPACE).Ok?
    ensures var st' := TypeChar(g, st, BACKSPACE).value.0;
            && st'.prompt == st.prompt && Inv(st')
            && Abs(st') == EditStep(Abs(st), Backspace)
            && |st'.entered| == (if st.cursor > |st.prompt| then |st.entered| - 1 else |st.entered|)
            && st'.cursor == (if st.cursor > |st.prompt| then st.cursor - 1 else st.cursor)
  {
    if st.cursor > |st.prompt| {
      PopJoins(st.entered, st.cursor - |st.prompt|);
    }
  }

  /** The left arrow moves the cursor back over one character, never into
      the prompt. */
  lemma LeftRefines(g: Grid, st: InputLine)
    requires Inv(st)
    ensures TypeChar(g, st, LEFT_ARROW).Ok?
    ensures var st' := TypeChar(g, st, LEFT_ARROW).value.0;
            && st'.prompt == st.prompt && Inv(st')
            && Abs(st') == EditStep(Abs(st), MoveLeft)
  {
    var i := st.cursor - |st.prompt|;
    var e := st.entered;
    if i > 0 {
      assert e[..i - 1] == e[..i][..i - 1];
      assert e[i - 1..] == [e[..i][i - 1]] + e[i..];
    }
  }

  /** The right arrow moves the cursor forward over one character, never
      past the end of the text. */
  lemma RightRefines(g: Grid, st: InputLine)
    requires Inv(st)
    ensures TypeChar(g, st, RIGHT_ARROW).Ok?
    ensures var st' := TypeChar(g, st, RIGHT_ARROW).value.0;
            && st'.prompt == st.prompt && Inv(st')
            && Abs(st') == EditStep(Abs(st), MoveRight)
  {
    var i := st.cursor - |st.prompt|;
    var e := st.entered;
    if i < |e| {
      assert e[..i + 1] == e[..i] + [e[i..][0]];
      assert e[i + 1..] == e[i..][1..];
    }
  }

  /** `type_char` on a field in the invariant fails only when `chr` rejects
      the code; otherwise it keeps the prompt and the invariant and edits the
      buffer exactly as the reference editor does. */
  lemma TypeCharRefines(g: Grid, st: InputLine, code: int)
    requires |g| > 0 && Inv(st)
    ensures TypeChar(g, st, code).Ok? <==> KeyOf(code).Some?
    ensures TypeChar(g, st, code).Ok? ==>
              var st' := TypeChar(g, st, code).value.0;
              && st'.prompt == st.prompt && Inv(st')
              && Abs(st') == EditStep(Abs(st), KeyOf(code).value)
  {
    if !Special(code) {
      if Chr(code).Ok? {
        InsertRefines(g, st, code);
      }
    } else if code == BACKSPACE {
      BackspaceRefines(g, st);
    } else if code == LEFT_ARROW {
      LeftRefines(g, st);
    } else if code == RIGHT_ARROW {
      RightRefines(g, st);
    }
  }

  /** Under the invariant, the cursor moves left only from right of the
      prompt, right only from before the end of the text, and backspace
      deletes only right of the prompt; a refused move changes nothing. */
  lemma CursorMoves(g: Grid, st: InputLine, code: int)
    requires |g| > 0 && Inv(st)
    requires code == LEFT_ARROW || code == RIGHT_ARROW || code == BACKSPACE
    ensures TypeChar(g, st, code).Ok?
    ensures var st' := TypeChar(g, st, code).value.0;
            && (code == LEFT_ARROW ==>
                  st'.cursor == (if st.cursor > |st.prompt| then st.cursor - 1 else st.cursor))
            && (code == RIGHT_ARROW ==>
                  st'.cursor == (if st.cursor < |st.prompt| + |st.entered| then st.cursor + 1 else st.cursor))
            && (code == BACKSPACE ==>
                  && st'.cursor == (if st.cursor > |st.prompt| then st.cursor - 1 else st.cursor)
                  && |st'.entered| == (if st.cursor > |st.prompt| then |st.entered| - 1 else |st.entered|))
            && (code != BACKSPACE ==> st'.entered == st.entered && st'.image == st.image)
  {
    if code == BACKSPACE {
      BackspaceRefines(g, st);
    }
  }

  /** Enter sets `submitted`, keeps the typed value, turns the row into as
      many blanks as it had cells, and draws them; no key clears
      `submitted`. */
  lemma EnterBlanksRow(g: Grid, st: InputLine)
    ensures TypeChar(g, st, ENTER).Ok?
    ensures var (st', g') := TypeChar(g, st, ENTER).value;
            && st'.submitted && Value(st') == Value(st) && st'.cursor == st.cursor
            && |st'.image.cells| == |st.image.cells|
            && (forall k :: 0 <= k < |st'.image.cells| ==> st'.image.cells[k] == Cell(k, 0, ' '))
            && g' == Render(g, st'.image)
  {
  }

  /** `submitted` never goes back to false, and becomes true exactly on
      Enter. */
  lemma SubmittedSticks(g: Grid, st: InputLine, code: int)
    requires TypeChar(g, st, code).Ok?
    ensures TypeChar(g, st, code).value.0.submitted == (st.submitted || code == ENTER)
  {
  }

  /** After an editing key the row's cells spell prompt, value and padding to
      the width of the last grid row, one cell per column of row 0. */
  lemma EditShowsRow(g: Grid, st: InputLine, code: int)
    requires |g| > 0 && Inv(st) && '\n' !in st.prompt
    requires code != ENTER && code != NO_KEY && code != LEFT_ARROW && code != RIGHT_ARROW
    requires TypeChar(g, st, code).Ok?
    requires code == BACKSPACE ==> st.cursor > |st.prompt|
    ensures var st' := TypeChar(g, st, code).value.0;
            var text := RowString(st'.prompt, Value(st'), |g[|g| - 1]|);
            && st'.image.cells == RowCells(text, 0)
            && RowText(st'.image.cells) == text
  {
    TypeCharRefines(g, st, code);
    var st' := TypeChar(g, st, code).value.0;
    var text := RowString(st'.prompt, st'.entered, |g[|g| - 1]|);
    assert '\n' !in text by {
      assert forall k :: 0 <= k < |text| ==> text[k] != '\n' by {
        forall k | 0 <= k < |text|
          ensures text[k] != '\n'
        {
          var a, b := |st'.prompt|, |st'.entered|;
          if k < a {
            assert text[k] == st'.prompt[k];
          } else if k < a + b {
            assert text[k] == st'.entered[k - a];
          } else {
            assert text[k] == Padding(|g[|g| - 1]|, a + b)[k - a - b];
          }
        }
      }
    }
    FromStringLine(text);
    RowTextFromString(text);
  }

  // ---------------------------------------------------------------------
  // A run of key codes

  /** Feed `codes` to `type_char` one after another, stopping at the first
      error. */
  function TypeChars(g: Grid, st: InputLine, codes: seq<int>): (r: Result<(InputLine, Grid)>)
    decreases |codes|
  {
    if |codes| == 0 then Ok((st, g))
    else
      var (st1, g1) :- TypeChar(g, st, codes[0]);
      TypeChars(g1, st1, codes[1..])
  }

  /** The keys a run of codes stands for, when `chr` accepts every one. */
  function KeysOf(codes: seq<int>): Option<seq<Key>>
    decreases |codes|
  {
    if |codes| == 0 then Some([])
    else
      match KeyOf(codes[0])
      case None => None
      case Some(k) =>
        match KeysOf(codes[1..])
        case None => None
        case Some(ks) => Some([k] + ks)
  }

  function EditSteps(e: Edit, keys: seq<Key>): Edit
    decreases |keys|
  {
    if |keys| == 0 then e else EditSteps(EditStep(e, keys[0]), keys[1..])
  }

  /** A run of key codes succeeds exactly when `chr` accepts every code, keeps
      the invariant, and edits the buffer as the reference editor does the
      corresponding keys; the grid keeps its shape throughout. */
  lemma {:induction false} TypeCharsRefines(g: Grid, st: InputLine, codes: seq<int>)
    requires |g| > 0 && Inv(st)
    ensures TypeChars(g, st, codes).Ok? <==> KeysOf(codes).Some?
    ensures TypeChars(g, st, codes).Ok? ==>
              var (st', g') := TypeChars(g, st, codes).value;
              && Inv(st') && st'.prompt == st.prompt && SameShape(g, g')
              && Abs(st') == EditSteps(Abs(st), KeysOf(codes).value)
    decreases |codes|
  {
    if |codes| > 0 {
      TypeCharRefines(g, st, codes[0]);
      if TypeChar(g, st, codes[0]).Ok? {
        var (st1, g1) := TypeChar(g, st, codes[0]).value;
        assert SameShape(g, g1);
        TypeCharsRefines(g1, st1, codes[1..]);
        if TypeChars(g1, st1, codes[1..]).Ok? {
          var (st', g') := TypeChars(g1, st1, codes[1..]).value;
          assert SameShape(g1, g');
        }
      }
    }
  }

  /** A fresh input line is the empty, unsubmitted reference buffer, so from
      it a run of key codes leaves as its value exactly the text the
      reference editor holds after the same keys. */
  lemma NewThenType(g: Grid, prompt: string, codes: seq<int>)
    requires |g| > 0
    ensures NewInputLine(g, prompt).Ok?
    ensures Abs(NewInputLine(g, prompt).value) == Edit("", "", false)
    ensures TypeChars(g, NewInputLine(g, prompt).value, codes).Ok? <==> KeysOf(codes).Some?
    ensures TypeChars(g, NewInputLine(g, prompt).value, codes).Ok? ==>
              var e := EditSteps(Edit("", "", false), KeysOf(codes).value);
              Value(TypeChars(g, NewInputLine(g, prompt).value, codes).value.0) == e.left + e.right
  {
    var st := NewInputLine(g, prompt).value;
    assert Abs(st) == Edit("", "", false);
    TypeFromEmpty(g, st, codes);
  }

  /** From a state whose buffer is empty, the value after a run of keys is
      the reference editor's text after the same keys. */
  lemma TypeFromEmpty(g: Grid, st: InputLine, codes: seq<int>)
    requires |g| > 0 && Inv(st) && Abs(st) == Edit("", "", false)
    ensures TypeChars(g, st, codes).Ok? <==> KeysOf(codes).Some?
    ensures TypeChars(g, st, codes).Ok? ==>
              var e := EditSteps(Edit("", "", false), KeysOf(codes).value);
              Value(TypeChars(g, st, codes).value.0) == e.left + e.right
  {
    TypeCharsRefines(g, st, codes);
    if TypeChars(g, st, codes).Ok? {
      var st' := TypeChars(g, st, codes).value.0;
      var i := st'.cursor - |st'.prompt|;
      assert st'.entered == st'.entered[..i] + st'.entered[i..];
    }
  }
}

=== FILE: interpreter.dfy ===
/** The front end of `interpret` in cl_timer/interpreter.py: the split of a
    command line on ';', the two syntax checks, and the quote-aware word
    splitter that produces the words a command body dispatches on. */
module Interpreter {
  import opened Results
  import opened Text
  import opened Canvas
  import opened Images

  const ODD_QUOTES: string := "syntax error: odd number of quotes (\")"
  const DOUBLE_SPACE: string := "syntax error: command parts separated by more than one space ( )"

  /** What interpreting a command line leaves behind: the canvas, and either
      the word list of every command in order or the exception raised. */
  datatype Outcome = Outcome(grid: Grid, result: Result<seq<seq<string>>>)

  // ---------------------------------------------------------------------
  // show_error_message

  /** `show_error_message(string)`: unless `silent`, the message is drawn
      from the left of the canvas's row `len(grid) - 1`; CommandSyntaxError
      is raised either way. */
  function ShowErrorMessage(g: Grid, silent: bool, msg: string): (o: Outcome)
    ensures o.result == Err(CommandSyntaxError)
    ensures SameShape(g, o.grid)
  {
    var shown := if silent then g else Render(g, MessageImage(g, msg));
    Outcome(shown, Err(CommandSyntaxError))
  }

  /** Silencing changes nothing but the drawing: the same exception is
      raised, and a silent call leaves the canvas as it was. */
  lemma SilentOnlySuppressesDrawing(g: Grid, msg: string)
    ensures ShowErrorMessage(g, true, msg).result == ShowErrorMessage(g, false, msg).result
    ensures ShowErrorMessage(g, true, msg).grid == g
  {
  }

  /** The image `show_error_message` draws for `msg`. */
  function MessageImage(g: Grid, msg: string): Image {
    Image(0, |g| - 1, FromString(msg))
  }

  /** Character `k` of a one-line message lands on column `k` of the
      canvas's row `len(grid) - 1` (grid row 0), and nowhere else. */
  lemma MessageCellLands(g: Grid, msg: string, k: nat, i: nat, j: nat)
    requires '\n' !in msg && k < |msg| && i < |g| && j < |g[i]|
    ensures k < |MessageImage(g, msg).cells|
    ensures Lands(g, MessageImage(g, msg), k, i, j) <==> i == 0 && j == k
  {
    FromStringLine(msg);
    assert MessageImage(g, msg).cells[k] == Cell(k, 0, msg[k]);
  }

  /** An audible one-line message is drawn at `y = len(grid) - 1`, which
      `replace` sends to grid row 0, the bottom display line: its characters
      fill that row from the left, as far as the row reaches, and every other
      cell keeps its character. */
  lemma MessageShown(g: Grid, msg: string, i: nat, j: nat)
    requires '\n' !in msg && i < |g| && j < |g[i]|
    ensures i == 0 && j < |msg| ==> ShowErrorMessage(g, false, msg).grid[i][j] == msg[j]
    ensures i != 0 || j >= |msg| ==> ShowErrorMessage(g, false, msg).grid[i][j] == g[i][j]
  {
    var img := MessageImage(g, msg);
    FromStringLine(msg);
    RenderCell(g, img, i, j);
    forall k | 0 <= k < |img.cells|
      ensures Lands(g, img, k, i, j) <==> i == 0 && j == k
    {
      MessageCellLands(g, msg, k, i, j);
    }
    if i == 0 && j < |msg| {
      assert Lands(g, img, j, i, j);
    }
  }

  // ---------------------------------------------------------------------
  // the word splitter

  /** The splitter's state: the finished words, the characters of the word
      being read, whether a quote is open, and whether the next character is
      to be skipped. */
  datatype Scan = Scan(words: seq<string>, current: string, inQuotes: bool, skip: bool)

  const START: Scan := Scan([], "", false, false)

  /** One pass of the `for` loop over the characters of the command. The
      finished words only ever gain the word being read, which then starts
      afresh; a skipped character changes nothing else; and a skip is only
      ever set by the quote that closes a quoted word. */
  function Step(st: Scan, c: char): (r: Scan)
    ensures r.words == st.words || (r.words == st.words + [st.current] && r.current == "")
    ensures st.skip ==> r == st.(skip := false)
    ensures r.skip ==> !st.skip && st.inQuotes && c == '"' && !r.inQuotes
  {
    if st.skip then st.(skip := false)
    else if st.inQuotes then
      if c == '"' then Scan(st.words + [st.current], "", false, true)
      else st.(current := st.current + [c])
    else if c == '"' then st.(inQuotes := true)
    else if c == ' ' then Scan(st.words + [st.current], "", false, false)
    else st.(current := st.current + [c])
  }

  /** The loop run over `s` from state `st`. */
  function Run(st: Scan, s: string): Scan
    decreases |s|
  {
    if |s| == 0 then st else Run(Step(st, s[0]), s[1..])
  }

  /** The loop never loses or rewrites a finished word: the words finished
      before a run stay at the front, and each character adds at most one. */
  lemma {:induction false} RunKeepsWords(st: Scan, s: string)
    ensures var r := Run(st, s);
            |st.words| <= |r.words| <= |st.words| + |s| && r.words[..|st.words|] == st.words
    decreases |s|
  {
    if |s| > 0 {
      var next := Step(st, s[0]);
      RunKeepsWords(next, s[1..]);
      var r := Run(next, s[1..]);
      assert r.words[..|st.words|] == r.words[..|next.words|][..|st.words|];
    }
  }

  /** Running over `a + b` is running over `a`, then over `b`. */
  lemma {:induction false} RunAppend(st: Scan, a: string, b: string)
    ensures Run(st, a + b) == Run(Run(st, a), b)
    decreases |a|
  {
    if |a| > 0 {
      assert (a + b)[0] == a[0];
      assert (a + b)[1..] == a[1..] + b;
      RunAppend(Step(st, a[0]), a[1..], b);
    } else {
      assert a + b == b;
    }
  }

  /** `words` after the loop and the final `if command[-1] != '"'`: when the
      command does not end in a quote, the text after its last space is
      appended as one more word. An empty command raises IndexError. */
  function Words(command: string): (r: Result<seq<string>>)
    ensures r.Ok? <==> |command| > 0
    ensures r.Err? ==> r.error == IndexError
  {
    if |command| == 0 then Err(IndexError)
    else
      var st := Run(START, command);
      var parts := Split(command, ' ');
      Ok(if command[|command| - 1] != '"' then st.words + [parts[|parts| - 1]] else st.words)
  }

  /** Outside quotes and without a quote in sight, the loop cuts at every
      space: the finished words gain every piece of `current + s` but the
      last, which is the word still being read. */
  lemma {:induction false} PlainRun(ws: seq<string>, cur: string, s: string)
    requires ' ' !in cur && '"' !in s
    ensures var p := Split(cur + s, ' ');
            Run(Scan(ws, cur, false, false), s) == Scan(ws + p[..|p| - 1], p[|p| - 1], false, false)
    decreases |s|
  {
    if |s| == 0 {
      assert cur + s == cur;
      SplitNoSep(cur, ' ');
    } else {
      var t := s[1..];
      assert '"' !in t by {
        assert forall k :: 0 <= k < |t| ==> t[k] == s[k + 1];
      }
      if s[0] == ' ' {
        PlainRun(ws + [cur], "", t);
        PlainRunSpace(ws, cur, s);
      } else {
        PlainRun(ws, cur + [s[0]], t);
        assert (cur + [s[0]]) + t == cur + s;
      }
    }
  }

  /** The step of `PlainRun` at a space: the word read so far is finished. */
  lemma PlainRunSpace(ws: seq<string>, cur: string, s: string)
    requires ' ' !in cur && |s| > 0 && s[0] == ' '
    requires var q := Split("" + s[1..], ' ');
             Run(Scan(ws + [cur], "", false, false), s[1..]) == Scan(ws + [cur] + q[..|q| - 1], q[|q| - 1], false, false)
    ensures var p := Split(cur + s, ' ');
            Run(Scan(ws, cur, false, false), s) == Scan(ws + p[..|p| - 1], p[|p| - 1], false, false)
  {
    var t := s[1..];
    assert "" + t == t;
    assert cur + s == cur + [' '] + t;
    SplitAtSep(cur, ' ', t);
    var p, q := Split(cur + s, ' '), Split(t, ' ');
    assert p == [cur] + q;
    assert p[..|p| - 1] == [cur] + q[..|q| - 1];
    assert ws + [cur] + q[..|q| - 1] == ws + p[..|p| - 1];
  }

  /** From the start, text without quotes leaves every piece of its
      `split(' ')` but the last finished, and the last one being read. */
  lemma StartPlain(command: string)
    requires '"' !in command
    ensures var p := Split(command, ' ');
            Run(START, command) == Scan(p[..|p| - 1], p[|p| - 1], false, false)
  {
    var p := Split(command, ' ');
    PlainRun([], "", command);
    assert "" + command == command;
    assert [] + p[..|p| - 1] == p[..|p| - 1];
  }

  /** When the loop ends with every `split(' ')` piece but the last
      finished, and the command does not end in a quote, the words are all
      the pieces. */
  lemma WordsFromPlainRun(command: string)
    requires |command| > 0 && command[|command| - 1] != '"'
    requires var p := Split(command, ' ');
             Run(START, command) == Scan(p[..|p| - 1], p[|p| - 1], false, false)
    ensures Words(command) == Ok(Split(command, ' '))
  {
    var p := Split(command, ' ');
    assert p[..|p| - 1] + [p[|p| - 1]] == p;
  }

  /** Without any quote the words are exactly `command.split(' ')`. */
  lemma NoQuotesSplitsOnSpaces(command: string)
    requires |command| > 0 && '"' !in command
    ensures Words(command) == Ok(Split(command, ' '))
  {
    assert command[|command| - 1] != '"' by {
      assert command[|command| - 1] in command;
    }
    StartPlain(command);
    WordsFromPlainRun(command);
  }

  /** Inside a quote pair every character, spaces included, extends the
      current word; the closing quote finishes it, and the character right
      after the closing quote is skipped whatever it is. */
  lemma {:induction false} QuotedSpan(ws: seq<string>, cur: string, t: string, x: char, rest: string)
    requires '"' !in t
    ensures Run(Scan(ws, cur, true, false), t + ['"', x] + rest) == Run(Scan(ws + [cur + t], "", false, false), rest)
    decreases |t|
  {
    if |t| == 0 {
      assert t + ['"', x] + rest == ['"'] + ([x] + rest);
      assert cur + t == cur;
      assert ([x] + rest)[1..] == rest;
    } else {
      var y := t[0];
      assert '"' !in t[1..] by {
        assert forall k :: 0 <= k < |t| - 1 ==> t[1..][k] == t[k + 1];
      }
      assert (t + ['"', x] + rest)[1..] == t[1..] + ['"', x] + rest;
      QuotedSpan(ws, cur + [y], t[1..], x, rest);
      assert (cur + [y]) + t[1..] == cur + t;
    }
  }

  /** A bare word and a space: the word is finished. */
  lemma WordThenSpace(w: string)
    requires ' ' !in w && '"' !in w
    ensures Run(START, w + " ") == Scan([w], "", false, false)
  {
    RunAppend(START, w, " ");
    PlainRun([], "", w);
    assert "" + w == w;
    SplitNoSep(w, ' ');
  }

  /** A quoted text at the end of the command becomes one word, and the
      closing quote leaves the skip flag set. */
  lemma QuotedTail(ws: seq<string>, t: string)
    requires '"' !in t
    ensures Run(Scan(ws, "", false, false), "\"" + t + "\"") == Scan(ws + [t], "", false, true)
  {
    var u := "\"" + t + "\"";
    assert u[0] == '"' && u[1..] == t + ['"'];
    RunAppend(Scan(ws, "", true, false), t, ['"']);
    QuotedText(ws, "", t);
    assert "" + t == t;
  }

  /** A quote closing at the very end of the command ends its word, and no
      trailing word is added: `w "t"` gives the words `w` and `t`. */
  lemma QuotedLastArgument(w: string, t: string)
    requires ' ' !in w && '"' !in w && '"' !in t
    ensures Words(w + " \"" + t + "\"") == Ok([w, t])
  {
    var command := w + " \"" + t + "\"";
    assert command == (w + " ") + ("\"" + t + "\"");
    RunAppend(START, w + " ", "\"" + t + "\"");
    WordThenSpace(w);
    QuotedTail([w], t);
    assert [w] + [t] == [w, t];
    assert Run(START, command).words == [w, t];
    assert command[|command| - 1] == '"';
  }

  /** Inside quotes, text without a quote only extends the current word. */
  lemma {:induction false} QuotedText(ws: seq<string>, cur: string, t: string)
    requires '"' !in t
    ensures Run(Scan(ws, cur, true, false), t) == Scan(ws, cur + t, true, false)
    decreases |t|
  {
    if |t| == 0 {
      assert cur + t == cur;
    } else {
      assert '"' !in t[1..] by {
        assert forall k :: 0 <= k < |t| - 1 ==> t[1..][k] == t[k + 1];
      }
      QuotedText(ws, cur + [t[0]], t[1..]);
      assert (cur + [t[0]]) + t[1..] == cur + t;
    }
  }

  // ---------------------------------------------------------------------
  // interpret

  /** What the front end of `interpret` decides about a command line: the
      words of each of its commands, in order; a syntax error with the
      message `show_error_message` draws; or another exception. */
  datatype Verdict = Accept(commands: seq<seq<string>>) | Reject(message: string) | Raise(error: Error)

  /** The checks and the splitter on a command without ';': the quote-count
      check, then the double-space check, then the words. A command whose
      words were found goes on to its body, which this model leaves out. */
  function CheckCommand(command: string): (v: Verdict)
    ensures v.Accept? ==> |v.commands| == 1
  {
    if Count(command, '"') % 2 != 0 then Reject(ODD_QUOTES)
    else if HasDoubleSpace(command) then Reject(DOUBLE_SPACE)
    else match Words(command)
      case Err(e) => Raise(e)
      case Ok(words) => Accept([words])
  }

  /** The verdicts of a run of commands taken in order: the first one that
      is not an acceptance ends the run and is its verdict; otherwise the
      word lists of all of them, in order. */
  function Combine(vs: seq<Verdict>): Verdict
    decreases |vs|
  {
    if |vs| == 0 then Accept([])
    else if !vs[0].Accept? then vs[0]
    else
      var rest := Combine(vs[1..]);
      if !rest.Accept? then rest else Accept(vs[0].commands + rest.commands)
  }

  /** The `for` over the `;`-separated pieces: each stripped piece is
      interpreted in turn, and the first exception ends the whole line. */
  function CheckPieces(pieces: seq<string>): Verdict {
    Combine(seq(|pieces|, i requires 0 <= i < |pieces| => CheckCommand(Strip(pieces[i]))))
  }

  /** The front end of `interpret(command)`. A stripped piece holds no ';',
      so the source's recursive call always takes the non-splitting path. */
  function CheckLine(command: string): Verdict {
    if ';' in command then CheckPieces(Split(command, ';')) else CheckCommand(command)
  }

  /** `interpret(command)` up to the command bodies: a rejected line shows
      its message (unless `silent`) and raises CommandSyntaxError. */
  function Interpret(g: Grid, silent: bool, command: string): (o: Outcome)
    ensures SameShape(g, o.grid)
  {
    match CheckLine(command)
    case Accept(commands) => Outcome(g, Ok(commands))
    case Reject(message) => ShowErrorMessage(g, silent, message)
    case Raise(e) => Outcome(g, Err(e))
  }

  /** A piece of a split command, once stripped, takes the non-splitting
      path when interpreted again. */
  lemma PieceIsChecked(command: string, i: nat)
    requires i < |Split(command, ';')|
    ensures CheckLine(Strip(Split(command, ';')[i])) == CheckCommand(Strip(Split(command, ';')[i]))
  {
  }

  /** A rejected line raises CommandSyntaxError after showing its message,
      unless `silent`; an accepted one leaves the canvas untouched. */
  lemma VerdictShown(g: Grid, silent: bool, command: string)
    ensures CheckLine(command).Reject? ==>
              Interpret(g, silent, command) == ShowErrorMessage(g, silent, CheckLine(command).message)
              && Interpret(g, silent, command).result == Err(CommandSyntaxError)
    ensures CheckLine(command).Accept? ==> Interpret(g, silent, command) == Outcome(g, Ok(CheckLine(command).commands))
  {
  }

  /** An odd number of quotes is rejected with its message. */
  lemma OddQuotesRejected(command: string)
    requires ';' !in command && Count(command, '"') % 2 == 1
    ensures CheckLine(command) == Reject(ODD_QUOTES)
  {
  }

  /** With an even number of quotes, two adjacent spaces are rejected with
      their message. */
  lemma DoubleSpaceRejected(command: string, i: int)
    requires ';' !in command && Count(command, '"') % 2 == 0
    requires 0 <= i < |command| - 1 && command[i] == ' ' && command[i + 1] == ' '
    ensures CheckLine(command) == Reject(DOUBLE_SPACE)
  {
  }

  /** The empty command passes both checks and raises IndexError at
      `command[-1]`, with the canvas untouched. */
  lemma EmptyCommandRaises(g: Grid, silent: bool)
    ensures Interpret(g, silent, "") == Outcome(g, Err(IndexError))
  {
    assert Count("", '"') == 0;
    assert !HasDoubleSpace("");
  }

  /** A command without quotes or double spaces is accepted with its
      `split(' ')` as its words. */
  lemma PlainCommandAccepted(g: Grid, silent: bool, command: string)
    requires ';' !in command && '"' !in command && |command| > 0 && !HasDoubleSpace(command)
    ensures Interpret(g, silent, command) == Outcome(g, Ok([Split(command, ' ')]))
  {
    CountAbsent(command, '"');
    NoQuotesSplitsOnSpaces(command);
  }

  /** When every command of a run is accepted, their word lists come back
      in order. */
  lemma {:induction false} PiecesInOrder(vs: seq<Verdict>)
    requires forall i :: 0 <= i < |vs| ==> vs[i].Accept?
    ensures Combine(vs).Accept?
    ensures Combine(vs).commands == Flatten(vs)
    decreases |vs|
  {
    if |vs| > 0 {
      PiecesInOrder(vs[1..]);
    }
  }

  /** The word lists of a run of accepted commands, one after another. */
  function Flatten(vs: seq<Verdict>): seq<seq<string>>
    requires forall i :: 0 <= i < |vs| ==> vs[i].Accept?
    decreases |vs|
  {
    if |vs| == 0 then [] else vs[0].commands + Flatten(vs[1..])
  }

  /** The first command that is not accepted decides the verdict; the
      commands after it are never looked at. */
  lemma {:induction false} FirstFailureStops(vs: seq<Verdict>, i: nat)
    requires i < |vs|
    requires forall j :: 0 <= j < i ==> vs[j].Accept?
    requires !vs[i].Accept?
    ensures Combine(vs) == vs[i]
    decreases i
  {
    if i > 0 {
      FirstFailureStops(vs[1..], i - 1);
    }
  }

  /** `silent` only suppresses drawing: a silent run raises or returns the
      same as an audible one and never changes the canvas. */
  lemma SilentOnlyHidesMessages(g: Grid, command: string)
    ensures Interpret(g, true, command).result == Interpret(g, false, command).result
    ensures Interpret(g, true, command).grid == g
  {
  }
}

=== FILE: results.dfy ===
/** Failure-compatible wrappers shared by every module of the model.
    Python exceptions that the modelled code raises (and does not swallow)
    become an `Err` carrying the exception's kind. */
module Results {

  datatype Option<+T> = None | Some(value: T)

  /** The exceptions the modelled code can let escape. */
  datatype Error =
    | IndexError          // a subscript Python cannot resolve
    | ValueError          // `chr`, `int` or `list.index` rejected its argument
    | KeyError            // a dictionary lookup on a missing key
    | UnrepresentableChar // `chr` of a lone surrogate: valid in Python, not a Dafny `char`
    | DrawsExhausted      // the random oracle ran dry before an acceptable draw
    | CommandSyntaxError  // a command line the interpreter refuses to parse

  datatype Result<+T> = Ok(value: T) | Err(error: Error) {
    predicate IsFailure() { Err? }

    function PropagateFailure<U>(): Result<U>
      requires Err?
    {
      Err(error)
    }

    function Extract(): T
      requires Ok?
    {
      value
    }
  }
}

=== FILE: scramble.dfy ===
/** The scramble generator of cl-timer/scramble.py. Moves come from a fixed
    table per cube size, cut into sides (three moves each: X, X', X2) and
    axes (one side on the 2x2, two opposite sides on the 3x3). `choose_move`
    draws moves until one is not redundant: it is rejected when, since the
    last history entry off its axis, a move of its own side has been made.
    `random.choice` becomes an oracle: a sequence of draws, each picking the
    table entry at its value modulo the table size, and the recursion is
    bounded by the number of draws. */
module Scramble {
  import opened Results
  import opened Text

  const MOVES: seq<seq<string>> := [
    ["R", "R'", "R2", "U", "U'", "U2", "F", "F'", "F2"],
    ["R", "R'", "R2", "L", "L'", "L2", "U", "U'", "U2",
     "D", "D'", "D2", "F", "F'", "F2", "B", "B'", "B2"]
  ]

  /** `[s[i:i + n] for i in range(0, len(s), n)]`: consecutive pieces of
      `n`, the last one possibly shorter. */
  function Chunks<T>(s: seq<T>, n: nat): (cs: seq<seq<T>>)
    requires n > 0
    decreases |s|
  {
    if |s| == 0 then [] else if |s| <= n then [s] else [s[..n]] + Chunks(s[n..], n)
  }

  /** `AXES[t]` for table `t` is `Axes(MOVES[t], t + 1)`: the table cut into
      axes of `per` sides, three moves each. */
  function Axes(table: seq<string>, per: nat): seq<seq<string>>
    requires per > 0
  {
    Chunks(table, 3 * per)
  }

  /** `SIDES[t]` is `Sides(MOVES[t])`: the table cut into sides of three
      moves. */
  function Sides(table: seq<string>): seq<seq<string>> {
    Chunks(table, 3)
  }

  /** `SCRAMBLE_LENGTHS`. */
  const SCRAMBLE_LENGTHS: map<int, nat> := map[2 := 11, 3 := 20]

  predicate NoDup<T(==)>(s: seq<T>) {
    forall i, j :: 0 <= i < j < |s| ==> s[i] != s[j]
  }

  /** A move table with `per` sides to an axis: distinct moves without
      blanks, at least two whole axes. */
  predicate Table(table: seq<string>, per: nat) {
    && (per == 1 || per == 2)
    && |table| >= 6 * per
    && (if per == 1 then |table| % 3 == 0 else |table| % 6 == 0)
    && NoDup(table)
    && forall i :: 0 <= i < |table| ==> ' ' !in table[i]
  }

  /** Both tables are tables: 9 moves in sides that are axes, and 18 moves
      in axes of two sides. */
  lemma Tables(t: nat)
    requires t < 2
    ensures |MOVES[t]| == 9 * (t + 1)
    ensures Table(MOVES[t], t + 1)
  {
  }

  /** No move of either table holds a blank. */
  lemma TablesBlankFree(t: nat)
    requires t < 2
    ensures |MOVES[t]| > 0 && forall i :: 0 <= i < |MOVES[t]| ==> ' ' !in MOVES[t][i]
  {
  }

  // ---------------------------------------------------------------------
  // chunks

  /** Something lies in a piece exactly when it lies in the sequence. */
  lemma {:induction false} ChunksCover<T>(s: seq<T>, n: nat, x: T)
    requires n > 0
    ensures x in s <==> exists j :: 0 <= j < |Chunks(s, n)| && x in Chunks(s, n)[j]
    decreases |s|
  {
    if |s| > n {
      ChunksCover(s[n..], n, x);
      var cs := Chunks(s, n);
      assert cs[1..] == Chunks(s[n..], n);
      assert s == s[..n] + s[n..];
      if x in s {
        if x in s[..n] {
          assert x in cs[0];
        } else {
          var j :| 0 <= j < |Chunks(s[n..], n)| && x in Chunks(s[n..], n)[j];
          assert x in cs[j + 1];
        }
      }
      if exists j :: 0 <= j < |cs| && x in cs[j] {
        var j :| 0 <= j < |cs| && x in cs[j];
        if j > 0 {
          assert cs[j] == Chunks(s[n..], n)[j - 1];
        }
      }
    } else if |s| > 0 {
      assert Chunks(s, n) == [s];
      if x in s {
        assert x in Chunks(s, n)[0];
      }
    }
  }

  /** Without duplicates, nothing lies in two different pieces. */
  lemma {:induction false} ChunksDisjoint<T>(s: seq<T>, n: nat, x: T, j: int, k: int)
    requires n > 0 && NoDup(s)
    requires 0 <= j < |Chunks(s, n)| && 0 <= k < |Chunks(s, n)|
    requires x in Chunks(s, n)[j] && x in Chunks(s, n)[k]
    ensures j == k
    decreases |s|
  {
    if |s| > n {
      var rest := Chunks(s[n..], n);
      assert Chunks(s, n)[1..] == rest;
      assert NoDup(s[n..]) by {
        forall a, b | 0 <= a < b < |s[n..]|
          ensures s[n..][a] != s[n..][b]
        {
          assert s[n..][a] == s[a + n] && s[n..][b] == s[b + n];
        }
      }
      if j > 0 && k > 0 {
        ChunksDisjoint(s[n..], n, x, j - 1, k - 1);
      } else if j > 0 || k > 0 {
        ChunksCover(s[n..], n, x);
      }
    }
  }

  /** On a table of whole axes, axis `a` is the pair of sides `2a` and
      `2a + 1`. */
  lemma {:induction false} AxesPairSides<T>(s: seq<T>)
    requires |s| % 6 == 0
    ensures |Chunks(s, 3)| == 2 * |Chunks(s, 6)|
    ensures forall a :: 0 <= a < |Chunks(s, 6)| ==>
              Chunks(s, 6)[a] == Chunks(s, 3)[2 * a] + Chunks(s, 3)[2 * a + 1]
    decreases |s|
  {
    if |s| > 0 {
      var s6 := s[6..];
      AxesPairSides(s6);
      var c3, c6 := Chunks(s, 3), Chunks(s, 6);
      assert s[3..][..3] == s[3..6] && s[3..][3..] == s6;
      if |s| == 6 {
        assert c6 == [s];
        assert Chunks(s[3..], 3) == [s[3..]];
        assert c3 == [s[..3], s[3..]];
        assert s == s[..3] + s[3..];
      } else {
        assert c6 == [s[..6]] + Chunks(s6, 6);
        assert Chunks(s[3..], 3) == [s[3..6]] + Chunks(s6, 3);
        assert c3 == [s[..3], s[3..6]] + Chunks(s6, 3);
        forall a | 0 <= a < |c6|
          ensures c6[a] == c3[2 * a] + c3[2 * a + 1]
        {
          if a == 0 {
            assert s[..6] == s[..3] + s[3..6];
          } else {
            assert c6[a] == Chunks(s6, 6)[a - 1];
            assert c3[2 * a] == Chunks(s6, 3)[2 * (a - 1)];
            assert c3[2 * a + 1] == Chunks(s6, 3)[2 * (a - 1) + 1];
          }
        }
      }
    }
  }

  /** The first piece starts with the first element. */
  lemma FirstInFirstChunk<T>(s: seq<T>, n: nat)
    requires n > 0 && |s| > 0
    ensures |Chunks(s, n)| > 0 && s[0] in Chunks(s, n)[0]
  {
    if |s| > n {
      assert Chunks(s, n)[0] == s[..n];
    }
  }

  // ---------------------------------------------------------------------
  // sides and axes of a move

  /** `[c for c in cs if m in c][0]`, as an index: the first piece holding
      `m`; IndexError when none does. */
  function Owner(cs: seq<seq<string>>, m: string): (r: Result<nat>)
    ensures r.Ok? <==> exists j :: 0 <= j < |cs| && m in cs[j]
    ensures r.Ok? ==> r.value < |cs| && m in cs[r.value]
    ensures r.Err? ==> r.error == IndexError
    decreases |cs|
  {
    if |cs| == 0 then Err(IndexError)
    else if m in cs[0] then Ok(0)
    else
      var j :- Owner(cs[1..], m);
      assert cs[1..][j] == cs[j + 1];
      Ok(j + 1)
  }

  /** Every move of a table lies in exactly one side and one axis: the
      piece its owner names. */
  lemma OwnersOf(table: seq<string>, per: nat, m: string)
    requires Table(table, per) && m in table
    ensures Owner(Sides(table), m).Ok? && Owner(Axes(table, per), m).Ok?
    ensures forall j :: 0 <= j < |Sides(table)| && m in Sides(table)[j] ==> j == Owner(Sides(table), m).value
    ensures forall j :: 0 <= j < |Axes(table, per)| && m in Axes(table, per)[j] ==>
              j == Owner(Axes(table, per), m).value
  {
    ChunksCover(table, 3, m);
    ChunksCover(table, 3 * per, m);
    forall j | 0 <= j < |Sides(table)| && m in Sides(table)[j]
      ensures j == Owner(Sides(table), m).value
    {
      ChunksDisjoint(table, 3, m, j, Owner(Sides(table), m).value);
    }
    forall j | 0 <= j < |Axes(table, per)| && m in Axes(table, per)[j]
      ensures j == Owner(Axes(table, per), m).value
    {
      ChunksDisjoint(table, 3 * per, m, j, Owner(Axes(table, per), m).value);
    }
  }

  /** The side index of a table move. */
  function SideOf(table: seq<string>, per: nat, m: string): (j: nat)
    requires Table(table, per) && m in table
    ensures j < |Sides(table)| && m in Sides(table)[j]
  {
    OwnersOf(table, per, m);
    Owner(Sides(table), m).value
  }

  /** The axis index of a table move. */
  function AxisOf(table: seq<string>, per: nat, m: string): (j: nat)
    requires Table(table, per) && m in table
    ensures j < |Axes(table, per)| && m in Axes(table, per)[j]
  {
    OwnersOf(table, per, m);
    Owner(Axes(table, per), m).value
  }

  /** A move's axis is its side divided by the sides per axis. */
  lemma AxisOfSide(table: seq<string>, per: nat, m: string)
    requires Table(table, per) && m in table
    ensures AxisOf(table, per, m) == SideOf(table, per, m) / per
  {
    OwnersOf(table, per, m);
    if per == 2 {
      AxesPairSides(table);
      var s, a := SideOf(table, per, m), AxisOf(table, per, m);
      var sides := Sides(table);
      assert Axes(table, per)[a] == sides[2 * a] + sides[2 * a + 1];
      if m in sides[2 * a] {
        assert s == 2 * a;
      } else {
        assert s == 2 * a + 1;
      }
    }
  }

  /** A table move lies in a side or an axis exactly when it is its own. */
  lemma Membership(table: seq<string>, per: nat, m: string, x: string)
    requires Table(table, per) && m in table && x in table
    ensures x in Sides(table)[SideOf(table, per, m)] <==> SideOf(table, per, x) == SideOf(table, per, m)
    ensures x in Axes(table, per)[AxisOf(table, per, m)] <==> AxisOf(table, per, x) == AxisOf(table, per, m)
  {
    OwnersOf(table, per, m);
    OwnersOf(table, per, x);
  }

  /** Every move of a side lies in the side's axis. */
  lemma SideWithinAxis(table: seq<string>, per: nat, m: string)
    requires Table(table, per) && m in table
    ensures forall x :: x in Sides(table)[SideOf(table, per, m)] ==> x in Axes(table, per)[AxisOf(table, per, m)]
  {
    AxisOfSide(table, per, m);
    if per == 2 {
      PairedSideWithinAxis(table, SideOf(table, per, m), AxisOf(table, per, m));
    } else {
      assert Axes(table, per) == Sides(table);
    }
  }

  /** With two sides to an axis, side `2a` or `2a + 1` lies in axis `a`. */
  lemma PairedSideWithinAxis(table: seq<string>, s: nat, a: nat)
    requires |table| % 6 == 0 && a < |Axes(table, 2)| && s / 2 == a
    ensures s < |Sides(table)|
    ensures forall x :: x in Sides(table)[s] ==> x in Axes(table, 2)[a]
  {
    AxesPairSides(table);
    assert Axes(table, 2)[a] == Sides(table)[2 * a] + Sides(table)[2 * a + 1];
  }

  // ---------------------------------------------------------------------
  // the redundancy rule

  /** The last history position holding a move off `axis`, or -1: the
      `[...][-1]` with its IndexError caught. */
  function LastOutside(h: seq<string>, axis: seq<string>): (r: int)
    ensures -1 <= r < |h|
    ensures r >= 0 ==> h[r] !in axis
    ensures forall j :: r < j < |h| ==> h[j] in axis
    decreases |h|
  {
    if |h| == 0 then -1
    else if h[|h| - 1] !in axis then |h| - 1
    else LastOutside(h[..|h| - 1], axis)
  }

  /** Some move after the last one off the axis is on the side. */
  predicate Redundant(h: seq<string>, axis: seq<string>, side: seq<string>) {
    exists j :: LastOutside(h, axis) < j < |h| && h[j] in side
  }

  /** An independent reading of the rule: some move on the side is followed
      only by moves on the axis. */
  predicate RedundantRef(h: seq<string>, axis: seq<string>, side: seq<string>) {
    exists i :: 0 <= i < |h| && h[i] in side && forall j :: i <= j < |h| ==> h[j] in axis
  }

  /** When the side lies within the axis, the two readings agree. */
  lemma RedundantAgrees(h: seq<string>, axis: seq<string>, side: seq<string>)
    requires forall x :: x in side ==> x in axis
    ensures Redundant(h, axis, side) <==> RedundantRef(h, axis, side)
  {
    var last := LastOutside(h, axis);
    if RedundantRef(h, axis, side) {
      var i :| 0 <= i < |h| && h[i] in side && forall j :: i <= j < |h| ==> h[j] in axis;
      assert last < i;
    }
    if Redundant(h, axis, side) {
      var j :| last < j < |h| && h[j] in side;
      assert forall k :: j <= k < |h| ==> h[k] in axis;
    }
  }

  /** A candidate is accepted on an empty history and whenever the last
      history move is off its axis. */
  lemma AcceptedOffAxis(h: seq<string>, axis: seq<string>, side: seq<string>)
    requires |h| == 0 || h[|h| - 1] !in axis
    ensures !Redundant(h, axis, side)
  {
    assert |h| > 0 ==> LastOutside(h, axis) == |h| - 1;
  }

  /** A move is accepted after history `h`: it has an axis and a side, and
      is not redundant on them. */
  predicate Accepted(table: seq<string>, per: nat, h: seq<string>, m: string)
    requires per > 0
  {
    var a, s := Owner(Axes(table, per), m), Owner(Sides(table), m);
    a.Ok? && s.Ok? && !Redundant(h, Axes(table, per)[a.value], Sides(table)[s.value])
  }

  /** Whatever the history, some move of the table is accepted: the first
      move of an axis other than the last move's. */
  lemma AcceptableExists(table: seq<string>, per: nat, h: seq<string>)
    requires Table(table, per)
    ensures exists m :: m in table && Accepted(table, per, h, m)
  {
    var axes := Axes(table, per);
    var r, u := table[0], table[3 * per];
    OwnersOf(table, per, r);
    OwnersOf(table, per, u);
    FirstInFirstChunk(table, 3 * per);
    assert axes[1..] == Chunks(table[3 * per..], 3 * per);
    FirstInFirstChunk(table[3 * per..], 3 * per);
    assert u in axes[1];
    var m := if |h| > 0 && h[|h| - 1] in axes[0] then u else r;
    if |h| > 0 && h[|h| - 1] in axes[0] {
      if h[|h| - 1] in axes[1] {
        ChunksDisjoint(table, 3 * per, h[|h| - 1], 0, 1);
      }
    }
    AcceptedOffAxis(h, axes[AxisOf(table, per, m)], Sides(table)[SideOf(table, per, m)]);
  }

  // ---------------------------------------------------------------------
  // choose_move and generate_scramble

  /** The table index `size - 2` resolves to, as Python indexes `MOVES`. */
  function TableOf(size: int): (r: Result<nat>)
    ensures r.Ok? <==> 0 <= size < 4
    ensures r.Ok? ==> r.value < 2 && r.value == (size - 2) % 2
  {
    match ResolveIndex(size - 2, 2)
    case None => Err(IndexError)
    case Some(t) => Ok(t)
  }

  /** The body of `choose_move` on one table: draw a move, find its axis
      and side, draw again while it is redundant. Returns the move and the
      draws left over. */
  function Choose(table: seq<string>, per: nat, h: seq<string>, draws: seq<nat>): Result<(string, seq<nat>)>
    requires per > 0 && |table| > 0
    decreases |draws|
  {
    if |draws| == 0 then Err(DrawsExhausted)
    else
      var move := table[draws[0] % |table|];
      var a :- Owner(Axes(table, per), move);
      var s :- Owner(Sides(table), move);
      if Redundant(h, Axes(table, per)[a], Sides(table)[s]) then Choose(table, per, h, draws[1..])
      else Ok((move, draws[1..]))
  }

  /** `choose_move(history, size)`: `MOVES[size - 2]`, with `AXES` and
      `SIDES` at the same index. */
  function ChooseMove(h: seq<string>, size: int, draws: seq<nat>): Result<(string, seq<nat>)> {
    var t :- TableOf(size);
    Choose(MOVES[t], t + 1, h, draws)
  }

  /** A chosen move comes from the table and is accepted after the history;
      the draws left over are a proper suffix of those given. */
  lemma {:induction false} ChooseSpec(table: seq<string>, per: nat, h: seq<string>, draws: seq<nat>)
    requires per > 0 && |table| > 0
    requires Choose(table, per, h, draws).Ok?
    ensures var (m, rest) := Choose(table, per, h, draws).value;
            && m in table && Accepted(table, per, h, m)
            && |rest| < |draws| && rest == draws[|draws| - |rest|..]
    decreases |draws|
  {
    var move := table[draws[0] % |table|];
    var a, s := Owner(Axes(table, per), move).value, Owner(Sides(table), move).value;
    if Redundant(h, Axes(table, per)[a], Sides(table)[s]) {
      ChooseSpec(table, per, h, draws[1..]);
      var rest := Choose(table, per, h, draws).value.1;
      assert draws[1..][|draws[1..]| - |rest|..] == draws[|draws| - |rest|..];
    }
  }

  /** `choose_move` raises IndexError for a size whose `size - 2` does not
      index the tables; otherwise its move is from the size's table and
      accepted after the history. */
  lemma ChooseMoveSpec(h: seq<string>, size: int, draws: seq<nat>)
    ensures (size < 0 || size >= 4) ==> ChooseMove(h, size, draws) == Err(IndexError)
    ensures ChooseMove(h, size, draws).Ok? ==>
              var t := TableOf(size).value; var m := ChooseMove(h, size, draws).value.0;
              m in MOVES[t] && Accepted(MOVES[t], t + 1, h, m)
  {
    var r := TableOf(size);
    if r.Ok? {
      var t := r.value;
      var table := MOVES[t];
      assert ChooseMove(h, size, draws) == Choose(table, t + 1, h, draws);
      TablesBlankFree(t);
      if Choose(table, t + 1, h, draws).Ok? {
        ChooseSpec(table, t + 1, h, draws);
      }
    } else {
      assert ChooseMove(h, size, draws) == Err(IndexError);
    }
  }

  /** The `for` loop of `generate_scramble`: `n` more moves, each chosen
      after all the earlier ones. */
  function ChooseMoves(table: seq<string>, per: nat, n: nat, acc: seq<string>, draws: seq<nat>): Result<(seq<string>, seq<nat>)>
    requires per > 0 && |table| > 0
    decreases n
  {
    if n == 0 then Ok((acc, draws))
    else
      var (m, rest) :- Choose(table, per, acc, draws);
      ChooseMoves(table, per, n - 1, acc + [m], rest)
  }

  /** Every move comes from the table and was accepted after the moves
      before it. */
  predicate Chosen(table: seq<string>, per: nat, ms: seq<string>)
    requires per > 0
  {
    forall k :: 0 <= k < |ms| ==> ms[k] in table && Accepted(table, per, ms[..k], ms[k])
  }

  /** The loop adds exactly `n` moves, each chosen after all before it. */
  lemma {:induction false} ChooseMovesSpec(table: seq<string>, per: nat, n: nat, acc: seq<string>, draws: seq<nat>)
    requires per > 0 && |table| > 0 && Chosen(table, per, acc)
    requires ChooseMoves(table, per, n, acc, draws).Ok?
    ensures var ms := ChooseMoves(table, per, n, acc, draws).value.0;
            |ms| == |acc| + n && acc <= ms && Chosen(table, per, ms)
    decreases n
  {
    if n > 0 {
      ChooseSpec(table, per, acc, draws);
      var (m, rest) := Choose(table, per, acc, draws).value;
      var acc' := acc + [m];
      assert Chosen(table, per, acc') by {
        forall k | 0 <= k < |acc'|
          ensures acc'[k] in table && Accepted(table, per, acc'[..k], acc'[k])
        {
          if k < |acc| {
            assert acc'[..k] == acc[..k];
          } else {
            assert acc'[..k] == acc;
          }
        }
      }
      ChooseMovesSpec(table, per, n - 1, acc', rest);
    }
  }

  /** `generate_scramble(size)` before the join: KeyError for a size
      without a length. */
  function GenerateMoves(size: int, draws: seq<nat>): Result<seq<string>> {
    if size !in SCRAMBLE_LENGTHS then Err(KeyError)
    else
      var t := size - 2;
      var (ms, _) :- ChooseMoves(MOVES[t], t + 1, SCRAMBLE_LENGTHS[size], [], draws);
      Ok(ms)
  }

  /** `generate_scramble(size)`: the moves joined by single blanks. */
  function GenerateScramble(size: int, draws: seq<nat>): Result<string> {
    var ms :- GenerateMoves(size, draws);
    Ok(Join(ms, ' '))
  }

  /** Moves taken from a table without blanks carry no blank. */
  lemma NoBlanks(table: seq<string>, per: nat, ms: seq<string>)
    requires per > 0 && Chosen(table, per, ms)
    requires forall i :: 0 <= i < |table| ==> ' ' !in table[i]
    ensures forall k :: 0 <= k < |ms| ==> ' ' !in ms[k]
  {
    forall k | 0 <= k < |ms|
      ensures ' ' !in ms[k]
    {
      var i :| 0 <= i < |table| && table[i] == ms[k];
    }
  }

  /** Only sizes 2 and 3 have a length, 11 and 20; the scramble splits on
      blanks into exactly that many moves, each chosen after those before
      it. */
  lemma GenerateScrambleSpec(size: int, draws: seq<nat>)
    ensures size != 2 && size != 3 ==> GenerateScramble(size, draws) == Err(KeyError)
    ensures GenerateScramble(size, draws).Ok? ==>
              && (size == 2 || size == 3)
              && var t := size - 2; var ms := GenerateMoves(size, draws).value;
                 && |ms| == SCRAMBLE_LENGTHS[size]
                 && Chosen(MOVES[t], t + 1, ms)
                 && Split(GenerateScramble(size, draws).value, ' ') == ms
  {
    if GenerateScramble(size, draws).Ok? {
      var t := size - 2;
      TablesBlankFree(t);
      ChooseMovesSpec(MOVES[t], t + 1, SCRAMBLE_LENGTHS[size], [], draws);
      var ms := GenerateMoves(size, draws).value;
      NoBlanks(MOVES[t], t + 1, ms);
      SplitJoin(ms, ' ');
    }
  }

  // ---------------------------------------------------------------------
  // what the rule guarantees about the output

  /** Adjacent moves of a chosen sequence never share a side. */
  lemma AdjacentSidesDiffer(table: seq<string>, per: nat, ms: seq<string>, k: int)
    requires Table(table, per) && Chosen(table, per, ms) && 0 <= k && k + 1 < |ms|
    ensures SideOf(table, per, ms[k]) != SideOf(table, per, ms[k + 1])
  {
    var m, prev := ms[k + 1], ms[k];
    var h := ms[..k + 1];
    assert Accepted(table, per, h, m);
    if SideOf(table, per, prev) == SideOf(table, per, m) {
      Membership(table, per, m, prev);
      SideWithinAxis(table, per, m);
    }
  }

  /** On a two-sided axis, after two moves on different sides of it, any
      move of the first one's side is redundant. */
  lemma ThirdOnAxisRedundant(table: seq<string>, h: seq<string>, c: string)
    requires Table(table, 2) && c in table && |h| >= 2
    requires h[|h| - 2] in table && h[|h| - 1] in table
    requires AxisOf(table, 2, h[|h| - 2]) == AxisOf(table, 2, h[|h| - 1]) == AxisOf(table, 2, c)
    requires SideOf(table, 2, h[|h| - 2]) != SideOf(table, 2, h[|h| - 1])
    requires SideOf(table, 2, h[|h| - 1]) != SideOf(table, 2, c)
    ensures Redundant(h, Axes(table, 2)[AxisOf(table, 2, c)], Sides(table)[SideOf(table, 2, c)])
  {
    var a, b := h[|h| - 2], h[|h| - 1];
    AxisOfSide(table, 2, a);
    AxisOfSide(table, 2, b);
    AxisOfSide(table, 2, c);
    Membership(table, 2, c, a);
    Membership(table, 2, c, b);
    assert LastOutside(h, Axes(table, 2)[AxisOf(table, 2, c)]) < |h| - 2;
  }

  /** With two sides to an axis, as on the 3x3, no three consecutive moves
      share an axis. */
  lemma NoThreeOnAxis(table: seq<string>, ms: seq<string>, k: int)
    requires Table(table, 2) && Chosen(table, 2, ms) && 0 <= k && k + 2 < |ms|
    ensures !(AxisOf(table, 2, ms[k]) == AxisOf(table, 2, ms[k + 1]) == AxisOf(table, 2, ms[k + 2]))
  {
    AdjacentSidesDiffer(table, 2, ms, k);
    AdjacentSidesDiffer(table, 2, ms, k + 1);
    var h := ms[..k + 2];
    assert h[k] == ms[k] && h[k + 1] == ms[k + 1];
    if AxisOf(table, 2, ms[k]) == AxisOf(table, 2, ms[k + 1]) == AxisOf(table, 2, ms[k + 2]) {
      ThirdOnAxisRedundant(table, h, ms[k + 2]);
    }
  }

  /** With one side to an axis, as on the 2x2, the rule is exactly "not on
      the last move's side". */
  lemma OneSideRule(table: seq<string>, h: seq<string>, m: string)
    requires Table(table, 1) && m in table
    ensures Accepted(table, 1, h, m) <==> |h| == 0 || h[|h| - 1] !in Sides(table)[SideOf(table, 1, m)]
  {
    var side := Sides(table)[SideOf(table, 1, m)];
    AxisOfSide(table, 1, m);
    if |h| > 0 && h[|h| - 1] in side {
      assert LastOutside(h, side) < |h| - 1;
    }
  }
}

=== FILE: text.dfy ===
/** Python string and list primitives the modelled code leans on:
    subscript resolution, `str.split(sep)`, `sep.join(parts)`, `str.strip()`,
    `str.count`, `list.insert` and `list.pop`. */
module Text {
  import opened Results

  /** Python's rule for subscript `i` into a sequence of length `n`:
      `-n <= i < n` resolves (negative indices count from the end),
      anything else raises IndexError. */
  function ResolveIndex(i: int, n: nat): (r: Option<nat>)
    ensures r.Some? <==> -(n as int) <= i < n
    ensures r.Some? ==> r.value < n && (r.value == i || r.value == i + n)
  {
    if 0 <= i < n then Some(i)
    else if -(n as int) <= i < 0 then Some(i + n)
    else None
  }

  /** `list.index(x)`: the first position holding `x`; ValueError when
      there is none. */
  function Index<T(==)>(s: seq<T>, x: T): (r: Result<nat>)
    ensures r.Ok? <==> x in s
    ensures r.Err? ==> r.error == ValueError
    ensures r.Ok? ==> r.value < |s| && s[r.value] == x && x !in s[..r.value]
    decreases |s|
  {
    if |s| == 0 then Err(ValueError)
    else if s[0] == x then Ok(0)
    else
      var i :- Index(s[1..], x);
      assert s[..i + 1] == [s[0]] + s[1..][..i];
      Ok(i + 1)
  }

  /** Python's `chr(code)`: ValueError outside 0..0x10FFFF. A Dafny `char`
      cannot hold a lone surrogate, which `chr` would return for
      0xD800..0xDFFF; those codes are reported separately. Codes beyond the
      range of a C `int` raise OverflowError in CPython; the model reports
      them as ValueError like every other out-of-range code. */
  function Chr(code: int): (r: Result<char>)
    ensures r.Ok? ==> r.value as int == code
    ensures r.Err? <==> code < 0 || code > 0x10FFFF || 0xD800 <= code <= 0xDFFF
    ensures code < 0 || code > 0x10FFFF ==> r == Err(ValueError)
  {
    if code < 0 || code > 0x10FFFF then Err(ValueError)
    else if 0xD800 <= code <= 0xDFFF then Err(UnrepresentableChar)
    else Ok(code as char)
  }

  /** `list.insert(i, x)`: out-of-range positions are clamped, never an error. */
  function InsertAt<T>(s: seq<T>, i: int, x: T): (r: seq<T>)
    ensures |r| == |s| + 1
    ensures 0 <= i <= |s| ==> r == s[..i] + [x] + s[i..]
    ensures -|s| <= i < 0 ==> r == s[..i + |s|] + [x] + s[i + |s|..]
    ensures i < -|s| ==> r == [x] + s
    ensures i > |s| ==> r == s + [x]
  {
    var j := if i < 0 then (if i + |s| < 0 then 0 else i + |s|)
             else if i > |s| then |s| else i;
    s[..j] + [x] + s[j..]
  }

  /** `list.pop(i)`: removes the element at the resolved index, IndexError otherwise. */
  function PopAt<T>(s: seq<T>, i: int): (r: Result<seq<T>>)
    ensures r.Ok? <==> -|s| <= i < |s|
    ensures 0 <= i < |s| ==> r == Ok(s[..i] + s[i + 1..])
    ensures -|s| <= i < 0 ==> r == Ok(s[..i + |s|] + s[i + |s| + 1..])
  {
    match ResolveIndex(i, |s|)
    case None => Err(IndexError)
    case Some(j) => Ok(s[..j] + s[j + 1..])
  }

  /** `str.split(sep)` with an explicit one-character separator. */
  function Split(s: string, sep: char): (parts: seq<string>)
    ensures |parts| >= 1
    ensures forall i :: 0 <= i < |parts| ==> sep !in parts[i]
    decreases |s|
  {
    if |s| == 0 then [""]
    else
      var rest := Split(s[1..], sep);
      if s[0] == sep then [""] + rest
      else [[s[0]] + rest[0]] + rest[1..]
  }

  /** `sep.join(parts)`. */
  function Join(parts: seq<string>, sep: char): string
    decreases |parts|
  {
    if |parts| == 0 then ""
    else if |parts| == 1 then parts[0]
    else parts[0] + [sep] + Join(parts[1..], sep)
  }

  /** `''.join(parts)`. */
  function Concat(parts: seq<string>): string
    decreases |parts|
  {
    if |parts| == 0 then "" else parts[0] + Concat(parts[1..])
  }

  /** `s.count(c)`. */
  function Count(s: string, c: char): nat
    decreases |s|
  {
    if |s| == 0 then 0 else (if s[0] == c then 1 else 0) + Count(s[1..], c)
  }

  /** Python's `str.isspace()` for one character. */
  predicate IsSpace(c: char) {
    || c == ' ' || '\t' <= c <= '\r' || '\U{1c}' <= c <= '\U{1f}'
    || c == '\U{85}' || c == '\U{a0}' || c == '\U{1680}'
    || '\U{2000}' <= c <= '\U{200a}' || c == '\U{2028}' || c == '\U{2029}'
    || c == '\U{202f}' || c == '\U{205f}' || c == '\U{3000}'
  }

  /** `s.lstrip()`: the suffix left after dropping leading whitespace. */
  function StripStart(s: string): (r: string)
    ensures |r| <= |s| && r == s[|s| - |r|..]
    ensures forall k :: 0 <= k < |s| - |r| ==> IsSpace(s[k])
    ensures |r| > 0 ==> !IsSpace(r[0])
    decreases |s|
  {
    if |s| > 0 && IsSpace(s[0]) then StripStart(s[1..]) else s
  }

  /** `s.rstrip()`: the prefix left after dropping trailing whitespace. */
  function StripEnd(s: string): (r: string)
    ensures |r| <= |s| && r == s[..|r|]
    ensures forall k :: |r| <= k < |s| ==> IsSpace(s[k])
    ensures |r| > 0 ==> !IsSpace(r[|r| - 1])
    decreases |s|
  {
    if |s| > 0 && IsSpace(s[|s| - 1]) then StripEnd(s[..|s| - 1]) else s
  }

  /** `s.strip()`: the slice of `s` left after dropping whitespace from both
      ends, and nothing else. */
  function Strip(s: string): (r: string)
    ensures |r| <= |s|
    ensures forall c :: c in r ==> c in s
    ensures |r| > 0 ==> !IsSpace(r[0]) && !IsSpace(r[|r| - 1])
    ensures exists i, j :: StrippedSlice(s, r, i, j)
  {
    var t := StripStart(s);
    var r := StripEnd(t);
    assert forall c :: c in r ==> c in t;
    StripSlice(s, t, r);
    r
  }

  /** `r` is `s[i..j]`, and everything outside that slice is whitespace. */
  predicate StrippedSlice(s: string, r: string, i: int, j: int) {
    && 0 <= i <= j <= |s| && r == s[i..j]
    && (forall k :: 0 <= k < i ==> IsSpace(s[k]))
    && (forall k :: j <= k < |s| ==> IsSpace(s[k]))
  }

  lemma StripSlice(s: string, t: string, r: string)
    requires |t| <= |s| && t == s[|s| - |t|..] && forall k :: 0 <= k < |s| - |t| ==> IsSpace(s[k])
    requires |r| <= |t| && r == t[..|r|] && forall k :: |r| <= k < |t| ==> IsSpace(t[k])
    ensures StrippedSlice(s, r, |s| - |t|, |s| - |t| + |r|)
  {
    var i := |s| - |t|;
    var j := i + |r|;
    assert r == s[i..j];
    forall k | j <= k < |s|
      ensures IsSpace(s[k])
    {
      assert s[k] == t[k - i];
    }
  }

  /** `'  ' in s`. */
  predicate HasDoubleSpace(s: string) {
    exists i :: 0 <= i < |s| - 1 && s[i] == ' ' && s[i + 1] == ' '
  }

  /** A string of `n` blanks. */
  function Blanks(n: nat): (r: string)
    ensures |r| == n && forall k :: 0 <= k < n ==> r[k] == ' '
  {
    seq(n, _ => ' ')
  }

  // ---------------------------------------------------------------------
  // split / join round trips

  /** A string without the separator splits into itself. */
  lemma {:induction false} SplitNoSep(a: string, sep: char)
    requires sep !in a
    ensures Split(a, sep) == [a]
    decreases |a|
  {
    if |a| > 0 {
      SplitNoSep(a[1..], sep);
      assert [a[0]] + a[1..] == a;
    }
  }

  /** Splitting `a + sep + b` cuts exactly at the first separator. */
  lemma {:induction false} SplitAtSep(a: string, sep: char, b: string)
    requires sep !in a
    ensures Split(a + [sep] + b, sep) == [a] + Split(b, sep)
    decreases |a|
  {
    if |a| == 0 {
      assert a + [sep] + b == [sep] + b;
      assert ([sep] + b)[1..] == b;
    } else {
      assert (a + [sep] + b)[1..] == a[1..] + [sep] + b;
      SplitAtSep(a[1..], sep, b);
      assert [a[0]] + a[1..] == a;
    }
  }

  /** Prepending separator-free text extends the first part only. */
  lemma {:induction false} SplitPrepend(a: string, sep: char, b: string)
    requires sep !in a
    ensures var p := Split(b, sep); Split(a + b, sep) == [a + p[0]] + p[1..]
    decreases |a|
  {
    if |a| > 0 {
      assert (a + b)[1..] == a[1..] + b;
      SplitPrepend(a[1..], sep, b);
      assert [a[0]] + (a[1..] + Split(b, sep)[0]) == a + Split(b, sep)[0];
    } else {
      assert a + b == b;
      var p := Split(b, sep);
      assert a + p[0] == p[0];
      assert [p[0]] + p[1..] == p;
    }
  }

  /** `sep.join(s.split(sep)) == s`. */
  lemma {:induction false} JoinSplit(s: string, sep: char)
    ensures Join(Split(s, sep), sep) == s
    decreases |s|
  {
    if |s| > 0 {
      JoinSplit(s[1..], sep);
      var rest := Split(s[1..], sep);
      if s[0] == sep {
        assert ([""] + rest)[1..] == rest;
      } else {
        var parts := [[s[0]] + rest[0]] + rest[1..];
        if |rest| == 1 {
          assert Join(parts, sep) == [s[0]] + rest[0];
        } else {
          assert parts[1..] == rest[1..];
          assert Join(rest, sep) == rest[0] + [sep] + Join(rest[1..], sep);
        }
      }
    }
  }

  /** `sep.join(parts).split(sep) == parts` when no part holds the separator. */
  lemma {:induction false} SplitJoin(parts: seq<string>, sep: char)
    requires |parts| >= 1
    requires forall i :: 0 <= i < |parts| ==> sep !in parts[i]
    ensures Split(Join(parts, sep), sep) == parts
    decreases |parts|
  {
    if |parts| == 1 {
      SplitNoSep(parts[0], sep);
    } else {
      SplitJoin(parts[1..], sep);
      SplitAtSep(parts[0], sep, Join(parts[1..], sep));
      assert [parts[0]] + parts[1..] == parts;
    }
  }

  /** A joined text is as long as its parts plus one separator between each two. */
  lemma {:induction false} JoinLength(parts: seq<string>, sep: char)
    requires |parts| >= 1
    ensures |Join(parts, sep)| == |Concat(parts)| + |parts| - 1
    decreases |parts|
  {
    if |parts| > 1 {
      JoinLength(parts[1..], sep);
    }
  }

  /** A character other than the separator shows up in a joined text only
      if some part holds it. */
  lemma {:induction false} JoinAbsent(parts: seq<string>, sep: char, c: char)
    requires c != sep
    requires forall i :: 0 <= i < |parts| ==> c !in parts[i]
    ensures c !in Join(parts, sep)
    decreases |parts|
  {
    if |parts| > 1 {
      JoinAbsent(parts[1..], sep, c);
    }
  }

  /** The separator occurs in a joined text only between parts. */
  lemma {:induction false} JoinCount(parts: seq<string>, sep: char)
    requires |parts| >= 1
    requires forall i :: 0 <= i < |parts| ==> sep !in parts[i]
    ensures Count(Join(parts, sep), sep) == |parts| - 1
    decreases |parts|
  {
    if |parts| == 1 {
      CountAbsent(parts[0], sep);
    } else {
      JoinCount(parts[1..], sep);
      CountAppend(parts[0] + [sep], Join(parts[1..], sep), sep);
      CountAppend(parts[0], [sep], sep);
      CountAbsent(parts[0], sep);
    }
  }

  lemma {:induction false} CountAbsent(s: string, c: char)
    requires c !in s
    ensures Count(s, c) == 0
    decreases |s|
  {
    if |s| > 0 {
      CountAbsent(s[1..], c);
    }
  }

  lemma {:induction false} CountAppend(a: string, b: string, c: char)
    ensures Count(a + b, c) == Count(a, c) + Count(b, c)
    decreases |a|
  {
    if |a| == 0 {
      assert a + b == b;
    } else {
      assert (a + b)[1..] == a[1..] + b;
      CountAppend(a[1..], b, c);
    }
  }

  /** One more separator means one more count. */
  lemma CountOne(a: string, b: string, c: char)
    ensures Count(a + [c] + b, c) == Count(a + b, c) + 1
  {
    CountAppend(a + [c], b, c);
    CountAppend(a, [c], c);
    CountAppend(a, b, c);
  }

  /** Splitting yields one more part than there are separators. */
  lemma SplitCount(s: string, sep: char)
    ensures |Split(s, sep)| == Count(s, sep) + 1
  {
    JoinSplit(s, sep);
    JoinCount(Split(s, sep), sep);
  }

  lemma {:induction false} ConcatAppend(a: seq<string>, b: seq<string>)
    ensures Concat(a + b) == Concat(a) + Concat(b)
    decreases |a|
  {
    if |a| == 0 {
      assert a + b == b;
    } else {
      assert (a + b)[1..] == a[1..] + b;
      ConcatAppend(a[1..], b);
    }
  }
}

=== FILE: utils.dfy ===
/** `add_zero` of cl_timer/utils.py: pads the decimal text of a time so that
    at least two characters follow its first point. */
module Utils {
  import opened Results
  import opened Text

  /** `add_zero(number)`: the empty text stays empty; otherwise `index('.')`
      raises ValueError when there is no point, and a '0' is appended when
      fewer than two characters follow the first one. */
  function AddZero(number: string): Result<string> {
    if number == "" then Ok("")
    else
      var p :- Index(number, '.');
      Ok(if |number[p + 1..]| < 2 then number + "0" else number)
  }

  /** How many characters follow the first point. */
  function Fraction(number: string): int
    requires '.' in number
  {
    |number| - (Index(number, '.').value + 1)
  }

  /** The first point keeps its place when text is appended. */
  lemma IndexAppend(s: string, t: string)
    requires '.' in s
    ensures Index(s + t, '.') == Index(s, '.')
  {
    assert s <= s + t;
  }

  /** `add_zero` on each kind of input: the empty text is kept; text without
      a point raises ValueError; otherwise the text comes back with a '0'
      appended exactly when fewer than two characters follow the first
      point. Either way the input is a prefix of the result, which is at
      most one character longer. */
  lemma AddZeroSpec(number: string)
    ensures number == "" ==> AddZero(number) == Ok("")
    ensures number != "" && '.' !in number ==> AddZero(number) == Err(ValueError)
    ensures '.' in number ==>
              && AddZero(number).Ok?
              && (AddZero(number).value == number + "0" <==> Fraction(number) < 2)
              && (Fraction(number) >= 2 ==> AddZero(number).value == number)
    ensures AddZero(number).Ok? ==>
              number <= AddZero(number).value && |AddZero(number).value| <= |number| + 1
  {
    if '.' in number {
      if AddZero(number).value == number + "0" {
        assert |number + "0"| != |number|;
      }
    }
  }

  /** One character after the point becomes exactly two. */
  lemma OneDecimalBecomesTwo(number: string)
    requires '.' in number && Fraction(number) == 1
    ensures AddZero(number) == Ok(number + "0")
    ensures Fraction(number + "0") == 2
  {
    IndexAppend(number, "0");
  }

  /** With at least one character after the first point, a second
      `add_zero` changes nothing. */
  lemma AddZeroIdempotent(number: string)
    requires '.' in number && Fraction(number) >= 1
    ensures AddZero(number).Ok?
    ensures AddZero(AddZero(number).value) == AddZero(number)
  {
    AddZeroSpec(number);
    var r := AddZero(number).value;
    if Fraction(number) < 2 {
      IndexAppend(number, "0");
      assert '.' in r by {
        assert r[Index(number, '.').value] == '.';
      }
      AddZeroSpec(r);
    } else {
      AddZeroSpec(r);
    }
  }

  /** Without any character after the point the padding is not idempotent:
      "c." becomes "c.0" and then "c.00". */
  lemma BarePointPadsTwice(c: char)
    requires c != '.'
    ensures AddZero([c, '.']) == Ok([c, '.', '0'])
    ensures AddZero([c, '.', '0']) == Ok([c, '.', '0', '0'])
  {
    var a, b := [c, '.'], [c, '.', '0'];
    assert a[0] != '.' && b[0] != '.';
    assert Index(a, '.') == Ok(1);
    assert Index(b, '.') == Ok(1);
    assert a + "0" == b;
    assert b + "0" == [c, '.', '0', '0'];
  }
}

=== FILE: wrap.dfy ===
/** Line wrapping for scrambles wider than the canvas: `break_top_line` and
    `Scramble.render` / `Scramble.clear` of cl_timer/graphics.py. */
module Wrap {
  import opened Results
  import opened Text
  import opened Canvas
  import opened Images

  /** The `substrings` list `break_top_line` builds: the moves with a
      one-space piece between each two. */
  function Pieces(moves: seq<string>): (ps: seq<string>)
    requires |moves| >= 1
    ensures |ps| == 2 * |moves| - 1
    decreases |moves|
  {
    if |moves| == 1 then [moves[0]] else [moves[0], " "] + Pieces(moves[1..])
  }

  /** Even pieces are the moves, odd pieces are single spaces. */
  lemma {:induction false} PieceAt(moves: seq<string>, i: nat)
    requires |moves| >= 1 && i < 2 * |moves| - 1
    ensures Pieces(moves)[i] == if i % 2 == 0 then moves[i / 2] else " "
    decreases i
  {
    if i >= 2 {
      PieceAt(moves[1..], i - 2);
      assert Pieces(moves)[i] == Pieces(moves[1..])[i - 2];
    }
  }

  /** `[len(substring) for substring in substrings]`. */
  function Lengths(ps: seq<string>): (ls: seq<nat>)
    ensures |ls| == |ps| && forall i :: 0 <= i < |ps| ==> ls[i] == |ps[i]|
  {
    seq(|ps|, i requires 0 <= i < |ps| => |ps[i]|)
  }

  function Sum(ls: seq<nat>): nat
    decreases |ls|
  {
    if |ls| == 0 then 0 else ls[0] + Sum(ls[1..])
  }

  /** `sum(lengths[:i])`. */
  function PrefixSum(ls: seq<nat>, i: nat): nat
    requires i <= |ls|
  {
    Sum(ls[..i])
  }

  /** The scan of `break_top_line`'s loop from index `i`, with `previous`
      the prefix sum of the iteration before. */
  function BreakScan(ls: seq<nat>, n: int, i: nat, previous: nat): nat
    requires i <= |ls|
    decreases |ls| - i
  {
    if i == |ls| then 0
    else
      var sliceSum := PrefixSum(ls, i);
      if n == sliceSum then sliceSum
      else if n < sliceSum && n > previous then previous
      else BreakScan(ls, n, i + 1, sliceSum)
  }

  /** The prefix sums `break_top_line` scans for text `s`. */
  function BreakLengths(s: string): seq<nat> {
    Lengths(Pieces(Split(s, ' ')))
  }

  /** `newline_index`: where `break_top_line(s, n)` puts the line break. */
  function BreakIndex(s: string, n: int): nat {
    BreakScan(BreakLengths(s), n, 0, 0)
  }

  /** `break_top_line(string, line_length)`. */
  function BreakTopLine(s: string, n: int): string {
    InsertAt(s, BreakIndex(s, n), '\n')
  }

  // ---------------------------------------------------------------------
  // prefix sums

  lemma {:induction false} SumAppend(a: seq<nat>, b: seq<nat>)
    ensures Sum(a + b) == Sum(a) + Sum(b)
    decreases |a|
  {
    if |a| == 0 {
      assert a + b == b;
    } else {
      assert (a + b)[1..] == a[1..] + b;
      SumAppend(a[1..], b);
    }
  }

  lemma PrefixSumStep(ls: seq<nat>, i: nat)
    requires i < |ls|
    ensures PrefixSum(ls, i + 1) == PrefixSum(ls, i) + ls[i]
  {
    assert ls[..i + 1] == ls[..i] + [ls[i]];
    SumAppend(ls[..i], [ls[i]]);
  }

  /** Prefix sums never decrease. */
  lemma {:induction false} PrefixSumMonotone(ls: seq<nat>, i: nat, j: nat)
    requires i <= j <= |ls|
    ensures PrefixSum(ls, i) <= PrefixSum(ls, j)
    decreases j - i
  {
    if i < j {
      PrefixSumStep(ls, j - 1);
      PrefixSumMonotone(ls, i, j - 1);
    }
  }

  lemma {:induction false} SumLengths(ps: seq<string>)
    ensures Sum(Lengths(ps)) == |Concat(ps)|
    decreases |ps|
  {
    if |ps| > 0 {
      SumLengths(ps[1..]);
      assert Lengths(ps)[1..] == Lengths(ps[1..]);
    }
  }

  /** Prefix sum `i` is the length of the first `i` pieces. */
  lemma PrefixSumIsPrefixLength(ps: seq<string>, i: nat)
    requires i <= |ps|
    ensures PrefixSum(Lengths(ps), i) == |Concat(ps[..i])|
  {
    assert Lengths(ps)[..i] == Lengths(ps[..i]);
    SumLengths(ps[..i]);
  }

  lemma {:induction false} ConcatPieces(moves: seq<string>)
    requires |moves| >= 1
    ensures Concat(Pieces(moves)) == Join(moves, ' ')
    decreases |moves|
  {
    if |moves| > 1 {
      ConcatPieces(moves[1..]);
      var ps := Pieces(moves);
      assert ps == [moves[0], " "] + Pieces(moves[1..]);
      assert ps[1..] == [" "] + Pieces(moves[1..]);
      assert ps[2..] == Pieces(moves[1..]);
    }
  }

  /** The pieces of `s` put back together are `s`. */
  lemma PiecesOfText(s: string)
    ensures Concat(Pieces(Split(s, ' '))) == s
    ensures Sum(BreakLengths(s)) == |s|
  {
    ConcatPieces(Split(s, ' '));
    JoinSplit(s, ' ');
    SumLengths(Pieces(Split(s, ' ')));
  }

  // ---------------------------------------------------------------------
  // where the break goes

  /** The scan never breaks for a negative line length. */
  lemma {:induction false} BreakScanNegative(ls: seq<nat>, n: int, i: nat, previous: nat)
    requires i <= |ls| && n < 0
    ensures BreakScan(ls, n, i, previous) == 0
    decreases |ls| - i
  {
    if i < |ls| {
      BreakScanNegative(ls, n, i + 1, PrefixSum(ls, i));
    }
  }

  /** For a positive line length the scan returns the largest prefix sum not
      above `n` as soon as some prefix sum reaches `n`, and 0 when none does. */
  lemma {:induction false} BreakScanSpec(ls: seq<nat>, n: int, i: nat, previous: nat) returns (j: nat)
    requires i <= |ls| && n >= 1
    requires previous == (if i == 0 then 0 else PrefixSum(ls, i - 1))
    requires forall m :: 0 <= m < i ==> PrefixSum(ls, m) < n
    ensures BreakScan(ls, n, i, previous) <= n
    ensures (forall m :: 0 <= m < |ls| ==> PrefixSum(ls, m) < n) ==> BreakScan(ls, n, i, previous) == 0
    ensures (exists m :: 0 <= m < |ls| && PrefixSum(ls, m) >= n) ==>
              && j < |ls| && BreakScan(ls, n, i, previous) == PrefixSum(ls, j)
              && forall m :: 0 <= m < |ls| && PrefixSum(ls, m) <= n ==> PrefixSum(ls, m) <= BreakScan(ls, n, i, previous)
    decreases |ls| - i
  {
    if i == |ls| {
      j := 0;
    } else {
      var sliceSum := PrefixSum(ls, i);
      if n == sliceSum {
        j := i;
      } else if n < sliceSum && n > previous {
        assert i > 0;
        j := i - 1;
        forall m | 0 <= m < |ls| && PrefixSum(ls, m) <= n
          ensures PrefixSum(ls, m) <= previous
        {
          if m >= i {
            PrefixSumMonotone(ls, i, m);
          } else {
            PrefixSumMonotone(ls, m, i - 1);
          }
        }
      } else {
        assert sliceSum < n;
        j := BreakScanSpec(ls, n, i + 1, sliceSum);
      }
    }
  }

  /** The break index with the prefix sum it equals, for any line length. */
  lemma BreakIndexSpec(s: string, n: int) returns (j: nat)
    ensures var k := BreakIndex(s, n);
            && k <= |s|
            && (k > 0 ==> k <= n && j < |BreakLengths(s)| && k == PrefixSum(BreakLengths(s), j))
            && (n >= 0 ==> k <= n)
  {
    var ls := BreakLengths(s);
    PiecesOfText(s);
    if n < 0 {
      BreakScanNegative(ls, n, 0, 0);
      j := 0;
    } else if n == 0 {
      assert PrefixSum(ls, 0) == 0;
      j := 0;
    } else {
      j := BreakScanSpec(ls, n, 0, 0);
      if BreakIndex(s, n) > 0 {
        PrefixSumMonotone(ls, j, |ls|);
        assert ls[..|ls|] == ls;
      }
    }
  }

  /** The bounds every break index keeps: inside the text, and never past
      the line length unless it is 0. */
  lemma BreakIndexBounds(s: string, n: int)
    ensures BreakIndex(s, n) <= |s|
    ensures BreakIndex(s, n) > 0 ==> BreakIndex(s, n) <= n
    ensures n >= 0 ==> BreakIndex(s, n) <= n
  {
    var _ := BreakIndexSpec(s, n);
  }

  /** Inserting a line break at `k` keeps the text around it. */
  lemma InsertBreak(s: string, k: nat)
    requires k <= |s|
    ensures var r := InsertAt(s, k, '\n');
            && r == s[..k] + "\n" + s[k..]
            && r[..k] + r[k + 1..] == s
  {
    var r := InsertAt(s, k, '\n');
    assert r[..k] == s[..k] && r[k + 1..] == s[k..];
  }

  /** `break_top_line(s, n)` with `n >= 0` puts one line break into `s` at an
      index `k <= n`; taking it out again gives back `s`. */
  lemma BreakTopLineSpec(s: string, n: int)
    requires n >= 0
    ensures var k := BreakIndex(s, n);
            var r := BreakTopLine(s, n);
            && k <= n && k <= |s|
            && r == s[..k] + "\n" + s[k..]
            && r[..k] + r[k + 1..] == s
            && Count(r, '\n') == Count(s, '\n') + 1
  {
    var k := BreakIndex(s, n);
    BreakIndexBounds(s, n);
    InsertBreak(s, k);
    CountOne(s[..k], s[k..], '\n');
    assert s[..k] + s[k..] == s;
  }

  /** The break index is 0 or one of the prefix sums the loop scans; it is the
      largest one not above `n` whenever some scanned prefix sum reaches `n`,
      and 0 whenever none does. A text that fits is not always left alone:
      one ending in a blank reaches its full length at the empty last piece
      and is broken there (`TrailingBlankBreaks`). */
  lemma BreakIndexChoice(s: string, n: int) returns (j: nat)
    requires n >= 1
    ensures var ls := BreakLengths(s); var k := BreakIndex(s, n);
            && (k == 0 || (j < |ls| && k == PrefixSum(ls, j)))
            && ((forall m :: 0 <= m < |ls| ==> PrefixSum(ls, m) < n) ==> k == 0)
            && ((exists m :: 0 <= m < |ls| && PrefixSum(ls, m) >= n) ==>
                  && j < |ls| && k == PrefixSum(ls, j)
                  && forall m :: 0 <= m < |ls| && PrefixSum(ls, m) <= n ==> PrefixSum(ls, m) <= k)
  {
    j := BreakScanSpec(BreakLengths(s), n, 0, 0);
    var _ := BreakIndexSpec(s, n);
    if BreakIndex(s, n) > 0 && !(exists m :: 0 <= m < |BreakLengths(s)| && PrefixSum(BreakLengths(s), m) >= n) {
      assert false;
    }
  }

  /** Between two pieces there is always a space: right before the cut
      when the cut follows a space piece, right after it otherwise. */
  lemma PieceBoundary(moves: seq<string>, j: nat)
    requires |moves| >= 1 && 0 < j < |Pieces(moves)|
    ensures var ps := Pieces(moves); var s := Concat(ps); var k := |Concat(ps[..j])|;
            (0 < k <= |s| && s[k - 1] == ' ') || (k < |s| && s[k] == ' ')
  {
    var ps := Pieces(moves);
    if j % 2 == 0 {
      PieceAt(moves, j - 1);
      SpaceBeforeCut(ps, j);
    } else {
      PieceAt(moves, j);
      SpaceAfterCut(ps, j);
    }
  }

  /** Cutting right after a `" "` piece puts a space just before the cut. */
  lemma SpaceBeforeCut(ps: seq<string>, j: nat)
    requires 0 < j <= |ps| && ps[j - 1] == " "
    ensures var k := |Concat(ps[..j])|;
            0 < k <= |Concat(ps)| && Concat(ps)[k - 1] == ' '
  {
    var pre := ps[..j];
    assert ps == pre + ps[j..];
    ConcatAppend(pre, ps[j..]);
    assert pre == ps[..j - 1] + [" "];
    ConcatAppend(ps[..j - 1], [" "]);
    assert Concat([" "]) == " ";
  }

  /** Cutting right before a `" "` piece puts a space just after the cut. */
  lemma SpaceAfterCut(ps: seq<string>, j: nat)
    requires j < |ps| && ps[j] == " "
    ensures var k := |Concat(ps[..j])|;
            k < |Concat(ps)| && Concat(ps)[k] == ' '
  {
    var post := ps[j..];
    assert ps == ps[..j] + post;
    ConcatAppend(ps[..j], post);
    assert post == [" "] + ps[j + 1..];
    ConcatAppend([" "], ps[j + 1..]);
    assert Concat([" "]) == " ";
  }

  /** No move is cut: a positive break index sits right after a space or
      right before one. */
  lemma BreakAtSpace(s: string, n: int)
    ensures var k := BreakIndex(s, n);
            k == 0 || (k <= |s| && s[k - 1] == ' ') || (k < |s| && s[k] == ' ')
  {
    var k := BreakIndex(s, n);
    var j := BreakIndexSpec(s, n);
    if k > 0 {
      var moves := Split(s, ' ');
      var ps := Pieces(moves);
      PiecesOfText(s);
      PrefixSumIsPrefixLength(ps, j);
      assert ps[..0] == [];
      PieceBoundary(moves, j);
    }
  }

  /** On a single line the broken text splits into the two halves. */
  lemma BreakSplit(s: string, n: int)
    requires '\n' !in s
    ensures var k := BreakIndex(s, n);
            && k <= |s|
            && Split(BreakTopLine(s, n), '\n') == [s[..k], s[k..]]
  {
    var k := BreakIndex(s, n);
    BreakIndexBounds(s, n);
    assert '\n' !in s[..k] && '\n' !in s[k..] by {
      assert forall c :: c in s[..k] ==> c in s;
      assert forall c :: c in s[k..] ==> c in s;
    }
    assert BreakTopLine(s, n) == s[..k] + ['\n'] + s[k..];
    SplitAtSep(s[..k], '\n', s[k..]);
    SplitNoSep(s[k..], '\n');
  }

  // ---------------------------------------------------------------------
  // Scramble.render

  /** One round of `Scramble.render`'s loop:
      `top_line, new_bottom_line = break_top_line(bottom_line, n).split('\n')`. */
  function WrapRound(bottom: string, n: int): (r: (string, string))
    requires '\n' !in bottom
  {
    BreakSplit(bottom, n);
    var parts := Split(BreakTopLine(bottom, n), '\n');
    (parts[0], parts[1])
  }

  /** A round cuts the text at its break index, and leaves the remainder
      unchanged exactly when that index is 0. */
  lemma WrapRoundCuts(bottom: string, n: int)
    requires '\n' !in bottom
    ensures var k := BreakIndex(bottom, n);
            && k <= |bottom|
            && WrapRound(bottom, n) == (bottom[..k], bottom[k..])
            && (WrapRound(bottom, n).1 == bottom <==> k == 0)
  {
    var k := BreakIndex(bottom, n);
    BreakSplit(bottom, n);
    if k > 0 {
      assert |bottom[k..]| < |bottom|;
    }
  }

  /** The `while True` loop of `Scramble.render`, stated through the break
      index: cut the text before the break off as the next line until the
      break falls at 0. Returns the lines appended to `lines` and the final
      remainder, which is never shown. `WrapLoopFollowsRounds` shows this is
      the source's loop round by round. */
  function WrapLoop(bottom: string, n: int): (r: (seq<string>, string))
    requires '\n' !in bottom
    decreases |bottom|
  {
    var k := BreakIndex(bottom, n);
    BreakIndexBounds(bottom, n);
    if k == 0 then ([""], bottom)
    else
      assert forall c :: c in bottom[k..] ==> c in bottom;
      var (lines, rest) := WrapLoop(bottom[k..], n);
      ([bottom[..k]] + lines, rest)
  }

  /** The loop as `Scramble.render` writes it: run a round, append the top
      line, and stop once the new remainder equals the old one; otherwise go
      on with the new remainder. The source's condition binds the comparison's
      result to the walrus variable; this is the comparison its comment
      describes. */
  lemma WrapLoopFollowsRounds(bottom: string, n: int)
    requires '\n' !in bottom
    ensures var (top, newBottom) := WrapRound(bottom, n);
            && '\n' !in newBottom
            && WrapLoop(bottom, n) ==
                 if newBottom == bottom then ([top], bottom)
                 else ([top] + WrapLoop(newBottom, n).0, WrapLoop(newBottom, n).1)
  {
    var k := BreakIndex(bottom, n);
    WrapRoundCuts(bottom, n);
    assert forall c :: c in bottom[k..] ==> c in bottom;
    if k == 0 {
      assert bottom[..0] == "";
    }
  }

  /** The emitted lines followed by the dropped remainder are the original
      text; every line but the last is non-empty and at most `n` long; the
      last line is empty. */
  predicate WrapsText(bottom: string, n: int, lines: seq<string>, rest: string) {
    && |lines| >= 1
    && Concat(lines) + rest == bottom
    && lines[|lines| - 1] == ""
    && forall i :: 0 <= i < |lines| - 1 ==> 0 < |lines[i]| <= n
  }

  /** The loop's lines and remainder wrap the text: see `WrapsText`. */
  lemma {:induction false} WrapLoopSpec(bottom: string, n: int)
    requires '\n' !in bottom
    ensures var (lines, rest) := WrapLoop(bottom, n);
            && |lines| >= 1
            && Concat(lines) + rest == bottom
            && lines[|lines| - 1] == ""
            && forall i :: 0 <= i < |lines| - 1 ==> 0 < |lines[i]| <= n
  {
    WrapLoopWraps(bottom, n);
  }

  /** `WrapLoopSpec` stated through `WrapsText`, by induction on the text. */
  lemma {:induction false} WrapLoopWraps(bottom: string, n: int)
    requires '\n' !in bottom
    ensures WrapsText(bottom, n, WrapLoop(bottom, n).0, WrapLoop(bottom, n).1)
    decreases |bottom|
  {
    var k := BreakIndex(bottom, n);
    BreakIndexBounds(bottom, n);
    if k == 0 {
      assert WrapLoop(bottom, n) == ([""], bottom);
      assert Concat([""]) == "";
    } else {
      var tail := bottom[k..];
      assert '\n' !in tail by {
        assert forall c :: c in tail ==> c in bottom;
      }
      WrapLoopWraps(tail, n);
      var lines, rest := WrapLoop(tail, n).0, WrapLoop(tail, n).1;
      assert WrapLoop(bottom, n) == ([bottom[..k]] + lines, rest);
      WrapLoopSpecStep(bottom, k, n, lines, rest);
    }
  }

  /** The inductive step of `WrapLoopWraps`: a non-empty top line of at most
      `n` characters put in front of the lines of the rest keeps their shape. */
  lemma WrapLoopSpecStep(bottom: string, k: nat, n: int, lines: seq<string>, rest: string)
    requires 0 < k <= |bottom| && k <= n
    requires WrapsText(bottom[k..], n, lines, rest)
    ensures WrapsText(bottom, n, [bottom[..k]] + lines, rest)
  {
    var top := bottom[..k];
    var all := [top] + lines;
    assert Concat(all) == top + Concat(lines) by {
      assert all[1..] == lines;
    }
    assert top + bottom[k..] == bottom;
    assert forall i :: 1 <= i < |all| ==> all[i] == lines[i - 1];
  }

  /** The loop stops exactly where `break_top_line` no longer moves the
      break: the remainder it leaves has break index 0. */
  lemma {:induction false} WrapLoopStops(bottom: string, n: int)
    requires '\n' !in bottom
    ensures BreakIndex(WrapLoop(bottom, n).1, n) == 0
    decreases |bottom|
  {
    var k := BreakIndex(bottom, n);
    BreakIndexBounds(bottom, n);
    if k > 0 {
      assert forall c :: c in bottom[k..] ==> c in bottom;
      WrapLoopStops(bottom[k..], n);
    }
  }

  /** A move letter: neither a space nor a line break. */
  predicate Letter(c: char) {
    c != ' ' && c != '\n'
  }

  /** The piece lengths of three one-letter moves: three moves and two spaces. */
  lemma LengthsOfThreeMoves(a: char, b: char, c: char)
    requires Letter(a) && Letter(b) && Letter(c)
    ensures BreakLengths([a, ' ', b, ' ', c]) == [1, 1, 1, 1, 1]
  {
    var s := [a, ' ', b, ' ', c];
    var ms := [[a], [b], [c]];
    assert ms[1..] == [[b], [c]] && ms[1..][1..] == [[c]];
    assert Join(ms[1..], ' ') == [b, ' ', c];
    assert Join(ms, ' ') == s;
    SplitJoin(ms, ' ');
    assert Pieces(ms[1..]) == [[b], " ", [c]];
    var ps := Pieces(ms);
    assert ps == [[a], " ", [b], " ", [c]];
    assert Lengths(ps) == [1, 1, 1, 1, 1];
  }

  /** The piece lengths of a space and a one-letter move. */
  lemma LengthsOfRemainder(c: char)
    requires Letter(c)
    ensures BreakLengths([' ', c]) == [0, 1, 1]
  {
    var ms := ["", [c]];
    assert ms[1..] == [[c]];
    assert Join(ms, ' ') == [' ', c];
    SplitJoin(ms, ' ');
    assert Pieces(ms[1..]) == [[c]];
    var ps := Pieces(ms);
    assert ps == ["", " ", [c]];
    assert Lengths(ps) == [0, 1, 1];
  }

  /** The first prefix sums of a sequence of ones. */
  lemma PrefixSumsOfOnes(ls: seq<nat>)
    requires ls == [1, 1, 1, 1, 1]
    ensures PrefixSum(ls, 0) == 0 && PrefixSum(ls, 1) == 1
    ensures PrefixSum(ls, 2) == 2 && PrefixSum(ls, 3) == 3
  {
    assert ls[..0] == [];
    PrefixSumStep(ls, 0);
    PrefixSumStep(ls, 1);
    PrefixSumStep(ls, 2);
  }

  /** Three one-letter moves with line length 3 break after the second. */
  lemma FirstBreakOfExample(a: char, b: char, c: char)
    requires Letter(a) && Letter(b) && Letter(c)
    ensures BreakIndex([a, ' ', b, ' ', c], 3) == 3
  {
    LengthsOfThreeMoves(a, b, c);
    var ls := BreakLengths([a, ' ', b, ' ', c]);
    PrefixSumsOfOnes(ls);
    assert BreakScan(ls, 3, 3, 2) == 3;
    assert BreakScan(ls, 3, 2, 1) == 3;
    assert BreakScan(ls, 3, 1, 0) == 3;
  }

  /** A space and a one-letter move with line length 3 break at index 0. */
  lemma SecondBreakOfExample(c: char)
    requires Letter(c)
    ensures BreakIndex([' ', c], 3) == 0
  {
    LengthsOfRemainder(c);
    var lt := BreakLengths([' ', c]);
    assert lt[..0] == [];
    PrefixSumStep(lt, 0);
    PrefixSumStep(lt, 1);
    assert BreakScan(lt, 3, 3, 1) == 0;
    assert BreakScan(lt, 3, 2, 0) == 0;
    assert BreakScan(lt, 3, 1, 0) == 0;
  }

  /** The piece lengths of a one-letter move followed by a blank. */
  lemma LengthsOfTrailingBlank(a: char)
    requires Letter(a)
    ensures BreakLengths([a, ' ']) == [1, 1, 0]
  {
    var ms := [[a], ""];
    assert ms[1..] == [""];
    assert Join(ms, ' ') == [a, ' '];
    SplitJoin(ms, ' ');
    assert Pieces(ms[1..]) == [""];
    var ps := Pieces(ms);
    assert ps == [[a], " ", ""];
    assert Lengths(ps) == [1, 1, 0];
  }

  /** A text that fits can still be broken: a one-letter move and a
      trailing blank, two characters, with line length 2 reach the prefix
      sum 2 at the empty last piece, so the break goes at index 2, after
      the blank. */
  lemma TrailingBlankBreaks(a: char)
    requires Letter(a)
    ensures BreakIndex([a, ' '], 2) == 2
  {
    LengthsOfTrailingBlank(a);
    var ls := BreakLengths([a, ' ']);
    assert ls[..0] == [];
    PrefixSumStep(ls, 0);
    PrefixSumStep(ls, 1);
    assert BreakScan(ls, 2, 2, 1) == 2;
    assert BreakScan(ls, 2, 1, 0) == 2;
  }

  /** The last move of a wrapped scramble can be dropped: three one-letter
      moves (five characters, say "R U F") with line length 3 (a four-column
      canvas) keep the first two moves and an empty line; the third move is
      never shown. */
  lemma WrapDropsRemainder(a: char, b: char, c: char)
    requires Letter(a) && Letter(b) && Letter(c)
    ensures WrapLoop([a, ' ', b, ' ', c], 3) == ([[a, ' ', b], ""], [' ', c])
  {
    var s := [a, ' ', b, ' ', c];
    var t := s[3..];
    assert s[..3] == [a, ' ', b] && t == [' ', c];
    assert WrapLoop(t, 3) == ([""], t) by {
      SecondBreakOfExample(c);
    }
    assert WrapLoop(s, 3) == ([s[..3]] + WrapLoop(t, 3).0, WrapLoop(t, 3).1) by {
      FirstBreakOfExample(a, b, c);
    }
    assert [s[..3]] + [""] == [[a, ' ', b], ""];
  }

  /** `[l.strip() for l in lines]`. */
  function StripAll(lines: seq<string>): (r: seq<string>)
    ensures |r| == |lines| && forall i :: 0 <= i < |lines| ==> r[i] == Strip(lines[i])
  {
    seq(|lines|, i requires 0 <= i < |lines| => Strip(lines[i]))
  }

  /** A scramble laid out as `Char.fromstring` lays out one line of text:
      cell `k` sits at column `k` of row 0 and is not a line break. For such
      an image `str(self)` is the characters in list order, `RowText`. */
  predicate SingleRow(img: Image) {
    forall k :: 0 <= k < |img.cells| ==>
      img.cells[k].x == k && img.cells[k].y == 0 && img.cells[k].ch != '\n'
  }

  /** One line of text read by `Char.fromstring` is a single-row scramble. */
  lemma LineIsSingleRow(x: int, y: int, s: string)
    requires '\n' !in s
    ensures SingleRow(Image(x, y, FromString(s)))
    ensures RowText(FromString(s)) == s
  {
    FromStringLine(s);
    RowTextFromString(s);
  }

  /** A single-row scramble is its text laid out on row 0, and that text
      holds no line break: `str(self)` reads its one row, left to right. */
  lemma SingleRowText(img: Image)
    requires SingleRow(img)
    ensures img.cells == RowCells(RowText(img.cells), 0)
    ensures '\n' !in RowText(img.cells)
  {
    var text := RowText(img.cells);
    assert forall k :: 0 <= k < |text| ==> text[k] != '\n';
  }

  /** The image `Scramble.render` rebuilds for a canvas `width` columns
      wide: the wrapped lines, each stripped, joined by line breaks. */
  function Wrapped(img: Image, width: nat): (r: Image)
    requires SingleRow(img)
    ensures r.x == img.x && r.y == img.y
  {
    var (lines, _) := WrapLoop(RowText(img.cells), width - 1);
    Image(img.x, img.y, FromString(Join(StripAll(lines), '\n')))
  }

  /** `Scramble.render`: `len(self.canvas.grid[0])` raises IndexError on a
      canvas without rows. Otherwise a scramble with more cells than the
      canvas is wide is rebuilt from its wrapped lines: the emitted lines and
      the dropped remainder make up its text, the rebuilt cells hold exactly
      the characters of the stripped lines, and every rebuilt cell lies in a
      column below `width - 1` and above the final, empty line. A scramble
      that fits keeps its cells. Either way the cells are drawn. */
  function ScrambleRender(g: Grid, img: Image): (r: Result<(Grid, Image)>)
    requires SingleRow(img)
    ensures r.Ok? <==> |g| > 0
    ensures r.Err? ==> r.error == IndexError
    ensures r.Ok? ==> r.value.1.x == img.x && r.value.1.y == img.y && r.value.0 == Render(g, r.value.1)
    ensures r.Ok? && |img.cells| <= |g[0]| ==> r.value.1 == img
    ensures r.Ok? && |img.cells| > |g[0]| ==>
              var (lines, rest) := WrapLoop(RowText(img.cells), |g[0]| - 1);
              && Concat(lines) + rest == RowText(img.cells)
              && HoldsLines(r.value.1.cells, StripAll(lines))
              && forall k :: 0 <= k < |r.value.1.cells| ==>
                   0 <= r.value.1.cells[k].x < |g[0]| - 1 && r.value.1.cells[k].y < |lines| - 1
  {
    if |g| == 0 then Err(IndexError)
    else
      var width := |g[0]|;
      if |img.cells| > width then
        ScrambleRenderFits(img, width);
        var wrapped := Wrapped(img, width);
        Ok((Render(g, wrapped), wrapped))
      else
        Ok((Render(g, img), img))
  }

  /** Lines as the wrapping loop leaves them for a width of `n`: at least
      one, none longer than `n` or holding a line break, the last one empty. */
  predicate WrapShaped(lines: seq<string>, n: int) {
    && |lines| >= 1 && lines[|lines| - 1] == ""
    && NoBreaks(lines)
    && forall i :: 0 <= i < |lines| - 1 ==> |lines[i]| <= n
  }

  /** Cells holding wrapped lines lie in columns below `n` and above the
      last, empty line. */
  lemma CellsFitLines(cells: seq<Cell>, ls: seq<string>, n: int)
    requires WrapShaped(ls, n) && HoldsLines(cells, ls)
    ensures forall k :: 0 <= k < |cells| ==> 0 <= cells[k].x < n && 0 <= cells[k].y < |ls| - 1
  {
    forall k | 0 <= k < |cells|
      ensures 0 <= cells[k].x < n && 0 <= cells[k].y < |ls| - 1
    {
      assert 0 <= cells[k].y < |ls| && 0 <= cells[k].x < |ls[cells[k].y]|;
    }
  }

  /** Wrapped lines joined and rebuilt into cells come back as those lines,
      their cells hold exactly those lines' characters, and every cell lies
      in a column below `n` and above the last line. */
  lemma CellsWithinLines(ls: seq<string>, n: int)
    requires WrapShaped(ls, n)
    ensures Split(Join(ls, '\n'), '\n') == ls
    ensures HoldsLines(FromString(Join(ls, '\n')), ls)
    ensures forall k :: 0 <= k < |FromString(Join(ls, '\n'))| ==>
              0 <= FromString(Join(ls, '\n'))[k].x < n && 0 <= FromString(Join(ls, '\n'))[k].y < |ls| - 1
  {
    SplitJoin(ls, '\n');
    JoinedCells(ls);
    CellsFitLines(FromString(Join(ls, '\n')), ls, n);
  }

  /** No line holds a break when their concatenation holds none. */
  lemma {:induction false} ConcatNoBreaks(lines: seq<string>)
    requires '\n' !in Concat(lines)
    ensures NoBreaks(lines)
    decreases |lines|
  {
    if |lines| > 0 {
      assert forall c :: c in lines[0] ==> c in Concat(lines);
      assert forall c :: c in Concat(lines[1..]) ==> c in Concat(lines);
      ConcatNoBreaks(lines[1..]);
      assert forall i :: 1 <= i < |lines| ==> lines[i] == lines[1..][i - 1];
    }
  }

  /** Stripping adds no line break. */
  lemma StripAllNoBreaks(lines: seq<string>)
    requires NoBreaks(lines)
    ensures NoBreaks(StripAll(lines))
  {
    forall i | 0 <= i < |lines|
      ensures '\n' !in StripAll(lines)[i]
    {
      StripNoBreak(lines[i]);
    }
  }

  /** Stripping never lengthens a line. */
  lemma StripAllShorter(lines: seq<string>)
    ensures forall i :: 0 <= i < |lines| ==> |StripAll(lines)[i]| <= |lines[i]|
  {
    forall i | 0 <= i < |lines|
      ensures |StripAll(lines)[i]| <= |lines[i]|
    {
      StripShorter(lines[i]);
    }
  }

  /** Stripping keeps lines short, the empty last line empty, and adds no
      line break. */
  lemma StripKeepsShape(lines: seq<string>, n: int)
    requires WrapShaped(lines, n)
    ensures WrapShaped(StripAll(lines), n)
  {
    StripAllLastEmpty(lines);
    StripAllNoBreaks(lines);
    StripAllShorter(lines);
    ShorterKeepsShape(lines, StripAll(lines), n);
  }

  /** Stripping keeps an empty last line empty. */
  lemma StripAllLastEmpty(lines: seq<string>)
    requires |lines| >= 1 && |lines[|lines| - 1]| == 0
    ensures |StripAll(lines)| == |lines| && StripAll(lines)[|lines| - 1] == lines[|lines| - 1]
  {
    StripEmptyLine(lines[|lines| - 1]);
  }

  /** Break-free lines ending in the empty line, each no longer than its
      counterpart in wrapped lines, are wrapped lines too. */
  lemma ShorterKeepsShape(lines: seq<string>, shorter: seq<string>, n: int)
    requires WrapShaped(lines, n) && |shorter| == |lines| && shorter[|lines| - 1] == ""
    requires NoBreaks(shorter)
    requires forall i :: 0 <= i < |lines| ==> |shorter[i]| <= |lines[i]|
    ensures WrapShaped(shorter, n)
  {
  }

  lemma StripNoBreak(s: string)
    requires '\n' !in s
    ensures '\n' !in Strip(s)
  {
  }

  /** Stripping an empty line leaves it empty. */
  lemma StripEmptyLine(s: string)
    requires |s| == 0
    ensures Strip(s) == s
  {
    StripShorter(s);
  }

  lemma StripShorter(s: string)
    ensures |Strip(s)| <= |s|
  {
  }

  /** The stripped loop lines keep the shape `WrapLoopSpec` promises. */
  lemma StrippedLines(text: string, n: int)
    requires '\n' !in text
    ensures WrapShaped(StripAll(WrapLoop(text, n).0), n)
  {
    var lines := WrapLoop(text, n).0;
    WrapLoopSpec(text, n);
    assert '\n' !in Concat(lines) by {
      assert forall c :: c in Concat(lines) ==> c in text;
    }
    ConcatNoBreaks(lines);
    StripKeepsShape(lines, n);
  }

  /** A wrapped scramble fits the canvas: the emitted lines and the dropped
      remainder make up the scramble's text, the rebuilt lines are the
      stripped loop lines, and every rebuilt cell lies in a column below
      `width - 1` and above the final, empty line. */
  lemma ScrambleRenderFits(img: Image, width: nat)
    requires SingleRow(img)
    ensures var (lines, rest) := WrapLoop(RowText(img.cells), width - 1);
            var wrapped := Wrapped(img, width);
            && Concat(lines) + rest == RowText(img.cells)
            && Split(Join(StripAll(lines), '\n'), '\n') == StripAll(lines)
            && HoldsLines(wrapped.cells, StripAll(lines))
            && forall k :: 0 <= k < |wrapped.cells| ==>
                 0 <= wrapped.cells[k].x < width - 1 && wrapped.cells[k].y < |lines| - 1
  {
    var text := RowText(img.cells);
    WrapLoopSpec(text, width - 1);
    StrippedLines(text, width - 1);
    CellsWithinLines(StripAll(WrapLoop(text, width - 1).0), width - 1);
  }

  /** The `chars` setter as a `Scramble` runs it: blank the old columns on the
      origin row, swap in the new cells, then `Scramble.render`. */
  function ScrambleSetChars(g: Grid, img: Image, cells: seq<Cell>): (r: Result<(Grid, Image)>)
    requires SingleRow(Image(img.x, img.y, cells))
    ensures r.Ok? <==> |g| > 0
    ensures r.Err? ==> r.error == IndexError
    ensures r.Ok? ==> r.value.1.x == img.x && r.value.1.y == img.y
  {
    var blanked := Stamp(g, CoverWrites(img));
    ScrambleRender(blanked, Image(img.x, img.y, cells))
  }
}
